=== FILE: README.md ===
# Nightreign build calculator: a verified model of its core

The Nightreign build calculator reads an Elden Ring Nightreign save file and
recommends relic builds. Its core is made of three parts, and this project
models each in Dafny and proves properties about it.

- **Relic extraction.** `server/relic_extractor.py`, with its browser port
  `client/src/utils/relicExtractor.js`.
  - A `.sl2` save is a BND4 container of AES-CBC encrypted entries.
  - The extractor decrypts the entries and joins the fourteen `USERDATA`
    entries into one memory image.
  - For each of the ten character slots, it finds the character's name
    anchor inside the slot's one-megabyte window.
  - It then walks the bytes before the anchor for framed 72-byte relic
    records.
- **Build optimisation.**
  - `client/src/utils/calculation.js`:
    - processes and scores the relics;
    - runs a branch-and-bound search over the slots of each vessel (a relic
      holder with coloured base and deep slots);
    - checks required effects and keeps the builds of maximum score.
  - `client/src/utils/guaranteeableCalculation.js` and
    `client/src/utils/guaranteeableRelics.js` run the calculation a second
    time. In that pass the save file is augmented with the "guaranteeable"
    relics (fixed-effect relics the player can always obtain) it lacks.
- **Helpers.**
  - `client/src/utils/utils.js`: effect names, image slugs and the effect map.
  - `client/src/utils/crypto.js`: pairing codes.
  - `client/src/utils/peerjs.js`: server choice, chunked sending and
    reassembly of a save between two browsers.

Code that changes state step by step is modelled as methods with loops. Each
such method is proved against a specification function. Expression-level
code is modelled as functions. The project's modules:

- Shared byte and text primitives: `Bytes`, `Text`.
- The container layout: `Bnd4`.
- The two container decoders: `ContainerPy`, `ContainerJs`.
- The slot windows and the anchor logic: `Sections`, `Anchor`.
- The relic-record scanner: `SlotScanner`.
- The two extraction drivers: `ExtractPy`, `ExtractJs`.
- The unused pattern search: `Aob`.
- The optimiser:
  - `CalcModel` holds the records and effect queries;
  - `CalcScore` holds the scores;
  - `CalcSearch` holds the search (a class holding the search state);
  - `StableSort` is the stable sort `Array.prototype.sort` performs;
  - `CalcBest` is the driver.
- The two-pass calculation: `Guaranteeable`.
- The helpers: `EffectUtils`, `Pairing`, `Transfer`.

AES decryption, `Math.random()` and the item table (`relics.json`) are
parameters. File and network I/O are left out.

Where the two extractors differ, each is modelled as written and the
difference is stated as a lemma:

- **Reads past the end of the image.** A Python file read past the end comes
  back short, and the Python extractor accepts such a short read as a name
  anchor. The browser treats the empty read as missing.
- **An anchor close to the window start.** When the anchor lies less than 132
  bytes into the window, the region read has a negative length. Python then
  scans to the end of the image, while the browser scans nothing.
- **Failed decryption.** Python skips an entry it cannot decrypt; in the
  browser the whole parse fails.
- **Padding removal.** Python keeps the raw decrypted blocks. The browser's
  WebCrypto AES-CBC call also strips PKCS#7 padding, and it rejects the whole
  parse when an entry's last byte is not a well-formed padding length. A
  well-padded browser buffer is shorter than Python's by that length, so
  every later buffer of the browser's memory image starts earlier.
- **Merge order.** The browser orders the entries by the index in their
  names only when exactly fourteen are named.

## Model

| member | source | states |
|---|---|---|
| Bytes.LE16 | server/relic_extractor.py:352-353 | the value of two bytes is below 2^16 (which bytes give which value: LE16OfEncode) |
| Bytes.LE24 | server/relic_extractor.py:355-356 | the value of three bytes (the item id) is below 2^24 |
| Bytes.LE32 | server/relic_extractor.py:367-373 | the value of four bytes (an effect id) is below 2^32 |
| Bytes.ToInt32 | server/relic_extractor.py:128 | the two's-complement reading of a 32-bit word, in [-2^31, 2^31) and congruent to it |
| Bytes.EncodeLE | server/relic_extractor.py:353 | the encoding is exactly n bytes long (its meaning: the LE*OfEncode round trips) |
| Bytes.LE32OfEncode | server/relic_extractor.py:367-373 | reading four bytes back from an encoded value gives the value |
| Bytes.LE24OfEncode | server/relic_extractor.py:355-356 | reading three bytes back from an encoded value gives the value |
| Bytes.LE16OfEncode | server/relic_extractor.py:352-353 | reading two bytes back from an encoded value gives the value |
| Bytes.Slice | client/src/utils/relicExtractor.js:27-30 | a slice with both bounds clamped to the length, empty when inverted |
| Bytes.PyRead | server/relic_extractor.py:299-301 | seek then read: a negative count reads to the end, a count past the end reads what is there |
| Bytes.Zeros | server/relic_extractor.py:196-202 | n zero bytes |
| Bytes.FlattenLength | server/relic_extractor.py:102-107 | the concatenation is as long as all buffers together |
| Bytes.FlattenPlacement | server/relic_extractor.py:102-107 | buffer k of a concatenation sits at the sum of the earlier lengths |
| Bytes.FlattenAppend | client/src/utils/relicExtractor.js:32-41 | concatenating two runs of buffers is concatenating their concatenations |
| Bytes.OffsetMonotone | server/relic_extractor.py:107 | the start offsets of the merged buffers never decrease |
| Bytes.FirstMatchFrom | server/relic_extractor.py:223-224 | the first position at or after i where the needle occurs, none when it occurs nowhere |
| Bnd4.Stop | server/relic_extractor.py:139-144 | the entry loop runs min(count, entries whose 32-byte header fits in the file) iterations |
| Bnd4.EntryHeaderReadersAgree | client/src/utils/relicExtractor.js:77-89 | the browser's two-word magic test accepts exactly the headers Python's eight-byte comparison accepts |
| Bnd4.SplitIV | server/relic_extractor.py:51-53 | the first sixteen bytes of an entry's data are the IV, the rest the ciphertext, and together they are the data |
| Bnd4.EntryData | server/relic_extractor.py:46 | the entry's encrypted bytes are exactly as many as its header's size field says |
| Bnd4.EncodeEntryHeader | server/relic_extractor.py:146-155 | an entry header is exactly 32 bytes long (its fields come back through EntryHeaderRoundTrip) |
| Bnd4.EntryHeaderRoundTrip | server/relic_extractor.py:146-155 | an encoded header, placed anywhere, reads back as the same header |
| ContainerPy.CollectNext | server/relic_extractor.py:184 | one more iteration of the entry loop appends what it yields |
| ContainerPy.ProcessEntry | server/relic_extractor.py:140-192 | one iteration: header checks, the validity checks, then decryption, as the entry's specification |
| ContainerPy.DecryptEntriesFrom | server/relic_extractor.py:139-192 | the entry loop returns exactly the entries its specification keeps |
| ContainerPy.DecryptEntries | server/relic_extractor.py:116-194 | None without the BND4 signature or the entry count; otherwise the entries the loop keeps |
| ContainerPy.CollectSound | server/relic_extractor.py:139-192 | every kept entry was yielded by its own iteration, with strictly increasing indices |
| ContainerPy.CollectComplete | server/relic_extractor.py:183-185 | every iteration that decrypts contributes its entry |
| ContainerPy.EntriesExactly | server/relic_extractor.py:139-192 | an entry is kept iff its index is below the count, its header fits and passes the checks, and it decrypts |
| ContainerPy.Plains | server/relic_extractor.py:103-106 | the plaintexts of the entries, in order |
| ContainerPy.Sizes | server/relic_extractor.py:107 | the plaintext sizes, in order |
| ContainerPy.MergeUserdata | server/relic_extractor.py:93-107 | None unless exactly fourteen entries; otherwise their concatenation and sizes |
| ContainerPy.MergeUserdataFiles | server/relic_extractor.py:84-114 | decrypt then merge; None when decryption fails or yields other than fourteen entries |
| ContainerPy.MergedLayout | server/relic_extractor.py:102-112 | part k of the merged image starts at the sum of the recorded sizes before it |
| ContainerJs.ReadAsciiZ | client/src/utils/relicExtractor.js:91-100 | the bytes up to the first zero byte, the end of the file, or 257 bytes |
| ContainerJs.AsciiZShape | client/src/utils/relicExtractor.js:91-100 | the name is a slice of the file with no zero byte and stops only at a zero, the end or the bound |
| ContainerJs.SkipSpace | client/src/utils/relicExtractor.js:151 | parseInt skips exactly the leading white space |
| ContainerJs.DigitRun | client/src/utils/relicExtractor.js:151 | the longest run of digits at a position |
| ContainerJs.TwoDigits | server/relic_extractor.py:48 | the two-digit name index the Python writer uses |
| ContainerJs.ParseDigits | client/src/utils/relicExtractor.js:151 | a digit run followed by a non-digit parses to its value |
| ContainerJs.UserdataNameRoundTrip | client/src/utils/relicExtractor.js:149-152 | `USERDATA_` plus a two-digit index declares exactly that index |
| ContainerJs.NonUserdataName | client/src/utils/relicExtractor.js:149 | a name without the prefix declares no index |
| ContainerJs.Pad | client/src/utils/relicExtractor.js:128-142 | the plaintext followed by 12 zero bytes and, when positive, footer-length more |
| ContainerJs.CollectJsNext | client/src/utils/relicExtractor.js:113-158 | one more iteration either throws or pushes its entry |
| ContainerJs.CollectJsErrSticks | client/src/utils/relicExtractor.js:127 | once an iteration throws, the loop's result is that error |
| ContainerJs.CollectJsErr | client/src/utils/relicExtractor.js:113-158 | the loop throws iff some iteration does, with the first error; otherwise one buffer per successful iteration at most |
| ContainerJs.Named | client/src/utils/relicExtractor.js:145-157 | at most one userdata per entry; a userdata is present iff some entry declares its index and holds its bytes |
| ContainerJs.PadBlock | client/src/utils/relicExtractor.js:53-60 | the PKCS#7 block of n bytes of value n |
| ContainerJs.Pkcs7Unpad | client/src/utils/relicExtractor.js:53-60 | WebCrypto's result: fails iff the padding is malformed, else the raw blocks minus a padding block of 1 to 16 bytes |
| ContainerJs.Pkcs7RoundTrip | client/src/utils/relicExtractor.js:53-60 | unpadding removes exactly an appended padding block |
| ContainerJs.Pkcs7UnpadExactly | client/src/utils/relicExtractor.js:53-60 | the unpadded result is x iff the raw blocks are x plus a padding block |
| ContainerJs.ProcessEntryJs | client/src/utils/relicExtractor.js:114-157 | one iteration: skip on a bad header or out-of-file data; OperationError when decryption or the padding check fails; else the unpadded plaintext zero-padded, with its name index |
| ContainerJs.DecryptEntriesJs | client/src/utils/relicExtractor.js:113-158 | the loop's result is the per-entry outcomes collected up to the first OperationError |
| ContainerJs.ParseAndDecrypt | client/src/utils/relicExtractor.js:62-166 | "'BND4' header not found" iff a present byte of the first four differs from `BND4`; otherwise `RangeError` iff the file is shorter than 16 bytes; `OperationError` iff an entry fails decryption or the padding check; otherwise the ordered buffers |
| ContainerJs.CollectJsOperationError | client/src/utils/relicExtractor.js:113-127 | the only error the entry loop throws is WebCrypto's `OperationError` |
| ContainerJs.OrderedByIndex | client/src/utils/relicExtractor.js:160-165 | with fourteen names, the buffers are a permutation in index order, ties in decryption order |
| ContainerJs.NamedInOrderKeepsOrder | client/src/utils/relicExtractor.js:160-165 | names already in index order keep decryption order |
| ContainerJs.UnnamedKeepsDecryptionOrder | client/src/utils/relicExtractor.js:164-165 | without fourteen names the buffers are every entry in decryption order |
| ContainerJs.JsOutcomeOfPythonEntry | client/src/utils/relicExtractor.js:115-142 | an entry Python keeps is kept by the browser as its unpadded plaintext padded with zeros when the PKCS#7 padding is well formed; otherwise the browser throws OperationError |
| ContainerJs.JsBufferShorter | client/src/utils/relicExtractor.js:127-142 | a well-padded browser buffer is shorter than Python's plaintext plus the zero padding by the last byte's value |
| ContainerJs.BadPaddingRejectsParse | client/src/utils/relicExtractor.js:113-158 | a reached entry whose raw blocks fail the padding check, such as ones ending in a zero byte that Python keeps, rejects the whole browser parse |
| ContainerJs.ConcatBuffers | client/src/utils/relicExtractor.js:32-41 | the buffers copied at running offsets are their concatenation |
| Sections.End | server/relic_extractor.py:25-36 | each window's inclusive end lies 0xFFFFF past its start |
| Sections.AnchorOffset | server/relic_extractor.py:410-412 | the name anchor of slot n is at 0xA01AA2 + (n - 1) * 0x290 |
| Sections.Window | server/relic_extractor.py:405-407 | the window bytes, cut short where the image ends |
| Sections.WindowsSpanOneMegabyte | client/src/utils/relicExtractor.js:10-21 | every window spans 0x100000 bytes |
| Sections.WindowsDisjoint | server/relic_extractor.py:25-36 | windows are ordered and disjoint, each 0x20 bytes after the previous one |
| Sections.AnchorsDistinct | client/src/utils/relicExtractor.js:306 | the ten-byte anchor reads of different slots never overlap |
| Anchor.LocateNamePy | server/relic_extractor.py:196-218 | the read, or None when it is exactly n zero bytes |
| Anchor.ResolveAnchorPy | server/relic_extractor.py:418-426 | the first of the 10-, 5-, 3-byte reads that is not the zero literal |
| Anchor.LocateAnchorPy | server/relic_extractor.py:418-426 | the fallback chain computes the resolved anchor |
| Anchor.ShortReadIsAnchorPy | server/relic_extractor.py:196-202 | a read cut short by the image end is accepted as an anchor, even empty |
| Anchor.FallbacksUnusedPy | server/relic_extractor.py:419-422 | the 5- and 3-byte reads never find an anchor the 10-byte read missed |
| Anchor.LocateNameBytesJs | client/src/utils/relicExtractor.js:208-213 | null exactly when every byte read is zero |
| Anchor.LocateNameAgreesInBounds | client/src/utils/relicExtractor.js:208-213 | inside the image the two readers agree |
| Anchor.ResolveAnchorJs | client/src/utils/relicExtractor.js:308-311 | the first non-zero read of the chain, which is the 10-byte one or none |
| Anchor.LocateAnchorJs | client/src/utils/relicExtractor.js:308-311 | the browser chain computes its resolved anchor |
| Anchor.AnchorsAgreeInBounds | client/src/utils/relicExtractor.js:308-311 | with ten bytes inside the image both chains pick the same anchor |
| Anchor.AnchorPastEndDiffers | server/relic_extractor.py:418-426 | past the image end the browser has no anchor where Python has the empty one |
| Anchor.HexEncode | server/relic_extractor.py:429 | two lower-case hex digits per byte |
| Anchor.HexDigitValue | client/src/utils/relicExtractor.js:185 | each hex digit parses back as its value |
| Anchor.HexEncodeHead | client/src/utils/relicExtractor.js:313 | the first two digits spell out the first byte |
| Anchor.HexRoundTripPy | server/relic_extractor.py:222 | `bytes.fromhex` of the hex form gives the bytes back |
| Anchor.HexRoundTripJs | client/src/utils/relicExtractor.js:184-185 | the browser's two-digit split of the hex form gives the bytes back |
| Anchor.BytesIndexOf | client/src/utils/relicExtractor.js:168-181 | 0 for an empty needle, else the first match or -1 |
| Anchor.FindHexOffsetJs | client/src/utils/relicExtractor.js:183-188 | throws for an empty pattern; otherwise the first occurrence of the decoded bytes |
| Anchor.FindAnchorThroughHex | server/relic_extractor.py:220-228 | both readers locate the anchor, carried through hex, at its first occurrence |
| Anchor.FindCharacterName | server/relic_extractor.py:266-280 | the glyphs of every other byte up to the first zero, within 32 bytes |
| Anchor.NameShape | client/src/utils/relicExtractor.js:190-201 | every name character is printable ASCII, at most one per byte pair |
| Anchor.NameAtMostSixteen | server/relic_extractor.py:268-270 | a name has at most sixteen characters |
| Anchor.Utf16Le | server/relic_extractor.py:270-277 | a printable name in UTF-16LE: the character codes at even positions, zeros at odd ones |
| Anchor.NameFromEncoded | server/relic_extractor.py:270-277 | reading every other byte from an encoded character on gives the rest of the name |
| Anchor.NameRoundTrip | server/relic_extractor.py:266-280 | a printable name of at most 16 characters stored in UTF-16LE and followed by a zero character reads back as itself |
| SlotScanner.SlotSize | server/relic_extractor.py:283-291 | 72, 16, 80 for size bytes 0xC0, 0x90, 0x80; none otherwise |
| SlotScanner.ValidSlotStart | server/relic_extractor.py:307-316 | a record length exactly when the kind and size bytes are valid and the record fits |
| SlotScanner.FirstAlignedFrom | server/relic_extractor.py:319-331 | the first aligned position at or after i, before the last eight bytes |
| SlotScanner.FindAlignment | client/src/utils/relicExtractor.js:240-251 | the alignment loop finds the first aligned position |
| SlotScanner.FirstAlignedIs | server/relic_extractor.py:320-331 | the position found is aligned and nothing before it is |
| SlotScanner.EmptySlotFinder | server/relic_extractor.py:282-399 | alignment then walk: the relics its specification scans |
| SlotScanner.Next | server/relic_extractor.py:389-397 | every step of the walk advances, by at most 80 bytes |
| SlotScanner.Head | server/relic_extractor.py:348-387 | a position emits a relic exactly when a 72-byte record is framed there |
| SlotScanner.WalkStep | client/src/utils/relicExtractor.js:254-295 | one step of the walk |
| SlotScanner.WalkFramed | server/relic_extractor.py:338-397 | every emitted relic is a framed 72-byte record at or after the start |
| SlotScanner.WalkAtLeast | server/relic_extractor.py:338-397 | every emitted offset lies at or after the start |
| SlotScanner.WalkSpaced | server/relic_extractor.py:389-390 | emitted relics are in increasing offset order and never overlap |
| SlotScanner.WalkCount | server/relic_extractor.py:340 | at most one relic per 72 walked bytes |
| SlotScanner.ScanFramed | client/src/utils/relicExtractor.js:215-298 | every relic of a scan is a framed record reported at base + position |
| SlotScanner.Sentinels | server/relic_extractor.py:393 | k copies of the empty-slot sentinel |
| SlotScanner.WalkOverSentinels | server/relic_extractor.py:393-395 | the walk passes over trailing sentinels without emitting |
| SlotScanner.SentinelRegionScansEmpty | server/relic_extractor.py:326-335 | a region of sentinels only has no alignment and no relic |
| SlotScanner.Words | server/relic_extractor.py:359-365 | twelve bytes (the words they encode come back through WordsAt) |
| SlotScanner.EncodeRelic | server/relic_extractor.py:349-387 | a record is exactly 72 bytes long (decoded back by DecodeEncode) |
| SlotScanner.DecodeEncode | server/relic_extractor.py:349-387 | decoding an encoded record gives back its fields at offset base + p, size 72 |
| SlotScanner.RecordHeader | server/relic_extractor.py:311-312 | an encoded record has kind byte 0x80 and size byte 0xC0 |
| SlotScanner.NoAlignmentBefore | server/relic_extractor.py:320-331 | leading sentinels before a record whose sorting key is below 0x8000 are never aligned |
| SlotScanner.ScanOfLoneRecord | server/relic_extractor.py:338-399 | a record followed by sentinels is the scan's only relic |
| SlotScanner.EmbeddedRelicScan | client/src/utils/relicExtractor.js:215-298 | one record between runs of sentinels is found exactly, at its own offset |
| SlotScanner.LoneRecordLayoutExists | server/relic_extractor.py:349-393 | such a region exists for every record and run lengths |
| ExtractPy.ExtractRelicsFromSection | server/relic_extractor.py:401-457 | the section result its specification gives |
| ExtractPy.ExtractAtAnchor | server/relic_extractor.py:435-457 | the distance check, the name and the scan of the region before the anchor |
| ExtractPy.SectionResults | server/relic_extractor.py:476-477 | the ten per-slot results in slot order |
| ExtractPy.ReportedNext | server/relic_extractor.py:478-479 | one more slot appends its report |
| ExtractPy.ExtractAllRelics | server/relic_extractor.py:459-485 | None unless fourteen entries decrypt; otherwise every character with relics, in slot order |
| ExtractPy.ExtractSections | server/relic_extractor.py:476-479 | the section loop returns the reported characters |
| ExtractPy.SectionShape | server/relic_extractor.py:429-444 | a result names its slot, has a printable name of at most 16 characters, and its anchor is 1000 bytes inside the window |
| ExtractPy.RelicsBeforeAnchor | server/relic_extractor.py:447-451 | with the anchor 132 bytes in, relics are framed records ending 100 bytes before it, disjoint |
| ExtractPy.EarlyAnchorScansToEnd | server/relic_extractor.py:447-451 | with the anchor less than 132 bytes in, the scan runs from the region start to the end of the image |
| ExtractPy.ReportedIn | server/relic_extractor.py:478-479 | each reported character is its slot's result, with a relic |
| ExtractPy.ReportedHas | server/relic_extractor.py:478-479 | a slot with a relic is reported |
| ExtractPy.ReportedIncreasing | server/relic_extractor.py:476-479 | reports come in strictly increasing slot order |
| ExtractPy.SectionNumbered | server/relic_extractor.py:453-457 | a result is labelled with its own slot |
| ExtractPy.SectionResultsNumbered | server/relic_extractor.py:476-477 | every per-slot result carries its own number |
| ExtractPy.ReportedSound | server/relic_extractor.py:473-481 | every reported character is the successful extraction of the slot it names, with a relic |
| ExtractPy.ReportedComplete | server/relic_extractor.py:473-481 | every slot with a relic is reported |
| ExtractPy.ReportedOrdered | server/relic_extractor.py:473-481 | reported slots strictly increase |
| ExtractPy.MemoryImageLayout | server/relic_extractor.py:463-468 | part k of the memory image is decrypted entry k at the sum of the earlier sizes |
| ExtractJs.ReadAt | client/src/utils/relicExtractor.js:203-206 | the clamped slice from offset of the given length |
| ExtractJs.ExtractRelicsFromSectionJs | client/src/utils/relicExtractor.js:300-332 | the section result its specification gives |
| ExtractJs.ExtractAtAnchorJs | client/src/utils/relicExtractor.js:316-331 | the distance check, the name and the scan of the clamped region |
| ExtractJs.SectionResultsJs | client/src/utils/relicExtractor.js:340-341 | the ten per-slot results in slot order |
| ExtractJs.ExtractAllRelicsFromSl2 | client/src/utils/relicExtractor.js:334-345 | throws iff the container parse throws (signature, decryption or padding) or gives other than fourteen buffers; otherwise every character with relics in the joined unpadded buffers, in slot order |
| ExtractJs.ExtractSectionsJs | client/src/utils/relicExtractor.js:339-344 | the section loop returns the reported characters |
| ExtractJs.AnchorPosAgree | client/src/utils/relicExtractor.js:313 | both extractors find the anchor at the same, first, window offset |
| ExtractJs.RegionsAgree | client/src/utils/relicExtractor.js:321-325 | from 132 bytes in, both read the same region |
| ExtractJs.SectionsAgree | client/src/utils/relicExtractor.js:300-332 | with the anchor 132 bytes in or absent, both extractors give the same result |
| ExtractJs.EarlyAnchorFindsNothingJs | client/src/utils/relicExtractor.js:321-325 | with the anchor less than 132 bytes in, the browser reports the character with no relics |
| ExtractJs.RelicsBeforeAnchorJs | client/src/utils/relicExtractor.js:321-325 | relics are framed records ending 100 bytes before the anchor, disjoint |
| ExtractJs.SectionResultsNumberedJs | client/src/utils/relicExtractor.js:327-331 | every per-slot result carries its own number |
| ExtractJs.ReportedSoundJs | client/src/utils/relicExtractor.js:339-344 | every reported character is its slot's successful extraction, with a relic |
| ExtractJs.ReportedCompleteJs | client/src/utils/relicExtractor.js:342 | every slot with a relic is reported |
| ExtractJs.ReportedOrderedJs | client/src/utils/relicExtractor.js:340-343 | reported slots strictly increase |
| ExtractJs.MemoryImageLayoutJs | client/src/utils/relicExtractor.js:337 | buffer k of the image sits at the sum of the earlier lengths |
| Aob.PatternOf | server/relic_extractor.py:230-241 | one pattern byte and mask bit per token, a wildcard as 0 and unmasked; none when a value is not a byte |
| Aob.AobToPattern | server/relic_extractor.py:230-241 | the token loop builds that pattern |
| Aob.PatternPrefixFails | server/relic_extractor.py:239 | a token that fails makes the whole pattern fail |
| Aob.FirstMasked | server/relic_extractor.py:249-261 | the first position where masked bytes are equal and wildcard bytes are non-zero |
| Aob.MatchesAt | server/relic_extractor.py:251-260 | the inner loop decides exactly the masked match |
| Aob.AobSearch | server/relic_extractor.py:243-264 | none for a bad pattern; otherwise the first match alone, or no match |
| Aob.FirstMaskedFrom | server/relic_extractor.py:262-263 | the search stops at the first match |
| Aob.NoneFrom | server/relic_extractor.py:249 | a search that runs out of room has found nothing |
| Aob.TokensOf | server/relic_extractor.py:231 | a pattern text of plain bytes, one token each |
| Aob.PlainPatternIsIndex | server/relic_extractor.py:220-228 | without wildcards the search is the first-occurrence byte search |
| Aob.SameFirst | server/relic_extractor.py:249-264 | equivalent match tests give the same first match |
| Text.Lower | client/src/utils/calculation.js:54 | a character lower-cased, letters only |
| Text.Upper | client/src/utils/utils.js:29 | a character upper-cased, letters only |
| Text.LowerStr | client/src/utils/calculation.js:54 | each character lower-cased, the length kept |
| Text.LowerIdempotent | client/src/utils/utils.js:45 | lower-casing twice is lower-casing once |
| Text.LowerConcat | client/src/utils/utils.js:33 | lower-casing distributes over concatenation |
| Text.Drop | client/src/utils/utils.js:35 | the characters from index n on |
| Text.TrimStart | client/src/utils/utils.js:35 | the longest suffix without a leading space |
| Text.TrimEnd | client/src/utils/utils.js:35 | the longest prefix without a trailing space |
| Text.Trim | client/src/utils/utils.js:35 | empty, or starting and ending with a non-space |
| Text.TrimNoSpaces | client/src/utils/utils.js:35 | a string without surrounding spaces is unchanged |
| Text.TrimIdempotent | client/src/utils/utils.js:35 | trimming twice is trimming once |
| Text.Digit | client/src/utils/utils.js:79 | the character of a decimal digit |
| Text.Digits | client/src/utils/utils.js:79 | the decimal digits of n without leading zeros |
| Text.DecimalString | client/src/utils/utils.js:79 | a non-empty string (read back by DecimalRoundTrip) |
| Text.DigitsRoundTrip | client/src/utils/utils.js:79 | the digits read back as their number |
| Text.DecimalRoundTrip | client/src/utils/utils.js:54 | an integer's decimal form reads back as the integer |
| Text.NegativeRoundTrip | client/src/utils/utils.js:54 | a negative integer's form reads back as it |
| Text.DecimalStringInjective | client/src/utils/utils.js:54 | distinct integers have distinct decimal forms |
| EffectUtils.Capitalize | client/src/utils/utils.js:27-30 | the first character upper-cased, the rest unchanged |
| EffectUtils.FirstTagged | client/src/utils/utils.js:33 | the first nightfarer whose `[name]` tag heads the lower-cased effect name |
| EffectUtils.FormatEffectName | client/src/utils/utils.js:32-40 | a name without a nightfarer tag is returned unchanged (tagged names: FormatIdempotent) |
| EffectUtils.TagPrefix | client/src/utils/utils.js:33 | how two tags can head the same name |
| EffectUtils.TagIsUnique | client/src/utils/utils.js:33 | a tag at the head of a name is the only one without `]` inside |
| EffectUtils.LowerCapitalize | client/src/utils/utils.js:36 | capitalising a lower-case name and lower-casing gives it back |
| EffectUtils.LowerTag | client/src/utils/utils.js:36-37 | the capitalised tag lower-cases back to the tag |
| EffectUtils.RewrittenShape | client/src/utils/utils.js:35-37 | the rewritten name lower-cases to the tag, a space and the lower-cased rest |
| EffectUtils.SameTagAfterRewrite | client/src/utils/utils.js:33-37 | the rewritten name carries the same first tag |
| EffectUtils.FormatIdempotent | client/src/utils/utils.js:32-40 | formatting a formatted name changes nothing |
| EffectUtils.RemoveUnsafe | client/src/utils/utils.js:47 | no unsafe character remains, and each kept character comes from the name |
| EffectUtils.Dashes | client/src/utils/utils.js:48 | spaces replaced by dashes |
| EffectUtils.GetImageUrl | client/src/utils/utils.js:43-50 | empty for an empty name, otherwise `/<type>/<slug>.png` |
| EffectUtils.SlugShape | client/src/utils/utils.js:45-48 | a slug has no space, no unsafe character, no capital, and is no longer than the name |
| EffectUtils.SlugSafeFixed | client/src/utils/utils.js:45-48 | each slug step leaves a safe string unchanged |
| EffectUtils.SlugIdempotent | client/src/utils/utils.js:45-48 | slugging a slug gives the slug |
| EffectUtils.GetRelicDescription | client/src/utils/utils.js:52-56 | the non-empty description under the id's key, none for a zero id or a missing entry |
| EffectUtils.DescriptionKeysDistinct | client/src/utils/utils.js:54 | two ids never share a description key |
| EffectUtils.MapGetDistinct | client/src/utils/utils.js:66 | with distinct ids, `get` finds exactly the entry stored under the id |
| EffectUtils.MapSet | client/src/utils/utils.js:66 | `Map.set`: a present id keeps its position and takes the name; a new id goes at the end |
| EffectUtils.MapSetFacts | client/src/utils/utils.js:66 | a set adds the id at the end only when new, keeps ids distinct, and changes that id's lookup alone |
| EffectUtils.Dedup | client/src/utils/utils.js:59-71 | the elements once each, the same set as the input |
| EffectUtils.DedupOrder | client/src/utils/utils.js:59-71 | each element once, ordered by first occurrence |
| EffectUtils.SetAllFacts | client/src/utils/utils.js:65-67 | setting a run of ids appends the new ones in first-occurrence order and maps each set id to the name |
| EffectUtils.LastWith | client/src/utils/utils.js:62-68 | the last included effect carrying an id |
| EffectUtils.EffectMapLast | client/src/utils/utils.js:59-71 | distinct ids, in the order they were first set, each mapped to the name of the last included effect carrying it |
| EffectUtils.EffectMapEntries | client/src/utils/utils.js:59-71 | entry k is the k-th first-set id with its last name |
| EffectUtils.FirstIdOfName | client/src/utils/calculation.js:227-235 | the name search over the map gives the first-set id whose last name is that name; none when no id has it |
| EffectUtils.CreateEffectMap | client/src/utils/utils.js:59-71 | the loop builds that ordered map |
| EffectUtils.IsEffectIdKnown | client/src/utils/utils.js:73-75 | true iff some effect carries the id |
| EffectUtils.KnownIffMapped | client/src/utils/utils.js:73-75 | with Deep of Night shown, the known ids are the ids the map holds |
| EffectUtils.GetEffectName | client/src/utils/utils.js:77-80 | none for 0 or 2^32 - 1, the mapped name, else `Unknown Effect (ID: id)` |
| EffectUtils.UnknownNamesDistinct | client/src/utils/utils.js:79 | different unknown ids get different names |
| Pairing.AscendingDistinct | client/src/utils/crypto.js:1 | an ascending string has distinct characters |
| Pairing.RunsAscending | client/src/utils/crypto.js:1 | the alphabet is in ascending order |
| Pairing.AlphabetDistinct | client/src/utils/crypto.js:1 | the alphabet has 32 distinct characters |
| Pairing.NoLookAlikes | client/src/utils/crypto.js:1 | I, O, 0 and 1 are not in the alphabet |
| Pairing.DrawIndex | client/src/utils/crypto.js:6 | the floor of a draw times 32, below 32 |
| Pairing.CodeOf | client/src/utils/crypto.js:3-9 | eight alphabet characters selected by the draws |
| Pairing.GeneratePairingCode | client/src/utils/crypto.js:3-9 | the loop builds the code its draws select |
| Pairing.CodesAreExactlyAlphabetStrings | client/src/utils/crypto.js:3-9 | a string is generated iff it has eight alphabet characters |
| Pairing.DrawsFor | client/src/utils/crypto.js:6 | valid draws that select a given code |
| Pairing.DrawOfPosition | client/src/utils/crypto.js:6 | drawing k / 32 selects position k |
| Pairing.PositionIn | client/src/utils/crypto.js:1 | a character's position in the alphabet |
| Pairing.PositionFrom | client/src/utils/crypto.js:1 | the position found from i on |
| Pairing.FormatPairingCode | client/src/utils/crypto.js:11-17 | an eight-character code shows as nine characters with the dash at position 4 |
| Pairing.FormatRoundTrip | client/src/utils/crypto.js:11-17 | removing the dash gives the code back |
| Transfer.Wrap32 | client/src/utils/peerjs.js:14 | the 32-bit two's-complement value congruent to x |
| Transfer.HashOf | client/src/utils/peerjs.js:11-15 | the folded hash is a 32-bit signed value |
| Transfer.ServerIndex | client/src/utils/peerjs.js:16 | the absolute hash mod 3, below 3 |
| Transfer.WrapShift | client/src/utils/peerjs.js:14 | values that differ by multiples of 2^32 wrap alike |
| Transfer.WrapQuotient | client/src/utils/peerjs.js:14 | wrapping changes a value by a multiple of 2^32 |
| Transfer.HashIsWrappedPoly | client/src/utils/peerjs.js:11-15 | the loop's hash is the polynomial hash wrapped once at the end |
| Transfer.GetServerForCode | client/src/utils/peerjs.js:10-18 | the loop computes the server index of the code |
| Transfer.ChunkCount | client/src/utils/peerjs.js:163 | the ceiling of the length over 64 KiB |
| Transfer.Chunks | client/src/utils/peerjs.js:167-170 | chunk i is the i-th 64 KiB slice, one empty chunk for empty data |
| Transfer.ChunksPrefix | client/src/utils/peerjs.js:168-170 | the first k chunks cover the first k * 64 KiB bytes |
| Transfer.ChunksCoverData | client/src/utils/peerjs.js:163-170 | the chunks concatenate to the data |
| Transfer.AsciiBytes | client/src/utils/peerjs.js:179 | the encoding of an ASCII string, one byte per character |
| Transfer.Binaries | client/src/utils/peerjs.js:173 | one binary message per chunk |
| Transfer.Transmission | client/src/utils/peerjs.js:161-191 | two messages more than there are chunks (their contents: TransferRoundTrip) |
| Transfer.SendData | client/src/utils/peerjs.js:148-193 | the messages sent are that transmission |
| Transfer.Settle | client/src/utils/peerjs.js:252 | a settled promise keeps its outcome |
| Transfer.Combined | client/src/utils/peerjs.js:240-245 | the chunks written one after another into a buffer of the announced size, none when one overruns |
| Transfer.Closed | client/src/utils/peerjs.js:274-278 | rejects while some but not all announced chunks arrived |
| Transfer.SetAt | client/src/utils/peerjs.js:243 | the bytes at the offset are overwritten and the rest kept |
| Transfer.Combine | client/src/utils/peerjs.js:240-245 | the copying loop computes the combined buffer |
| Transfer.Receiver.constructor | client/src/utils/peerjs.js:208-210 | a fresh receiver: no chunks, no metadata, pending |
| Transfer.Receiver.ProcessMessage | client/src/utils/peerjs.js:212-263 | the state after one message is its specification's step |
| Transfer.Receiver.ConnectionClosed | client/src/utils/peerjs.js:274-278 | the state after close is its specification's |
| Transfer.RunAppend | client/src/utils/peerjs.js:265-268 | processing two runs of messages is processing their concatenation |
| Transfer.RunChunks | client/src/utils/peerjs.js:258-261 | non-marker chunks are appended in order |
| Transfer.AllChunksArrived | client/src/utils/peerjs.js:224-259 | after the metadata and the chunks the receiver holds exactly the chunks |
| Transfer.TransferRoundTrip | client/src/utils/peerjs.js:148-280 | sending data to a fresh receiver resolves it with exactly the data, and a later close keeps it so |
| Transfer.EarlyCloseRejects | client/src/utils/peerjs.js:274-278 | closing after some but not all chunks rejects |
| Transfer.SettledStays | client/src/utils/peerjs.js:252-255 | once settled, the outcome never changes |
| CalcModel.Weight | client/src/utils/calculation.js:270 | the weight, with 0 counting as 1 |
| CalcModel.MapGet | client/src/utils/calculation.js:52 | the value stored under the id (an effect name, or an item of the item table), none iff no entry has it |
| CalcModel.GetEffect | client/src/utils/calculation.js:52 | when not null, a non-empty name that the table maps the id to |
| CalcModel.FirstIdNamed | client/src/utils/calculation.js:228-236 | the id of the first entry with the name, none iff no entry has it |
| CalcModel.RelicEffects | client/src/utils/calculation.js:744-765 | exactly the map ids whose names the relic carries |
| CalcModel.AllEffects | client/src/utils/calculation.js:516-520 | exactly the ids some relic of the combination carries |
| CalcModel.RequiredFrom | client/src/utils/calculation.js:523-533 | true iff each required group from there on is met |
| CalcModel.ValidateRequiredMeaning | client/src/utils/calculation.js:514-536 | the check passes iff every required group has an id some relic carries |
| CalcModel.EmptyRequiredGroupFails | client/src/utils/calculation.js:525-530 | a required group without ids always fails |
| CalcScore.SlotIds | client/src/utils/calculation.js:216-237 | at most six ids, each the first map id of a non-empty name in one of the relic's slots |
| CalcScore.SlotIdsOf | client/src/utils/calculation.js:221-237 | the ids of a list of slot names |
| CalcScore.FirstGroup | client/src/utils/calculation.js:255-262 | the first desired group listing the id |
| CalcScore.FirstGroupFrom | client/src/utils/calculation.js:255-262 | the first group from an index on listing the id |
| CalcScore.RelicScoreCountsGroupOnce | client/src/utils/calculation.js:252-278 | a slot whose group is already credited adds nothing |
| CalcScore.RelicScoreUnmatched | client/src/utils/calculation.js:267-280 | a relic without desired ids scores 0 |
| CalcScore.RelicScoreBounds | client/src/utils/calculation.js:267-280 | with positive weights the score is between 0 and the sum of weights |
| CalcScore.CatalogueEntry | client/src/utils/calculation.js:480 | the first catalogue entry listing the id |
| CalcScore.RelicInstances | client/src/utils/calculation.js:454-463 | the non-zero effect ids of a relic |
| CalcScore.Count | client/src/utils/calculation.js:472-474 | at most the number of instances; zero iff no instance belongs to the group |
| CalcScore.CollectInstances | client/src/utils/calculation.js:449-465 | the loop collects every instance, relic by relic |
| CalcScore.RelicInstancesSnoc | client/src/utils/calculation.js:454-463 | one more slot adds its id when non-zero |
| CalcScore.TrueCombinationScore | client/src/utils/calculation.js:429-505 | the running total is the combination score |
| CalcScore.CountAppend | client/src/utils/calculation.js:472-474 | counts add over concatenation |
| CalcScore.InstancesAppend | client/src/utils/calculation.js:451-465 | instances of two parts concatenate |
| CalcScore.InstancesNeedNonZero | client/src/utils/calculation.js:455 | a relic has instances only with a non-zero id |
| CalcScore.PlaceholderAddsNothing | client/src/utils/calculation.js:432 | a relic without instances leaves the score unchanged |
| CalcScore.StackingContribution | client/src/utils/calculation.js:494-500 | a stacking group adds its weight per instance |
| CalcScore.StackingContributionAdds | client/src/utils/calculation.js:494-500 | a stacking group's contribution adds over parts |
| CalcScore.StackingScoresAdd | client/src/utils/calculation.js:470-502 | when every group stacks, scores add over parts |
| CalcScore.RepeatsKeepContribution | client/src/utils/calculation.js:486-493 | a non-stacking group's contribution is fixed once matched |
| CalcScore.NonStackingIgnoresRepeats | client/src/utils/calculation.js:479-493 | when no group stacks, effects already present add nothing |
| CalcScore.SingleRelicScoreBound | client/src/utils/calculation.js:429-505 | one relic's combination score is at least its relic score |
| CalcScore.ContributionBounds | client/src/utils/calculation.js:476-501 | a non-negative group adds at least its weight once matched, never less than 0 |
| CalcScore.HitWithinContribution | client/src/utils/calculation.js:470-502 | a group the relic is credited to is matched in the combination |
| CalcSearch.OfColor | client/src/utils/calculation.js:559-564 | exactly the scored relics of that colour |
| CalcSearch.Candidates | client/src/utils/calculation.js:569-576 | a white slot takes all four colours in order, a coloured slot its own, others none |
| CalcSearch.PerSlot | client/src/utils/calculation.js:569-576 | one candidate list per slot |
| CalcSearch.Prepared | client/src/utils/calculation.js:589-619 | one prepared list per slot list |
| CalcSearch.FillAndSort | client/src/utils/calculation.js:589-619 | the two loops produce the prepared lists |
| CalcSearch.PreparedMembers | client/src/utils/calculation.js:589-614 | every prepared relic is a candidate, or the placeholder of an empty slot |
| CalcSearch.Avail | client/src/utils/calculation.js:680 | exactly the candidates whose sorting number is not yet used |
| CalcSearch.CombinationSearch.constructor | client/src/utils/calculation.js:622-697 | an empty prefix, no used sortings, best score -1, nothing recorded |
| CalcSearch.CombinationSearch.Completion | client/src/utils/calculation.js:627-646 | the prefix and the first available relic of each later slot, or failure |
| CalcSearch.CombinationSearch.IsPruned | client/src/utils/calculation.js:627-652 | prune iff the completion exists and does not beat a non-negative best |
| CalcSearch.CombinationSearch.RecordLeaf | client/src/utils/calculation.js:655-675 | store the filled combination and raise the best score |
| CalcSearch.CombinationSearch.Generate | client/src/utils/calculation.js:625-694 | the recursion's new state is its specification's; prefix and used sortings are restored |
| CalcSearch.CombinationSearch.Try | client/src/utils/calculation.js:682-692 | place, mark, recurse, unmark |
| CalcSearch.ExtendReachable | client/src/utils/calculation.js:682-686 | placing an available relic keeps the prefix reachable |
| CalcSearch.NodeSound | client/src/utils/calculation.js:625-694 | every recorded combination fills each slot from its list, reuses no sorting, and carries its combination score |
| CalcSearch.ChildrenSound | client/src/utils/calculation.js:678-693 | the same, for the loop over the next slot |
| CalcSearch.RecordCoherent | client/src/utils/calculation.js:665-674 | recording keeps the best score above all recorded scores |
| CalcSearch.LeafPruning | client/src/utils/calculation.js:627-652 | at a leaf a tie with a non-negative best is pruned |
| CalcSearch.NodeCoherent | client/src/utils/calculation.js:625-694 | the search keeps its state coherent |
| CalcSearch.ChildrenCoherent | client/src/utils/calculation.js:678-693 | the loop keeps its state coherent |
| CalcSearch.NodeKeeps | client/src/utils/calculation.js:625-694 | the search only appends to what is recorded |
| CalcSearch.ChildrenKeeps | client/src/utils/calculation.js:678-693 | the loop only appends |
| CalcSearch.Relics | client/src/utils/calculation.js:712 | the relics of a scored list |
| CalcSearch.KeepSatisfying | client/src/utils/calculation.js:710-732 | exactly the combinations that pass the required check with the base relics |
| CalcSearch.GenerateRelicCombinations | client/src/utils/calculation.js:550-740 | the combinations its specification generates |
| CalcSearch.EmptyScoresZero | client/src/utils/calculation.js:699-702 | an empty combination scores 0 |
| CalcSearch.GeneratedWellFormed | client/src/utils/calculation.js:550-740 | a slot's relic has a colour it takes or is its placeholder; no sorting twice; the score is the combination score |
| CalcSearch.GeneratedOrdered | client/src/utils/calculation.js:707 | the combinations come in descending score order |
| CalcSearch.KeepSorted | client/src/utils/calculation.js:710-732 | filtering keeps the order |
| CalcSearch.KeepWithKey | client/src/utils/calculation.js:710-732 | filtering adds nothing under any key |
| CalcSearch.IncreasingUnique | client/src/utils/calculation.js:655-675 | increasing recorded scores leave one combination per non-negative score |
| CalcSearch.GeneratedScoresDistinct | client/src/utils/calculation.js:627-675 | no two combinations share a non-negative score: ties are pruned |
| CalcSearch.GeneratedValidated | client/src/utils/calculation.js:697-740 | with validation, every combination of non-empty slots passes the required check; empty slots give the empty combination unchecked |
| StableSort.WithKeyAppend | client/src/utils/calculation.js:617-619 | the elements under a key split over a concatenation |
| StableSort.WithKeyNone | client/src/utils/calculation.js:617-619 | a key no element has selects nothing |
| StableSort.InsertMultiset | client/src/utils/calculation.js:617-619 | insertion adds exactly the element |
| StableSort.InsertSorted | client/src/utils/calculation.js:617-619 | insertion keeps the keys in order |
| StableSort.InsertWithKey | client/src/utils/calculation.js:617-619 | insertion puts the element after its equals |
| StableSort.SortFacts | client/src/utils/calculation.js:617-619 | the sort is ordered, a permutation, and stable |
| StableSort.SortLength | client/src/utils/calculation.js:707 | the sort keeps the length |
| StableSort.SortSortedIsIdentity | client/src/utils/calculation.js:707 | sorting a sorted list leaves it as it is |
| StableSort.WithKeyTwo | client/src/utils/calculation.js:707 | two positions with one key put two elements under it |
| StableSort.WithKeyHas | client/src/utils/calculation.js:707 | an element's own key selects it |
| CalcBest.MaxOf | client/src/utils/calculation.js:199 | the maximum score, attained by some element |
| CalcBest.WithScore | client/src/utils/calculation.js:201 | exactly the elements of a given score |
| CalcBest.BestOf | client/src/utils/calculation.js:394-395 | the maximum-score elements: non-empty, exactly those scoring MaxOf, each scoring at least every element |
| CalcBest.ProcessRelic | client/src/utils/calculation.js:42-74 | kept iff the item is known, `Deep` is in its name just for the deep list, it is not hidden forsaken, and it has a colour; fields from the item and the map |
| CalcBest.ProcessRelics | client/src/utils/calculation.js:77-112 | a relic is kept iff some save relic processes to it |
| CalcBest.Allowed | client/src/utils/calculation.js:120-143 | exactly the scored relics that are not forbidden, in order |
| CalcBest.ScoreEach | client/src/utils/calculation.js:115-130 | each relic with its relic score and slot ids |
| CalcBest.ScoreEachMember | client/src/utils/calculation.js:115-130 | a scored relic is the scoring of a listed relic |
| CalcBest.ScoreAllMembers | client/src/utils/calculation.js:115-143 | the scored list holds exactly the scored relics that are not forbidden |
| CalcBest.ScoreAllOrdered | client/src/utils/calculation.js:143 | the scored list is in descending score order |
| CalcBest.FindBestRelicsForSlots | client/src/utils/calculation.js:406-419 | the best validated combinations for the slots |
| CalcBest.FindBestDeepRelicsForBase | client/src/utils/calculation.js:382-396 | the best deep combinations that carry every required effect with the base relics |
| CalcBest.Paired | client/src/utils/calculation.js:340-357 | one result per deep combination |
| CalcBest.CombinedFromSnoc | client/src/utils/calculation.js:337-360 | one more base combination appends its results |
| CalcBest.FindBestCombinedRelicsWithFallback | client/src/utils/calculation.js:328-369 | the loops compute the best combined results |
| CalcBest.PushPaired | client/src/utils/calculation.js:343-356 | the inner loop pushes the paired results in order |
| CalcBest.FindBestCombinationForVessel | client/src/utils/calculation.js:294-321 | the combined search when the vessel uses deep relics, the base search otherwise |
| CalcBest.FirstVessel | client/src/utils/calculation.js:175 | the first vessel of the list carrying the name; none only when no vessel has it |
| CalcBest.Invalid | client/src/utils/calculation.js:28-39 | no error iff data and nightfarer are present, effects non-empty and the relic list present; else the first failing check's message |
| CalcBest.CalculateBestRelics | client/src/utils/calculation.js:17-205 | the calculation its specification gives |
| CalcBest.PlaceholderHarmless | client/src/utils/calculation.js:589-614 | a placeholder carries no effect and is not forbidden |
| CalcBest.GeneratedRelics | client/src/utils/calculation.js:569-614 | a generated relic is a scored relic or a placeholder |
| CalcBest.CombinedFromMember | client/src/utils/calculation.js:337-360 | a combined result comes from a base combination and one of its best deep combinations |
| CalcBest.PairedMember | client/src/utils/calculation.js:344-355 | a paired result comes from one deep combination |
| CalcBest.CombinedResultsSound | client/src/utils/calculation.js:328-369 | each combined build's score is the sum of its two combination scores; with deep slots it carries every required effect |
| CalcBest.BaseResultsSound | client/src/utils/calculation.js:298-320 | each base-only build has no deep relics, its combination score, and the required effects when the vessel has base slots |
| CalcBest.EmptyDeepSlotsSkipValidation | client/src/utils/calculation.js:330-340 | with an empty deep-slot list the builds are the best unvalidated base combinations |
| CalcBest.CombinedFromNoDeepSlots | client/src/utils/calculation.js:337-360 | with no deep slots each base combination pairs with the empty deep combination |
| CalcBest.VesselsResultsMember | client/src/utils/calculation.js:174-189 | each collected build is a best build of a selected vessel of the table |
| CalcBest.CalculateRejects | client/src/utils/calculation.js:28-39 | an error exactly for a missing input, empty effects or no relic list; none when the nightfarer has no vessel data |
| CalcBest.CalculateKeepsBest | client/src/utils/calculation.js:194-204 | the builds returned are non-empty, share the maximum score, and belong to selected vessels |
| CalcBest.ConcatOfContains | client/src/utils/calculation.js:174-189 | every result of every name in the list is collected (the vessel loop collects each selected vessel's best builds this way) |
| CalcBest.CalculateDominates | client/src/utils/calculation.js:174-204 | no build of a selected vessel scores above those returned |
| CalcBest.ScoredFromSave | client/src/utils/calculation.js:42-143 | every scored relic comes from the save file, processed and not forbidden |
| CalcBest.CalculateUsesOwnRelics | client/src/utils/calculation.js:17-205 | every relic of a build comes from the save file, from its own list, or is a placeholder; no deep relics unless shown |
| CalcBest.CalculateMeetsRequired | client/src/utils/calculation.js:294-369 | a build with deep relics carries every required effect, and so does a build with base slots on the base-only path: deep relics hidden, no deep relic scored, or a vessel without `deepSlots` |
| Guaranteeable.DefinitionOf | client/src/utils/guaranteeableCalculation.js:13-36 | a definition iff the item has fixed effects, is shown if deep, and has a colour, with its fields |
| Guaranteeable.Definitions | client/src/utils/guaranteeableRelics.js:9-38 | the definitions of the item table, in order; membership iff an entry defines it |
| Guaranteeable.GetGuaranteeableRelicDefinitions | client/src/utils/guaranteeableCalculation.js:10-39 | the loop builds those definitions |
| Guaranteeable.DefinitionItem | client/src/utils/guaranteeableRelics.js:12-36 | with distinct ids, a definition is the item stored under its id |
| Guaranteeable.HasRelicInSaveFile | client/src/utils/guaranteeableCalculation.js:47-49 | true iff some save relic has the item id |
| Guaranteeable.MissingFrom | client/src/utils/guaranteeableCalculation.js:57-64 | exactly the definitions whose item the save lacks, in order |
| Guaranteeable.NoneOwnedAllMissing | client/src/utils/guaranteeableRelics.js:56-63 | nothing is dropped when the save holds none |
| Guaranteeable.AllOwnedNoneMissing | client/src/utils/guaranteeableRelics.js:46-63 | everything is dropped when the save holds all |
| Guaranteeable.FixedId | client/src/utils/guaranteeableCalculation.js:83-85 | the k-th fixed effect, null when missing or 0 |
| Guaranteeable.CreateSyntheticRelic | client/src/utils/guaranteeableCalculation.js:77-94 | the definition as a relic: mapped fixed effects, no secondaries, sorting 999999, lower-case colour, the guaranteeable source |
| Guaranteeable.GenerateMissing | client/src/utils/guaranteeableRelics.js:101-113 | one synthetic relic per missing definition, with its item id, its kind and the guaranteeable source |
| Guaranteeable.Merge | client/src/utils/guaranteeableRelics.js:121-123 | the processed relics followed by the synthetic ones |
| Guaranteeable.SyntheticRaws | client/src/utils/guaranteeableCalculation.js:178-188 | one save record per missing definition, strictly increasing sortings from 999999, the guaranteeable source |
| Guaranteeable.SyntheticAgreesWithProcessing | client/src/utils/guaranteeableRelics.js:76-93 | processing a synthetic record gives the synthetic relic, with its own sorting, only in its list |
| Guaranteeable.Upgrades | client/src/utils/guaranteeableCalculation.js:225-235 | exactly the builds scoring at least the owned maximum that use a guaranteeable relic |
| Guaranteeable.MaxOwned | client/src/utils/guaranteeableCalculation.js:218-220 | the highest owned score: one owned build scores it and none scores more; 0 without owned builds |
| Guaranteeable.ShiftedCallAlwaysFails | client/src/utils/guaranteeableCalculation.js:153-161 | as written, the calculation always fails |
| Guaranteeable.TwoPassErrors | client/src/utils/guaranteeableCalculation.js:143-251 | with arguments in order, an error iff the first pass rejects its inputs, with that message |
| Guaranteeable.OwnedUnchanged | client/src/utils/guaranteeableCalculation.js:164-172 | the owned format holds the first pass's builds, as when nothing is missing |
| Guaranteeable.PotentialUpgrades | client/src/utils/guaranteeableCalculation.js:202-250 | upgrades are maximum builds of the second pass, use a guaranteeable relic, and score at least every owned build |
| Guaranteeable.OfferBoth | client/src/utils/guaranteeableCalculation.js:212-250 | the new format iff a second-pass build scores at least the owned maximum and uses a guaranteeable relic; its potential builds are exactly those |
| Guaranteeable.UpgradesOffered | client/src/utils/guaranteeableCalculation.js:143-251 | the result is `{ owned, potential }` iff a guaranteeable relic is missing and the second pass has a build scoring at least the owned maximum with a guaranteeable relic; `potential` is exactly those builds |
| Guaranteeable.UpgradesUseMissingRelics | client/src/utils/guaranteeableCalculation.js:193-199 | a guaranteeable relic in an upgrade is the synthetic relic of a definition the save lacks |
| Guaranteeable.GuaranteeableRecord | client/src/utils/guaranteeableCalculation.js:178-199 | a guaranteeable relic comes from a synthetic record |

Members with an `ensures` clause that have no row above are proof helpers: they
state arithmetic or sequence facts the proofs need, not behaviour of the source.
These are `Bnd4.LE32Bytes`, `Bnd4.I32OfEncode`, `Bytes.OffsetPrefix`,
`CalcBest.BaseComboSound`, `CalcScore.SumLe`, `CalcScore.SumEq`,
`CalcScore.SumAdd`, `CalcScore.SumZero`, `CalcScore.Distributes`,
`CalcScore.AtLeastOnce`, `CalcSearch.OptimisticIs`, `CalcSearch.OptimisticFails`,
`Guaranteeable.DefinitionsNext`, `Guaranteeable.SecondPassSucceeds`,
`SlotScanner.WordsAt`, `SlotScanner.Middle`, `Transfer.ModShift`,
`EffectUtils.Keys`, `EffectUtils.FirstIndex` and `EffectUtils.FirstIndexUnique`.

Some definitions model a source function directly and have no contract of their
own; the lemmas named here state their properties:

- `Guaranteeable.TwoPass` (client/src/utils/guaranteeableCalculation.js:143-251)
  is `calculateWithGuaranteeableRelics`. `TwoPass(true, …)` is the call as
  written, with `ShiftedCallAlwaysFails`. `TwoPass(false, …)` is the corrected
  call, with `TwoPassErrors`, `OwnedUnchanged`, `PotentialUpgrades`,
  `UpgradesOffered`, `UpgradesUseMissingRelics` and `GuaranteeableRecord`.
- `Guaranteeable.SecondPass` and `Guaranteeable.Offer` (lines 164-250 of that
  file) are its part after the first pass, with `SecondPassSucceeds` and
  `OfferBoth`.
- `Guaranteeable.BestRelicsCall` (lines 153-161 and 202-210) is one
  `calculateBestRelics` call in either argument order, with
  `ShiftedCallAlwaysFails` and `TwoPassErrors`.
- `Guaranteeable.GetMissing` (client/src/utils/guaranteeableCalculation.js:57-64) is
  `getMissingGuaranteeableRelics`, with `MissingFrom`, `NoneOwnedAllMissing`
  and `AllOwnedNoneMissing`.
- `CalcScore.RelicScore` (client/src/utils/calculation.js:215-280) is the score
  of `calculateRelicScore`, with `RelicScoreCountsGroupOnce`,
  `RelicScoreUnmatched`, `RelicScoreBounds` and `SingleRelicScoreBound`.
- `CalcModel.ValidateRequiredEffects` (client/src/utils/calculation.js:514-536)
  is `validateRequiredEffects`, with `ValidateRequiredMeaning` and
  `EmptyRequiredGroupFails`.
- `SlotScanner.DecodeRelic` (server/relic_extractor.py:349-387) decodes one
  72-byte record, with `DecodeEncode`.
- `SlotScanner.Walk` (server/relic_extractor.py:338-397) is the walk of
  `empty_slot_finder_aow`, with `WalkStep`, `WalkFramed`, `WalkAtLeast`,
  `WalkSpaced`, `WalkCount` and `WalkOverSentinels`.

## Left out

- The AES-CBC block decryption is a parameter. In Python a failure skips the entry; in the browser a failure rejects the parse. The PKCS#7 padding removal WebCrypto performs on top of it is modelled (`ContainerJs.Pkcs7Unpad`).
- File I/O is not modelled. The memory image and the sizes are values. This covers the decrypted-output folder, `memory.sl2`, `userdata_sizes.json`, `clean_decrypted_output_folder` and `main`.
- The file names `sorted(glob)` returns are not modelled. Python's merge is modelled as index order, which the `USERDATA_%02d` names give for fewer than 100 entries.
- Python's exception handlers and console output are not modelled. The handlers return `None`, `[]` or `"N/A"`; each is an error case of the model where it can happen.
- Text-based hex parsing is not modelled. `int(p, 16)` on a pattern token comes in as a value (`Aob.Token`), and the text split on white space is not modelled.
- Aob.AobSearch: no caller in the extractor uses it; it is modelled for completeness only.
- `getRelicInfo` is imported but not defined in `utils.js`. It is modelled as the lookup `CalcModel.MapGet` on the item table.
- Object key order is not modelled. `Object.entries(items)` visits integer keys in ascending order; the item table is given as a sequence in iteration order.
- Floating point is left out: the per-slot display split `weight / slots.length` and the per-instance scores. Weights are integers.
- Undefined, `NaN` and non-numeric weights are left out.
- The argument limit of `Math.max(...)` is left out.
- Case mapping covers ASCII letters only.
- The colour helpers `getRelativeLuminance` and `shouldUseDarkText`, `numberFormatter`, `getEffectIcon` and the React UI are not part of this model. They are presentation only.
- `calculator.worker.js` is not part of this model.
- CalcSearch.GenerateRelicCombinations: only the `returnAll: true` mode the callers use is modelled. The search is proved sound, ordered and free of score ties; optimality is not claimed.
- ContainerJs.UserdataIndex: `parseInt` returns a double, so in the browser a digit run above 2^53 rounds; the model keeps the exact value. The `USERDATA_00` to `USERDATA_13` names are far below that.
- Transfer.HashOf: the model hashes Unicode scalar values, while `charCodeAt` reads UTF-16 code units. A code with a character outside the Basic Multilingual Plane hashes differently; generated codes are ASCII.
- Transfer.SendData: the wait for the connection to open is not modelled, nor the `setTimeout` scheduling or a throwing `send`. It models an open connection whose sends succeed.
- Transfer.Receiver.ProcessMessage: JSON values are not modelled. The metadata text and the payload are bytes.
- The PeerJS peer setup, its timeouts, error events and the order in which Blob messages resolve are not modelled.
- Pairing.GeneratePairingCode: `Math.random()` comes in as a parameter, one draw in [0, 1) per character.
- The guaranteeable helpers that `guaranteeableRelics.js` and `guaranteeableCalculation.js` both define are the same code. Each is modelled once.

## Findings

| source | as written | input that shows it | evidently intended | confidence | as-written member | corrected member |
|---|---|---|---|---|---|---|
| client/src/utils/guaranteeableCalculation.js:153-161 | both passes call `calculateBestRelics` with seven arguments and pass nothing for its `showForsakenHollows` parameter; the vessel table lands in that flag and the vessel-table parameter is undefined, so every call fails its input checks or throws reading `vesselData[selectedNightfarer]` | one desired effect, a save file with an empty relic list, and nightfarer "wylder" | pass a forsaken-relics flag before the vessel table, so that both passes compute builds | high, not executed | Guaranteeable.ShiftedCallAlwaysFails | Guaranteeable.UpgradesOffered |

=== FILE: anchor.dfy ===
/**
 * Anchor resolution: reading a character's name bytes at a fixed offset of the
 * memory image, carrying them through a hex string, finding their first
 * occurrence inside the character's window, and decoding the display name there.
 */
module Anchor {
  import opened Wrappers
  import opened Bytes

  // ---------------------------------------------------------------------------
  // Name anchor reads

  /** Python `locate_name` (n = 10), `locate_name1` (n = 5), `locate_name2` (n = 3). */
  function LocateNamePy(image: seq<byte>, offset: nat, n: nat): (r: Option<seq<byte>>)
    ensures r.None? <==> PyRead(image, offset, n) == Zeros(n)
    ensures r.Some? ==> r.value == PyRead(image, offset, n)
  {
    var raw := PyRead(image, offset, n);
    if raw == Zeros(n) then None else Some(raw)
  }

  /** The 10-, then 5-, then 3-byte read that is not exactly that many zero bytes. */
  function ResolveAnchorPy(image: seq<byte>, offset: nat): (r: Option<seq<byte>>)
    ensures r.None? <==> forall n :: n in [10, 5, 3] ==> LocateNamePy(image, offset, n).None?
    ensures r.Some? ==> exists n :: n in [10, 5, 3] && r == LocateNamePy(image, offset, n)
  {
    var a := LocateNamePy(image, offset, 10);
    if a.Some? then a
    else
      var b := LocateNamePy(image, offset, 5);
      if b.Some? then b else LocateNamePy(image, offset, 3)
  }

  /** The fallback chain of `extract_relics_from_section`: 10 bytes, else 5, else 3. */
  method LocateAnchorPy(image: seq<byte>, offset: nat) returns (r: Option<seq<byte>>)
    ensures r == ResolveAnchorPy(image, offset)
  {
    r := LocateNamePy(image, offset, 10);
    if r.None? {
      r := LocateNamePy(image, offset, 5);
      if r.None? {
        r := LocateNamePy(image, offset, 3);
      }
    }
  }

  /**
   * A read that the end of the image cuts short is never the n-byte zero
   * literal, so Python accepts it as an anchor even when it holds only zeros
   * or nothing at all.
   */
  lemma ShortReadIsAnchorPy(image: seq<byte>, offset: nat)
    requires |image| < offset + 3
    ensures ResolveAnchorPy(image, offset) == Some(Slice(image, offset, offset + 10))
  {
    assert |PyRead(image, offset, 10)| < 10;
  }

  /** The 5- and 3-byte reads are prefixes of the 10-byte read: when that is exactly ten
      zero bytes so are they, and when it is cut short they are never consulted. */
  lemma FallbacksUnusedPy(image: seq<byte>, offset: nat)
    ensures ResolveAnchorPy(image, offset) == LocateNamePy(image, offset, 10)
  {
    var r10 := PyRead(image, offset, 10);
    if r10 == Zeros(10) {
      assert PyRead(image, offset, 5) == Zeros(5);
      assert PyRead(image, offset, 3) == Zeros(3);
    }
  }

  /** JavaScript `locateNameBytes`: null exactly when every byte read (possibly none) is zero. */
  method LocateNameBytesJs(image: seq<byte>, offset: nat, length: nat) returns (r: Option<seq<byte>>)
    ensures r.None? <==> AllZero(Slice(image, offset, offset + length))
    ensures r.Some? ==> r.value == Slice(image, offset, offset + length)
  {
    var bytes := Slice(image, offset, offset + length);
    var allZero := true;
    var i := 0;
    while i < |bytes|
      invariant 0 <= i <= |bytes|
      invariant allZero <==> forall k :: 0 <= k < i ==> bytes[k] == 0
    {
      if bytes[i] != 0 {
        allZero := false;
        break;
      }
      i := i + 1;
    }
    r := if allZero then None else Some(bytes);
  }

  /** Where the image holds the full window, the two readers agree. */
  lemma LocateNameAgreesInBounds(image: seq<byte>, offset: nat, n: nat)
    requires offset + n <= |image|
    ensures LocateNamePy(image, offset, n).None? <==> AllZero(Slice(image, offset, offset + n))
  {
    var raw := PyRead(image, offset, n);
    if AllZero(raw) {
      assert raw == Zeros(n);
    }
  }

  /** The fallback chain of `extractRelicsFromSection`: the 10-, then 5-, then 3-byte
      read that is not all zero. The shorter reads are prefixes of the 10-byte one,
      so they never find an anchor the first read missed. */
  function ResolveAnchorJs(image: seq<byte>, offset: nat): (r: Option<seq<byte>>)
    ensures r.None? <==> AllZero(Slice(image, offset, offset + 10))
    ensures r.Some? ==> r.value == Slice(image, offset, offset + 10)
  {
    if !AllZero(Slice(image, offset, offset + 10)) then Some(Slice(image, offset, offset + 10))
    else if !AllZero(Slice(image, offset, offset + 5)) then Some(Slice(image, offset, offset + 5))
    else if !AllZero(Slice(image, offset, offset + 3)) then Some(Slice(image, offset, offset + 3))
    else None
  }

  method LocateAnchorJs(image: seq<byte>, offset: nat) returns (r: Option<seq<byte>>)
    ensures r == ResolveAnchorJs(image, offset)
  {
    r := LocateNameBytesJs(image, offset, 10);
    if r.None? {
      r := LocateNameBytesJs(image, offset, 5);
      if r.None? {
        r := LocateNameBytesJs(image, offset, 3);
      }
    }
  }

  /** Where the image holds all ten bytes, both chains pick the same anchor. */
  lemma AnchorsAgreeInBounds(image: seq<byte>, offset: nat)
    requires offset + 10 <= |image|
    ensures ResolveAnchorJs(image, offset) == ResolveAnchorPy(image, offset)
  {
    LocateNameAgreesInBounds(image, offset, 10);
    LocateNameAgreesInBounds(image, offset, 5);
    LocateNameAgreesInBounds(image, offset, 3);
  }

  /** Past the end of the image the browser finds no anchor, where Python accepts the empty read. */
  lemma AnchorPastEndDiffers(image: seq<byte>, offset: nat)
    requires |image| <= offset
    ensures ResolveAnchorJs(image, offset).None?
    ensures ResolveAnchorPy(image, offset) == Some([])
  {
    ShortReadIsAnchorPy(image, offset);
  }

  // ---------------------------------------------------------------------------
  // Hex round trip (`bytes.hex()` / `bytes.fromhex`, `toString(16).padStart(2, '0')` / `parseInt(_, 16)`)

  const HexDigits: string := "0123456789abcdef"

  function HexValue(c: char): Option<nat>
  {
    if '0' <= c <= '9' then Some(c as int - '0' as int)
    else if 'a' <= c <= 'f' then Some(c as int - 'a' as int + 10)
    else if 'A' <= c <= 'F' then Some(c as int - 'A' as int + 10)
    else None
  }

  predicate IsHex(s: string)
  {
    forall k :: 0 <= k < |s| ==> HexValue(s[k]).Some?
  }

  /** Two lower-case hex digits per byte, high nibble first. */
  function HexEncode(b: seq<byte>): (s: string)
    ensures |s| == 2 * |b| && IsHex(s)
  {
    if b == [] then ""
    else [HexDigits[b[0] / 16], HexDigits[b[0] % 16]] + HexEncode(b[1..])
  }

  /** Python `bytes.fromhex` on whitespace-free text: pairs of digits, an odd digit count is an error. */
  function HexDecodePy(s: string): Option<seq<byte>>
  {
    if s == [] then Some([])
    else if |s| == 1 || HexValue(s[0]).None? || HexValue(s[1]).None? then None
    else match HexDecodePy(s[2..])
      case None => None
      case Some(rest) => Some([16 * HexValue(s[0]).value + HexValue(s[1]).value] + rest)
  }

  /** JavaScript `match(/.{1,2}/g).map(x => parseInt(x, 16))`: a trailing single digit is a byte of its own. */
  function HexDecodeJs(s: string): seq<byte>
    requires IsHex(s)
  {
    if s == [] then []
    else if |s| == 1 then [HexValue(s[0]).value]
    else [16 * HexValue(s[0]).value + HexValue(s[1]).value] + HexDecodeJs(s[2..])
  }

  /** Each digit of the alphabet reads back as its own value. */
  lemma HexDigitValue(d: nat)
    requires d < 16
    ensures HexValue(HexDigits[d]) == Some(d)
  {
  }

  /** The first two digits of a non-empty encoding spell out the first byte. */
  lemma HexEncodeHead(b: seq<byte>)
    requires b != []
    ensures HexEncode(b)[2..] == HexEncode(b[1..])
    ensures HexValue(HexEncode(b)[0]) == Some(b[0] / 16)
    ensures HexValue(HexEncode(b)[1]) == Some(b[0] % 16)
  {
    HexDigitValue(b[0] / 16);
    HexDigitValue(b[0] % 16);
  }

  lemma {:induction false} HexRoundTripPy(b: seq<byte>)
    ensures HexDecodePy(HexEncode(b)) == Some(b)
  {
    if b != [] {
      HexEncodeHead(b);
      HexRoundTripPy(b[1..]);
      assert [b[0]] + b[1..] == b;
    }
  }

  lemma {:induction false} HexRoundTripJs(b: seq<byte>)
    ensures HexDecodeJs(HexEncode(b)) == b
  {
    if b != [] {
      HexEncodeHead(b);
      HexRoundTripJs(b[1..]);
      assert [b[0]] + b[1..] == b;
    }
  }

  // ---------------------------------------------------------------------------
  // First-occurrence search inside the window

  /** Python `find_hex_offset`: the first occurrence of the decoded pattern; an undecodable pattern gives None. */
  function FindHexOffsetPy(section: seq<byte>, hex: string): Option<nat>
  {
    match HexDecodePy(hex)
    case None => None
    case Some(pattern) => IndexOf(section, pattern)
  }

  /** JavaScript `bytesIndexOf`: 0 for an empty needle, else the first match or -1. */
  method BytesIndexOf(h: seq<byte>, n: seq<byte>) returns (r: int)
    ensures n == [] ==> r == 0
    ensures n != [] && r >= 0 ==> MatchAt(h, n, r) && forall j :: 0 <= j < r ==> !MatchAt(h, n, j)
    ensures n != [] && r < 0 ==> r == -1 && forall j :: 0 <= j ==> !MatchAt(h, n, j)
  {
    var hl, nl := |h|, |n|;
    if nl == 0 {
      return 0;
    }
    var i := 0;
    while i <= hl - nl
      invariant 0 <= i <= hl - nl + 1 || (i == 0 && hl < nl)
      invariant forall j :: 0 <= j < i ==> !MatchAt(h, n, j)
    {
      var j := 0;
      var matched := true;
      while j < nl
        invariant 0 <= j <= nl
        invariant forall t :: 0 <= t < j ==> h[i + t] == n[t]
      {
        if h[i + j] != n[j] {
          matched := false;
          break;
        }
        j := j + 1;
      }
      if matched {
        assert h[i..i + nl] == n;
        return i;
      }
      assert h[i..i + nl][j] != n[j];
      i := i + 1;
    }
    forall j | 0 <= j ensures !MatchAt(h, n, j) {
      if j >= i {
        assert j + nl > hl;
      }
    }
    return -1;
  }

  /** JavaScript `findHexOffset`: an empty pattern has no match list and throws. */
  method FindHexOffsetJs(section: seq<byte>, hex: string) returns (r: Result<Option<nat>, string>)
    requires IsHex(hex)
    ensures hex == [] <==> r.Err?
    ensures r.Ok? ==> r.value == IndexOf(section, HexDecodeJs(hex))
  {
    if hex == [] {
      return Err("TypeError");
    }
    var pattern := HexDecodeJs(hex);
    var idx := BytesIndexOf(section, pattern);
    var first := IndexOf(section, pattern);
    if pattern == [] {
      assert MatchAt(section, pattern, 0);
    }
    r := Ok(if idx >= 0 then Some(idx as nat) else None);
    if idx >= 0 && first.Some? {
      assert !(first.value < idx) && !(idx < first.value);
    }
  }

  /** Both readers locate the anchor carried through its hex form at its first occurrence. */
  lemma FindAnchorThroughHex(section: seq<byte>, anchor: seq<byte>)
    ensures FindHexOffsetPy(section, HexEncode(anchor)) == IndexOf(section, anchor)
    ensures HexDecodeJs(HexEncode(anchor)) == anchor
  {
    HexRoundTripPy(anchor);
    HexRoundTripJs(anchor);
  }

  // ---------------------------------------------------------------------------
  // Character display name

  /** Printable ASCII is kept, every other non-zero byte becomes '.'. */
  function Glyph(b: byte): char
  {
    if 32 <= b <= 126 then b as char else '.'
  }

  /** The glyphs of `v[i], v[i + 2], ...` up to the first zero byte. */
  function NameFrom(v: seq<byte>, i: nat): string
    decreases |v| - i
  {
    if i >= |v| || v[i] == 0 then "" else [Glyph(v[i])] + NameFrom(v, i + 2)
  }

  /** Python `find_character_name` / JavaScript `findCharacterName` over the 32 bytes at `offset`. */
  method FindCharacterName(section: seq<byte>, offset: nat) returns (name: string)
    ensures name == NameFrom(Slice(section, offset, offset + 32), 0)
  {
    var value := Slice(section, offset, offset + 32);
    name := "";
    var i := 0;
    while i < |value|
      invariant i % 2 == 0
      invariant name + NameFrom(value, i) == NameFrom(value, 0)
      decreases |value| - i
    {
      var b := value[i];
      if b == 0 {
        break;
      }
      name := name + [Glyph(b)];
      i := i + 2;
    }
  }

  /** Every character is printable ASCII, and there is at most one per byte pair. */
  lemma {:induction false} NameShape(v: seq<byte>, i: nat)
    ensures 2 * |NameFrom(v, i)| <= Max(0, |v| - i + 1)
    ensures forall k :: 0 <= k < |NameFrom(v, i)| ==> ' ' <= NameFrom(v, i)[k] <= '~'
    decreases |v| - i
  {
    if i < |v| && v[i] != 0 {
      NameShape(v, i + 2);
    }
  }

  /** A window of at most 32 bytes yields a name of at most 16 characters. */
  lemma NameAtMostSixteen(section: seq<byte>, offset: nat)
    ensures |NameFrom(Slice(section, offset, offset + 32), 0)| <= 16
  {
    NameShape(Slice(section, offset, offset + 32), 0);
  }

  /** A name the game can display: printable ASCII characters only. */
  predicate PrintableName(s: string)
  {
    forall k :: 0 <= k < |s| ==> ' ' <= s[k] <= '~'
  }

  /** How the save file stores a printable name: UTF-16LE, two bytes per character. */
  function Utf16Le(s: string): (v: seq<byte>)
    requires PrintableName(s)
    ensures |v| == 2 * |s|
    ensures forall k :: 0 <= k < |s| ==> v[2 * k] == s[k] as int && v[2 * k + 1] == 0
  {
    if s == [] then []
    else
      var rest := Utf16Le(s[1..]);
      assert forall k :: 1 <= k < |s| ==> rest[2 * (k - 1)] == s[k] as int && rest[2 * (k - 1) + 1] == 0;
      [s[0] as int, 0] + rest
  }

  /** Reading every other byte from position `2 * j` gives back the rest of the name,
      up to a zero byte after it or the end of the bytes. */
  lemma {:induction false} NameFromEncoded(v: seq<byte>, s: string, j: nat)
    requires j <= |s| && PrintableName(s)
    requires forall k :: 0 <= k < |s| ==> 2 * k < |v| && v[2 * k] == s[k] as int
    requires 2 * |s| >= |v| || v[2 * |s|] == 0
    ensures NameFrom(v, 2 * j) == s[j..]
    decreases |s| - j
  {
    if j < |s| {
      NameFromEncoded(v, s, j + 1);
      assert s[j] as int as char == s[j];
      assert s[j..] == [s[j]] + s[j + 1..];
    }
  }

  /** `find_character_name` reads back any printable name of at most 16 characters stored
      in UTF-16LE at the offset and followed by a zero character. */
  lemma NameRoundTrip(section: seq<byte>, offset: nat, s: string)
    requires |s| <= 16 && PrintableName(s)
    requires offset + 2 * |s| + 2 <= |section|
    requires section[offset..offset + 2 * |s|] == Utf16Le(s)
    requires section[offset + 2 * |s|] == 0 && section[offset + 2 * |s| + 1] == 0
    ensures NameFrom(Slice(section, offset, offset + 32), 0) == s
  {
    var v := Slice(section, offset, offset + 32);
    var u := Utf16Le(s);
    assert |v| >= 2 * |s|;
    forall k | 0 <= k < |s|
      ensures v[2 * k] == s[k] as int
    {
      assert v[2 * k] == section[offset + 2 * k] == u[2 * k];
    }
    if 2 * |s| < |v| {
      assert v[2 * |s|] == section[offset + 2 * |s|];
    }
    NameFromEncoded(v, s, 0);
  }
}

=== FILE: aob.dfy ===
/**
 * The array-of-bytes search of the Python extractor (`aob_to_pattern`,
 * `aob_search`): a pattern of hex bytes and `??` wildcards, where a wildcard
 * matches any NON-ZERO byte, searched for its first occurrence only.
 */
module Aob {
  import opened Wrappers
  import opened Bytes

  /** One whitespace-separated token of the pattern text: `??`, or another token
      carrying the value `int(token, 16)` gives it. */
  datatype Token = Wildcard | HexToken(value: int)

  /** The pattern and mask bytes `aob_to_pattern` builds for the tokens;
      `None` when a value does not fit a byte (`bytearray.append` raises). */
  function PatternOf(tokens: seq<Token>): (r: Option<(seq<byte>, seq<bool>)>)
    ensures r.Some? <==> forall k :: 0 <= k < |tokens| && tokens[k].HexToken? ==> 0 <= tokens[k].value < 256
    ensures r.Some? ==> |r.value.0| == |tokens| == |r.value.1|
    ensures r.Some? ==> forall k :: 0 <= k < |tokens| ==>
      (r.value.1[k] <==> tokens[k].HexToken?) &&
      r.value.0[k] == (if tokens[k].HexToken? then tokens[k].value else 0)
  {
    if tokens == [] then Some(([], []))
    else
      var init := tokens[..|tokens| - 1];
      var t := tokens[|tokens| - 1];
      assert forall k :: 0 <= k < |init| ==> init[k] == tokens[k];
      match PatternOf(init)
      case None => None
      case Some(pm) =>
        match t
        case Wildcard => Some((pm.0 + [0], pm.1 + [false]))
        case HexToken(v) => if 0 <= v < 256 then Some((pm.0 + [v], pm.1 + [true])) else None
  }

  /** `aob_to_pattern` over the split tokens. */
  method AobToPattern(tokens: seq<Token>) returns (r: Option<(seq<byte>, seq<bool>)>)
    ensures r == PatternOf(tokens)
  {
    var pattern: seq<byte> := [];
    var mask: seq<bool> := [];
    for k := 0 to |tokens|
      invariant PatternOf(tokens[..k]) == Some((pattern, mask))
    {
      assert tokens[..k + 1][..k] == tokens[..k];
      match tokens[k]
      case Wildcard =>
        pattern := pattern + [0];
        mask := mask + [false];
      case HexToken(v) =>
        if !(0 <= v < 256) {
          assert PatternOf(tokens[..k + 1]).None?;
          PatternPrefixFails(tokens, k + 1);
          return None;
        }
        pattern := pattern + [v];
        mask := mask + [true];
    }
    assert tokens[..|tokens|] == tokens;
    r := Some((pattern, mask));
  }

  /** A prefix that fails makes the whole pattern fail. */
  lemma PatternPrefixFails(tokens: seq<Token>, n: nat)
    requires n <= |tokens| && PatternOf(tokens[..n]).None?
    ensures PatternOf(tokens).None?
  {
    var k :| 0 <= k < n && tokens[..n][k].HexToken? && !(0 <= tokens[..n][k].value < 256);
    assert tokens[k] == tokens[..n][k];
  }

  /** The pattern matches at `i`: masked bytes are equal, wildcard bytes are non-zero. */
  predicate MaskedAt(data: seq<byte>, pattern: seq<byte>, mask: seq<bool>, i: nat)
    requires |mask| == |pattern|
  {
    i + |pattern| <= |data| &&
    forall j :: 0 <= j < |pattern| ==> if mask[j] then data[i + j] == pattern[j] else data[i + j] != 0
  }

  /** The first position at or after `i` where the pattern matches. */
  function FirstMasked(data: seq<byte>, pattern: seq<byte>, mask: seq<bool>, i: nat): (r: Option<nat>)
    requires |mask| == |pattern|
    decreases |data| - i
    ensures r.Some? ==> i <= r.value && MaskedAt(data, pattern, mask, r.value)
    ensures r.Some? ==> forall j :: i <= j < r.value ==> !MaskedAt(data, pattern, mask, j)
    ensures r.None? ==> forall j :: i <= j ==> !MaskedAt(data, pattern, mask, j)
  {
    if i + |pattern| > |data| then None
    else if MaskedAt(data, pattern, mask, i) then Some(i)
    else FirstMasked(data, pattern, mask, i + 1)
  }

  /** The inner loop of `aob_search`: whether the pattern matches at `i`. */
  method MatchesAt(data: seq<byte>, pattern: seq<byte>, mask: seq<bool>, i: nat) returns (ok: bool)
    requires |mask| == |pattern| && i + |pattern| <= |data|
    ensures ok <==> MaskedAt(data, pattern, mask, i)
  {
    for j := 0 to |pattern|
      invariant forall j' :: 0 <= j' < j ==> if mask[j'] then data[i + j'] == pattern[j'] else data[i + j'] != 0
    {
      if mask[j] {
        if data[i + j] != pattern[j] {
          return false;
        }
      } else {
        if data[i + j] == 0 {
          return false;
        }
      }
    }
    return true;
  }

  /** `aob_search`: `None` when the pattern text cannot be built, otherwise the list of
      matches, which stops at the first one. */
  method AobSearch(data: seq<byte>, tokens: seq<Token>) returns (r: Option<seq<nat>>)
    ensures r.None? <==> PatternOf(tokens).None?
    ensures r.Some? ==> var (pattern, mask) := PatternOf(tokens).value;
      match FirstMasked(data, pattern, mask, 0)
      case None => r.value == []
      case Some(i) => r.value == [i]
  {
    var pm := AobToPattern(tokens);
    if pm.None? {
      return None;
    }
    var (pattern, mask) := pm.value;
    var n := |pattern|;
    var i := 0;
    while i < |data| - n + 1
      invariant 0 <= i
      invariant i <= |data| - n + 1 || i == 0
      invariant forall j :: 0 <= j < i ==> !MaskedAt(data, pattern, mask, j)
      decreases |data| - n + 1 - i
    {
      var ok := MatchesAt(data, pattern, mask, i);
      if ok {
        assert FirstMasked(data, pattern, mask, 0) == Some(i) by {
          FirstMaskedFrom(data, pattern, mask, 0, i);
        }
        return Some([i]);
      }
      i := i + 1;
    }
    assert FirstMasked(data, pattern, mask, 0).None? by {
      NoneFrom(data, pattern, mask, 0, i);
    }
    return Some([]);
  }

  /** With no match below `k` and a match at `k`, the first match from `i <= k` is `k`. */
  lemma {:induction false} FirstMaskedFrom(data: seq<byte>, pattern: seq<byte>, mask: seq<bool>, i: nat, k: nat)
    requires |mask| == |pattern| && i <= k
    requires MaskedAt(data, pattern, mask, k)
    requires forall j :: i <= j < k ==> !MaskedAt(data, pattern, mask, j)
    ensures FirstMasked(data, pattern, mask, i) == Some(k)
    decreases k - i
  {
    if i < k {
      FirstMaskedFrom(data, pattern, mask, i + 1, k);
    }
  }

  /** With no match below `k` and no room for one from `k` on, there is none at all. */
  lemma {:induction false} NoneFrom(data: seq<byte>, pattern: seq<byte>, mask: seq<bool>, i: nat, k: nat)
    requires |mask| == |pattern| && i <= k && k + |pattern| > |data|
    requires forall j :: i <= j < k ==> !MaskedAt(data, pattern, mask, j)
    ensures FirstMasked(data, pattern, mask, i).None?
    decreases k - i
  {
    if i < k {
      NoneFrom(data, pattern, mask, i + 1, k);
    }
  }

  /** The tokens of a pattern without wildcards: one per byte. */
  function TokensOf(b: seq<byte>): (ts: seq<Token>)
    ensures |ts| == |b| && forall k :: 0 <= k < |b| ==> ts[k] == HexToken(b[k])
  {
    if b == [] then [] else [HexToken(b[0])] + TokensOf(b[1..])
  }

  /** Without wildcards the search is the plain byte search `find_hex_offset` performs:
      the first occurrence of the bytes. */
  lemma PlainPatternIsIndex(data: seq<byte>, b: seq<byte>)
    ensures PatternOf(TokensOf(b)) == Some((b, seq(|b|, _ => true)))
    ensures FirstMasked(data, b, seq(|b|, _ => true), 0) == IndexOf(data, b)
  {
    var pm := PatternOf(TokensOf(b)).value;
    assert pm.0 == b;
    assert pm.1 == seq(|b|, _ => true);
    var mask := seq(|b|, _ => true);
    forall i: nat
      ensures MaskedAt(data, b, mask, i) <==> MatchAt(data, b, i)
    {
      if i + |b| <= |data| {
        if MaskedAt(data, b, mask, i) {
          assert data[i..i + |b|] == b;
        }
        if MatchAt(data, b, i) {
          forall j | 0 <= j < |b| ensures data[i + j] == b[j] {
            assert data[i..i + |b|][j] == b[j];
          }
        }
      }
    }
    SameFirst(data, b, mask, 0);
  }

  /** Equivalent match predicates have the same first match. */
  lemma {:induction false} SameFirst(data: seq<byte>, b: seq<byte>, mask: seq<bool>, i: nat)
    requires |mask| == |b|
    requires forall k: nat :: MaskedAt(data, b, mask, k) <==> MatchAt(data, b, k)
    ensures FirstMasked(data, b, mask, i) == FirstMatchFrom(data, b, i)
    decreases |data| - i
  {
    if i + |b| <= |data| && !MaskedAt(data, b, mask, i) {
      SameFirst(data, b, mask, i + 1);
    }
  }
}

=== FILE: bnd4.dfy ===
/**
 * The BND4 container that wraps an encrypted save file: a 64-byte header whose
 * signed 32-bit word at offset 12 counts the entries, then one 32-byte entry
 * header per entry. Shared by the Python and the browser extractors.
 */
module Bnd4 {
  import opened Wrappers
  import opened Bytes

  /** AES-128-CBC block decryption without padding removal: (key, iv, ciphertext) to
      plaintext, `None` where the cipher rejects the input (a ciphertext that is not
      whole blocks). The Python extractor keeps this output as it is; the browser's
      WebCrypto call also removes PKCS#7 padding (`ContainerJs.Pkcs7Unpad`). */
  type Decryptor = (seq<byte>, seq<byte>, seq<byte>) -> Option<seq<byte>>

  const DS2Key: seq<byte> := [
    0x18, 0xF6, 0x32, 0x66, 0x05, 0xBD, 0x17, 0x8A,
    0x55, 0x24, 0x52, 0x3A, 0xC0, 0xA0, 0xC6, 0x09]

  const IVSize: nat := 0x10
  const HeaderLength: nat := 64
  const EntryHeaderLength: nat := 32

  /** "BND4" in ASCII. */
  const Magic: seq<byte> := [0x42, 0x4E, 0x44, 0x34]

  /** Every entry header starts with `40 00 00 00 FF FF FF FF`. */
  const EntryMagic: seq<byte> := [0x40, 0x00, 0x00, 0x00, 0xFF, 0xFF, 0xFF, 0xFF]

  /** The signed 32-bit fields of an entry header that the extractors use. */
  datatype EntryHeader = EntryHeader(size: int, dataOffset: int, nameOffset: int, footerLength: int)

  predicate HasMagic(raw: seq<byte>)
  {
    4 <= |raw| && raw[..4] == Magic
  }

  /** The signed entry count at offset 12. */
  function EntryCount(raw: seq<byte>): int
    requires 16 <= |raw|
  {
    I32(raw, 12)
  }

  /** Where the header of entry `i` starts: after the 64-byte header, 32 bytes per entry. */
  function EntryPos(i: nat): nat
  {
    64 + 32 * i
  }

  /** How many iterations of the entry loop run when it reaches iteration `i`: it stops
      after `count` entries, or at the first entry whose 32-byte header would run past
      the end of the file. */
  function Stop(raw: seq<byte>, count: int, i: nat): (n: nat)
    decreases Max(0, count - i)
    ensures i <= n
    ensures n == i || EntryPos(n - 1) + EntryHeaderLength <= |raw|
    ensures n < count ==> EntryPos(n) + EntryHeaderLength > |raw|
    ensures n <= Max(i, count)
  {
    if count <= i || EntryPos(i) + EntryHeaderLength > |raw| then i else Stop(raw, count, i + 1)
  }

  /** The entry header at `pos` (Python compares its first eight bytes with the magic). */
  function ReadEntryHeader(raw: seq<byte>, pos: nat): Option<EntryHeader>
    requires pos + EntryHeaderLength <= |raw|
  {
    if raw[pos..pos + 8] != EntryMagic then None
    else Some(EntryHeader(I32(raw, pos + 8), I32(raw, pos + 16), I32(raw, pos + 20), I32(raw, pos + 24)))
  }

  /** `readEntryHeader`: the browser compares two little-endian words instead. */
  function ReadEntryHeaderJs(raw: seq<byte>, pos: nat): Option<EntryHeader>
    requires pos + EntryHeaderLength <= |raw|
  {
    if !(LE32(raw, pos) == 0x40 && LE32(raw, pos + 4) == 0xFFFF_FFFF) then None
    else Some(EntryHeader(I32(raw, pos + 8), I32(raw, pos + 16), I32(raw, pos + 20), I32(raw, pos + 24)))
  }

  /** A little-endian word determines its four bytes. */
  lemma LE32Bytes(raw: seq<byte>, p: nat)
    requires p + 4 <= |raw|
    ensures raw[p] == LE32(raw, p) % 0x100
    ensures raw[p + 1] == LE32(raw, p) / 0x100 % 0x100
    ensures raw[p + 2] == LE32(raw, p) / 0x1_0000 % 0x100
    ensures raw[p + 3] == LE32(raw, p) / 0x100_0000
  {
    var b0, b1, b2, b3 := raw[p] as int, raw[p + 1] as int, raw[p + 2] as int, raw[p + 3] as int;
    var v := LE32(raw, p);
    assert v == b0 + 0x100 * (b1 + 0x100 * (b2 + 0x100 * b3));
    var q1 := b1 + 0x100 * (b2 + 0x100 * b3);
    assert v / 0x100 == q1 && v % 0x100 == b0;
    var q2 := b2 + 0x100 * b3;
    assert q1 / 0x100 == q2 && q1 % 0x100 == b1;
    assert v / 0x1_0000 == q2 by {
      assert v / 0x1_0000 == (v / 0x100) / 0x100;
    }
    assert q2 / 0x100 == b3 && q2 % 0x100 == b2;
    assert v / 0x100_0000 == b3 by {
      assert v / 0x100_0000 == (v / 0x1_0000) / 0x100;
    }
  }

  /** Both ways of checking the entry magic accept exactly the same headers. */
  lemma EntryHeaderReadersAgree(raw: seq<byte>, pos: nat)
    requires pos + EntryHeaderLength <= |raw|
    ensures ReadEntryHeaderJs(raw, pos) == ReadEntryHeader(raw, pos)
  {
    LE32Bytes(raw, pos);
    LE32Bytes(raw, pos + 4);
    if raw[pos..pos + 8] == EntryMagic {
      assert raw[pos] == 0x40 && raw[pos + 1] == 0 && raw[pos + 2] == 0 && raw[pos + 3] == 0;
      assert raw[pos + 4] == 0xFF && raw[pos + 5] == 0xFF && raw[pos + 6] == 0xFF && raw[pos + 7] == 0xFF;
    }
  }

  /** The first sixteen bytes of an entry's data are the IV, the rest the ciphertext. */
  function SplitIV(enc: seq<byte>): (parts: (seq<byte>, seq<byte>))
    ensures parts.0 + parts.1 == enc
    ensures |parts.0| == Min(IVSize, |enc|)
  {
    var cut := Min(IVSize, |enc|);
    assert enc[..cut] + enc[cut..] == enc;
    (enc[..cut], enc[cut..])
  }

  /** The encrypted bytes of an entry whose data lies inside the file. */
  function EntryData(raw: seq<byte>, h: EntryHeader): (enc: seq<byte>)
    requires 0 <= h.dataOffset && 0 <= h.size && h.dataOffset + h.size <= |raw|
    ensures |enc| == h.size
  {
    raw[h.dataOffset..h.dataOffset + h.size]
  }

  /** Decrypt an entry's data with the fixed key. */
  function DecryptEntry(raw: seq<byte>, h: EntryHeader, aes: Decryptor): Option<seq<byte>>
    requires 0 <= h.dataOffset && 0 <= h.size && h.dataOffset + h.size <= |raw|
  {
    var parts := SplitIV(EntryData(raw, h));
    aes(DS2Key, parts.0, parts.1)
  }

  /** An entry header, as written into a container. */
  function EncodeEntryHeader(h: EntryHeader): (bytes: seq<byte>)
    requires -0x8000_0000 <= h.size < 0x8000_0000 && -0x8000_0000 <= h.dataOffset < 0x8000_0000
    requires -0x8000_0000 <= h.nameOffset < 0x8000_0000 && -0x8000_0000 <= h.footerLength < 0x8000_0000
    ensures |bytes| == EntryHeaderLength
  {
    EntryMagic + EncodeLE(h.size % 0x1_0000_0000, 4) + Zeros(4)
    + EncodeLE(h.dataOffset % 0x1_0000_0000, 4) + EncodeLE(h.nameOffset % 0x1_0000_0000, 4)
    + EncodeLE(h.footerLength % 0x1_0000_0000, 4) + Zeros(4)
  }

  /** Reading a signed word back from its two's-complement encoding. */
  lemma I32OfEncode(v: int, raw: seq<byte>, p: nat)
    requires -0x8000_0000 <= v < 0x8000_0000
    requires p + 4 <= |raw| && raw[p..p + 4] == EncodeLE(v % 0x1_0000_0000, 4)
    ensures I32(raw, p) == v
  {
    LE32OfEncode(v % 0x1_0000_0000, raw, p);
  }

  /** An encoded entry header reads back as the same header. */
  lemma EntryHeaderRoundTrip(h: EntryHeader, raw: seq<byte>, pos: nat)
    requires -0x8000_0000 <= h.size < 0x8000_0000 && -0x8000_0000 <= h.dataOffset < 0x8000_0000
    requires -0x8000_0000 <= h.nameOffset < 0x8000_0000 && -0x8000_0000 <= h.footerLength < 0x8000_0000
    requires pos + EntryHeaderLength <= |raw| && raw[pos..pos + EntryHeaderLength] == EncodeEntryHeader(h)
    ensures ReadEntryHeader(raw, pos) == Some(h)
  {
    var e := EncodeEntryHeader(h);
    Piece(raw, pos, e, 0, 8);
    Piece(raw, pos, e, 8, 12);
    Piece(raw, pos, e, 16, 20);
    Piece(raw, pos, e, 20, 24);
    Piece(raw, pos, e, 24, 28);
    assert e[0..8] == EntryMagic;
    assert e[8..12] == EncodeLE(h.size % 0x1_0000_0000, 4);
    assert e[16..20] == EncodeLE(h.dataOffset % 0x1_0000_0000, 4);
    assert e[20..24] == EncodeLE(h.nameOffset % 0x1_0000_0000, 4);
    assert e[24..28] == EncodeLE(h.footerLength % 0x1_0000_0000, 4);
    I32OfEncode(h.size, raw, pos + 8);
    I32OfEncode(h.dataOffset, raw, pos + 16);
    I32OfEncode(h.nameOffset, raw, pos + 20);
    I32OfEncode(h.footerLength, raw, pos + 24);
  }
}

=== FILE: bytes.dfy ===
/**
 * Byte-level vocabulary shared by the save-file readers: bytes, little-endian
 * field reads, the slicing rules of Python and of JavaScript typed arrays, and
 * first-occurrence substring search.
 */
module Bytes {
  import opened Wrappers

  /** One octet of a buffer. */
  type byte = b: int | 0 <= b < 256

  /** Unsigned little-endian reads (`int.from_bytes(..., 'little')`, `getUint32(_, true)`). */
  function LE16(s: seq<byte>, p: nat): (v: nat)
    requires p + 2 <= |s|
    ensures v < 0x1_0000
  {
    s[p] as int + 0x100 * (s[p + 1] as int)
  }

  function LE24(s: seq<byte>, p: nat): (v: nat)
    requires p + 3 <= |s|
    ensures v < 0x100_0000
  {
    LE16(s, p) + 0x1_0000 * (s[p + 2] as int)
  }

  function LE32(s: seq<byte>, p: nat): (v: nat)
    requires p + 4 <= |s|
    ensures v < 0x1_0000_0000
  {
    LE24(s, p) + 0x100_0000 * (s[p + 3] as int)
  }

  /** Two's-complement reinterpretation of a 32-bit word (`struct.unpack("<i")`, `getInt32`). */
  function ToInt32(u: nat): (v: int)
    requires u < 0x1_0000_0000
    ensures -0x8000_0000 <= v < 0x8000_0000
    ensures v % 0x1_0000_0000 == u
  {
    if u < 0x8000_0000 then u else u - 0x1_0000_0000
  }

  /** Signed little-endian 32-bit read. */
  function I32(s: seq<byte>, p: nat): int
    requires p + 4 <= |s|
  {
    ToInt32(LE32(s, p))
  }

  /** The little-endian encoding of a value below 256^n, lowest byte first. */
  function EncodeLE(v: nat, n: nat): (r: seq<byte>)
    ensures |r| == n
  {
    if n == 0 then [] else [v % 0x100] + EncodeLE(v / 0x100, n - 1)
  }

  lemma {:induction false} LE32OfEncode(v: nat, s: seq<byte>, p: nat)
    requires v < 0x1_0000_0000
    requires p + 4 <= |s| && s[p..p + 4] == EncodeLE(v, 4)
    ensures LE32(s, p) == v
  {
    var q1 := v / 0x100;
    var q2 := q1 / 0x100;
    var q3 := q2 / 0x100;
    assert EncodeLE(v, 4) == [v % 0x100] + EncodeLE(q1, 3);
    assert EncodeLE(q1, 3) == [q1 % 0x100] + EncodeLE(q2, 2);
    assert EncodeLE(q2, 2) == [q2 % 0x100] + EncodeLE(q3, 1);
    assert EncodeLE(q3, 1) == [q3 % 0x100];
    assert s[p..p + 4][0] == s[p] && s[p..p + 4][1] == s[p + 1];
    assert s[p..p + 4][2] == s[p + 2] && s[p..p + 4][3] == s[p + 3];
    assert s[p] == v % 0x100 && s[p + 1] == q1 % 0x100 && s[p + 2] == q2 % 0x100 && s[p + 3] == q3 % 0x100;
    assert q3 < 0x100;
  }

  lemma {:induction false} LE24OfEncode(v: nat, s: seq<byte>, p: nat)
    requires v < 0x100_0000
    requires p + 3 <= |s| && s[p..p + 3] == EncodeLE(v, 3)
    ensures LE24(s, p) == v
  {
    var q1 := v / 0x100;
    var q2 := q1 / 0x100;
    assert EncodeLE(v, 3) == [v % 0x100] + EncodeLE(q1, 2);
    assert EncodeLE(q1, 2) == [q1 % 0x100] + EncodeLE(q2, 1);
    assert EncodeLE(q2, 1) == [q2 % 0x100];
    assert s[p..p + 3][0] == s[p] && s[p..p + 3][1] == s[p + 1] && s[p..p + 3][2] == s[p + 2];
    assert s[p] == v % 0x100 && s[p + 1] == q1 % 0x100 && s[p + 2] == q2 % 0x100;
    assert q2 < 0x100;
  }

  lemma {:induction false} LE16OfEncode(v: nat, s: seq<byte>, p: nat)
    requires v < 0x1_0000
    requires p + 2 <= |s| && s[p..p + 2] == EncodeLE(v, 2)
    ensures LE16(s, p) == v
  {
    var e := EncodeLE(v, 2);
    assert e == [v % 0x100, v / 0x100 % 0x100];
    assert s[p] == e[0] && s[p + 1] == e[1];
  }

  function Min(a: int, b: int): int { if a <= b then a else b }
  function Max(a: int, b: int): int { if a <= b then b else a }

  /**
   * `s[a:b]` in Python and `u8.slice(a, b)` / `u8.subarray(a, b)` in JavaScript
   * for non-negative bounds: both bounds are clamped to the length and an
   * inverted range is empty.
   */
  function Slice<T>(s: seq<T>, a: nat, b: int): (r: seq<T>)
    ensures |r| == Max(0, Min(b, |s|) - Min(a, |s|))
    ensures a <= b && b <= |s| ==> r == s[a..b]
    ensures forall k :: 0 <= k < |r| ==> r[k] == s[a + k]
  {
    var lo := Min(a, |s|);
    var hi := Max(lo, Min(b, |s|));
    s[lo..hi]
  }

  /**
   * `f.seek(pos); f.read(n)` on a file holding `s`: a negative count reads to
   * the end of the file, a count past the end reads what is there.
   */
  function PyRead<T>(s: seq<T>, pos: nat, n: int): (r: seq<T>)
    ensures n < 0 ==> r == s[Min(pos, |s|)..]
    ensures 0 <= n ==> r == Slice(s, pos, pos + n)
  {
    if n < 0 then s[Min(pos, |s|)..] else Slice(s, pos, pos + n)
  }

  /** `n` zero bytes. */
  function Zeros(n: nat): (r: seq<byte>)
    ensures |r| == n && forall k :: 0 <= k < n ==> r[k] == 0
  {
    seq(n, _ => 0)
  }

  predicate AllZero(s: seq<byte>)
  {
    forall k :: 0 <= k < |s| ==> s[k] == 0
  }

  /** The concatenation of a sequence of buffers, in order. */
  function Flatten<T>(ss: seq<seq<T>>): seq<T>
  {
    if ss == [] then [] else Flatten(ss[..|ss| - 1]) + ss[|ss| - 1]
  }

  /** The sum of the buffer lengths of `ss[..k]`: where buffer `k` starts once concatenated. */
  function Offset<T>(ss: seq<seq<T>>, k: nat): nat
    requires k <= |ss|
  {
    if k == 0 then 0 else Offset(ss, k - 1) + |ss[k - 1]|
  }

  lemma {:induction false} FlattenLength<T>(ss: seq<seq<T>>)
    ensures |Flatten(ss)| == Offset(ss, |ss|)
  {
    if ss != [] {
      var init := ss[..|ss| - 1];
      FlattenLength(init);
      OffsetPrefix(ss, init, |init|);
    }
  }

  lemma {:induction false} OffsetPrefix<T>(ss: seq<seq<T>>, pre: seq<seq<T>>, k: nat)
    requires pre <= ss && k <= |pre|
    ensures Offset(pre, k) == Offset(ss, k)
  {
    if k > 0 {
      OffsetPrefix(ss, pre, k - 1);
    }
  }

  lemma {:induction false} OffsetMonotone<T>(ss: seq<seq<T>>, j: nat, k: nat)
    requires j <= k <= |ss|
    ensures Offset(ss, j) <= Offset(ss, k)
  {
    if j < k {
      OffsetMonotone(ss, j, k - 1);
    }
  }

  /** Buffer `k` occupies `[Offset(ss, k), Offset(ss, k + 1))` of the concatenation. */
  lemma {:induction false} FlattenPlacement<T>(ss: seq<seq<T>>, k: nat)
    requires k < |ss|
    ensures Offset(ss, k + 1) == Offset(ss, k) + |ss[k]|
    ensures Offset(ss, k + 1) <= |Flatten(ss)|
    ensures Flatten(ss)[Offset(ss, k)..Offset(ss, k + 1)] == ss[k]
  {
    var init := ss[..|ss| - 1];
    FlattenLength(ss);
    FlattenLength(init);
    OffsetPrefix(ss, init, |init|);
    OffsetMonotone(ss, k + 1, |ss|);
    if k == |ss| - 1 {
      assert Flatten(ss) == Flatten(init) + ss[k];
    } else {
      FlattenPlacement(init, k);
      OffsetPrefix(ss, init, k);
      OffsetPrefix(ss, init, k + 1);
      assert Flatten(ss)[..|Flatten(init)|] == Flatten(init);
    }
  }

  lemma {:induction false} FlattenAppend<T>(ss: seq<seq<T>>, t: seq<seq<T>>)
    ensures Flatten(ss + t) == Flatten(ss) + Flatten(t)
    decreases |t|
  {
    if t == [] {
      assert ss + t == ss;
    } else {
      var tinit := t[..|t| - 1];
      assert (ss + t)[..|ss + t| - 1] == ss + tinit;
      FlattenAppend(ss, tinit);
    }
  }

  /** `needle` occurs in `hay` at position `i`. */
  predicate MatchAt<T(==)>(hay: seq<T>, needle: seq<T>, i: nat)
  {
    i + |needle| <= |hay| && hay[i..i + |needle|] == needle
  }

  /** The first position at or after `i` where `needle` occurs, if any. */
  function FirstMatchFrom<T(==)>(hay: seq<T>, needle: seq<T>, i: nat): (r: Option<nat>)
    decreases |hay| - i
    ensures r.Some? ==> i <= r.value && MatchAt(hay, needle, r.value)
    ensures r.Some? ==> forall j :: i <= j < r.value ==> !MatchAt(hay, needle, j)
    ensures r.None? ==> forall j :: i <= j ==> !MatchAt(hay, needle, j)
  {
    if i + |needle| > |hay| then None
    else if MatchAt(hay, needle, i) then Some(i)
    else FirstMatchFrom(hay, needle, i + 1)
  }

  /** `hay.index(needle)` guarded by `needle in hay`: the first occurrence, an empty needle at 0. */
  function IndexOf<T(==)>(hay: seq<T>, needle: seq<T>): Option<nat>
  {
    FirstMatchFrom(hay, needle, 0)
  }

  /** A sub-slice of an embedded sequence is the sub-slice of the embedded one. */
  lemma Piece<T>(data: seq<T>, p: nat, piece: seq<T>, a: nat, b: nat)
    requires p + |piece| <= |data| && data[p..p + |piece|] == piece
    requires a <= b <= |piece|
    ensures data[p + a..p + b] == piece[a..b]
  {
    forall t | 0 <= t < b - a
      ensures data[p + a..p + b][t] == piece[a..b][t]
    {
      assert data[p + a + t] == data[p..p + |piece|][a + t];
    }
  }
}

=== FILE: calc_best.dfy ===
/**
 * The optimiser's entry point (`calculateBestRelics` in `calculation.js`) and the
 * per-vessel searches it runs: relic processing and scoring, the base-only and the
 * combined base-and-deep searches, and the keep-the-maximum filters.
 */
module CalcBest {
  import opened Wrappers
  import opened Text
  import opened StableSort
  import opened CalcModel
  import opened CalcScore
  import opened CalcSearch

  // ---------------------------------------------------------------------------
  // Keeping the maximum

  /** `Math.max(...xs.map(score))`. */
  function MaxOf<T>(xs: seq<T>, score: T -> int): (m: int)
    requires xs != []
    ensures forall i :: 0 <= i < |xs| ==> score(xs[i]) <= m
    ensures exists i :: 0 <= i < |xs| && score(xs[i]) == m
  {
    if |xs| == 1 then score(xs[0])
    else
      var m := MaxOf(xs[1..], score);
      assert forall i :: 1 <= i < |xs| ==> xs[i] == xs[1..][i - 1];
      if score(xs[0]) >= m then score(xs[0]) else m
  }

  /** `xs.filter(x => score(x) === m)`. */
  function WithScore<T(!new)>(xs: seq<T>, score: T -> int, m: int): (r: seq<T>)
    ensures forall x :: x in r <==> x in xs && score(x) == m
  {
    if xs == [] then []
    else
      assert forall x :: x in xs <==> x == xs[0] || x in xs[1..];
      (if score(xs[0]) == m then [xs[0]] else []) + WithScore(xs[1..], score, m)
  }

  /** The elements whose score is the maximum, in their order: never empty, and each of
      them scores at least as much as every element of `xs`. */
  function BestOf<T(!new)>(xs: seq<T>, score: T -> int): (r: seq<T>)
    requires xs != []
    ensures r != []
    ensures forall x :: x in r <==> x in xs && score(x) == MaxOf(xs, score)
    ensures forall x, y :: x in r && y in xs ==> score(y) <= score(x)
  {
    var m := MaxOf(xs, score);
    var i :| 0 <= i < |xs| && score(xs[i]) == m;
    assert xs[i] in WithScore(xs, score, m);
    WithScore(xs, score, m)
  }

  function Total(c: Combination): int
  {
    c.score
  }

  // ---------------------------------------------------------------------------
  // Processing relics

  /** `...(relic.source && { source: relic.source })`: an empty source is dropped. */
  function SourceOf(source: Option<string>): Option<string>
  {
    if source == Some("") then None else source
  }

  /** The processing of one save-file relic, for the base list (`deep` false) or the deep
      list: it is kept exactly when its item is known, its name starts with `Deep` just in
      the deep list, it is not forsaken unless forsaken relics are shown, and it has a colour. */
  function ProcessRelic(raw: RawRelic, items: seq<(int, Item)>, table: EffectTable, showForsaken: bool, deep: bool): (r: Option<Relic>)
    ensures r.Some? <==>
      MapGet(items, raw.itemId).Some? && StartsWith(MapGet(items, raw.itemId).value.name, "Deep") == deep
      && (showForsaken || !MapGet(items, raw.itemId).value.forsaken) && MapGet(items, raw.itemId).value.color != ""
    ensures r.Some? ==> (r.value.relicId == Some(raw.itemId) && r.value.sorting == raw.sorting
      && r.value.kind == (if deep then Deep else Base)
      && r.value.color == LowerStr(MapGet(items, raw.itemId).value.color) && r.value.color != ""
      && EffectNames(r.value) == [GetEffect(table, raw.effect1), GetEffect(table, raw.effect2), GetEffect(table, raw.effect3),
                                  GetEffect(table, raw.sec1), GetEffect(table, raw.sec2), GetEffect(table, raw.sec3)])
  {
    match MapGet(items, raw.itemId)
    case None => None
    case Some(info) =>
      if StartsWith(info.name, "Deep") != deep then None
      else if !showForsaken && info.forsaken then None
      else if info.color == "" then None
      else Some(Relic(Some(raw.itemId), info.name,
        GetEffect(table, raw.effect1), GetEffect(table, raw.effect2), GetEffect(table, raw.effect3),
        GetEffect(table, raw.sec1), GetEffect(table, raw.sec2), GetEffect(table, raw.sec3),
        raw.sorting, LowerStr(info.color), if deep then Deep else Base, SourceOf(raw.source)))
  }

  /** `relics.map(...).filter(Boolean)`: the processed relics, in save-file order. */
  function ProcessRelics(raws: seq<RawRelic>, items: seq<(int, Item)>, table: EffectTable, showForsaken: bool, deep: bool): (r: seq<Relic>)
    ensures forall x :: x in r <==> exists i :: 0 <= i < |raws| && ProcessRelic(raws[i], items, table, showForsaken, deep) == Some(x)
  {
    if raws == [] then []
    else
      var init := raws[..|raws| - 1];
      assert forall i :: 0 <= i < |init| ==> init[i] == raws[i];
      ProcessRelics(init, items, table, showForsaken, deep) +
      (match ProcessRelic(raws[|raws| - 1], items, table, showForsaken, deep) case None => [] case Some(x) => [x])
  }

  /** A relic is forbidden when one of its effect ids is in a forbidden group. */
  predicate Forbidden(r: Relic, desired: seq<DesiredEffect>, table: EffectTable)
  {
    exists k :: 0 <= k < |desired| && desired[k].isForbidden && exists id :: id in RelicEffects(r, table) && id in desired[k].ids
  }

  /** A relic with its `calculateRelicScore` score and `effectScores` ids. */
  function ScoreRelic(r: Relic, table: EffectTable, desired: seq<DesiredEffect>): Scored
  {
    var ids := SlotIds(r, table);
    Scored(r, RelicScore(ids, desired), ids)
  }

  function Allowed(scored: seq<Scored>, desired: seq<DesiredEffect>, table: EffectTable): (r: seq<Scored>)
    ensures forall x :: x in r <==> x in scored && !Forbidden(x.relic, desired, table)
  {
    if scored == [] then []
    else
      assert forall x :: x in scored <==> x == scored[0] || x in scored[1..];
      (if Forbidden(scored[0].relic, desired, table) then [] else [scored[0]]) + Allowed(scored[1..], desired, table)
  }

  /** `relics.map(...)` with the scores. */
  function ScoreEach(relics: seq<Relic>, table: EffectTable, desired: seq<DesiredEffect>): (r: seq<Scored>)
    ensures |r| == |relics| && forall i :: 0 <= i < |relics| ==> r[i] == ScoreRelic(relics[i], table, desired)
  {
    seq(|relics|, i requires 0 <= i < |relics| => ScoreRelic(relics[i], table, desired))
  }

  /** Scoring, dropping forbidden relics, and sorting by descending score. */
  function ScoreAll(relics: seq<Relic>, table: EffectTable, desired: seq<DesiredEffect>): seq<Scored>
  {
    SortBy(Allowed(ScoreEach(relics, table, desired), desired, table), ByScore)
  }

  lemma ScoreEachMember(relics: seq<Relic>, table: EffectTable, desired: seq<DesiredEffect>, x: Scored)
    ensures x in ScoreEach(relics, table, desired) <==> exists r :: r in relics && x == ScoreRelic(r, table, desired)
  {
    var mapped := ScoreEach(relics, table, desired);
    if x in mapped {
      var i :| 0 <= i < |mapped| && mapped[i] == x;
      assert relics[i] in relics;
    }
    if exists r :: r in relics && x == ScoreRelic(r, table, desired) {
      var r :| r in relics && x == ScoreRelic(r, table, desired);
      var i :| 0 <= i < |relics| && relics[i] == r;
      assert mapped[i] == x;
    }
  }

  /** The scored list holds exactly the scored relics that are not forbidden. */
  lemma ScoreAllMembers(relics: seq<Relic>, table: EffectTable, desired: seq<DesiredEffect>, x: Scored)
    ensures x in ScoreAll(relics, table, desired) <==>
      (exists r :: r in relics && x == ScoreRelic(r, table, desired)) && !Forbidden(x.relic, desired, table)
  {
    var kept := Allowed(ScoreEach(relics, table, desired), desired, table);
    SortFacts(kept, ByScore);
    assert x in ScoreAll(relics, table, desired) <==> x in multiset(ScoreAll(relics, table, desired));
    ScoreEachMember(relics, table, desired, x);
  }

  /** The scored list is in descending order of score. */
  lemma ScoreAllOrdered(relics: seq<Relic>, table: EffectTable, desired: seq<DesiredEffect>)
    ensures var s := ScoreAll(relics, table, desired);
      forall i, j :: 0 <= i < j < |s| ==> s[i].score >= s[j].score
  {
    SortFacts(Allowed(ScoreEach(relics, table, desired), desired, table), ByScore);
    assert SortedBy(ScoreAll(relics, table, desired), ByScore);
  }

  // ---------------------------------------------------------------------------
  // The searches per vessel

  /** A vessel of the vessel table; `deepSlots` may be absent. */
  datatype Vessel = Vessel(name: string, baseSlots: seq<string>, deepSlots: Option<seq<string>>, description: string)

  /** One recommended build: the vessel (with `deepSlots || []`), its relics and its score. */
  datatype VesselResult = VesselResult(vessel: Vessel, baseRelics: seq<Scored>, deepRelics: seq<Scored>, score: int)

  function ResultScore(r: VesselResult): int
  {
    r.score
  }

  /** The vessel as a result shows it: missing deep slots become an empty list. */
  function Shown(v: Vessel): Vessel
  {
    v.(deepSlots := Some(if v.deepSlots.Some? then v.deepSlots.value else []))
  }

  /** `findBestRelicsForSlots`. */
  function BestForSlots(slots: seq<string>, scored: seq<Scored>, desired: seq<DesiredEffect>,
                        catalogue: seq<CatalogueEffect>, table: EffectTable): Option<seq<Combination>>
  {
    var all := Generated(slots, scored, desired, catalogue, table, [], true);
    if all == [] then None else Some(BestOf(all, Total))
  }

  method FindBestRelicsForSlots(slots: seq<string>, scored: seq<Scored>, desired: seq<DesiredEffect>,
                                catalogue: seq<CatalogueEffect>, table: EffectTable)
    returns (best: Option<seq<Combination>>)
    ensures best == BestForSlots(slots, scored, desired, catalogue, table)
  {
    var all := GenerateRelicCombinations(slots, scored, desired, catalogue, table, [], true);
    if |all| == 0 {
      return None;
    }
    return Some(BestOf(all, Total));
  }

  /** `findBestDeepRelicsForBase`: the best deep combinations that, with the base relics,
      carry every required effect. */
  function BestDeepForBase(slots: seq<string>, scored: seq<Scored>, baseRelics: seq<Scored>, desired: seq<DesiredEffect>,
                           catalogue: seq<CatalogueEffect>, table: EffectTable): Option<seq<Combination>>
  {
    var all := Generated(slots, scored, desired, catalogue, table, baseRelics, true);
    if all == [] then None else Some(BestOf(all, Total))
  }

  method FindBestDeepRelicsForBase(slots: seq<string>, scored: seq<Scored>, baseRelics: seq<Scored>, desired: seq<DesiredEffect>,
                                   catalogue: seq<CatalogueEffect>, table: EffectTable)
    returns (best: Option<seq<Combination>>)
    ensures best == BestDeepForBase(slots, scored, baseRelics, desired, catalogue, table)
  {
    var all := GenerateRelicCombinations(slots, scored, desired, catalogue, table, baseRelics, true);
    if |all| == 0 {
      return None;
    }
    return Some(BestOf(all, Total));
  }

  /** The results for one base combination and its deep combinations: the scores add up. */
  function Paired(v: Vessel, baseCombo: Combination, deeps: seq<Combination>): (r: seq<VesselResult>)
    ensures |r| == |deeps|
  {
    seq(|deeps|, j requires 0 <= j < |deeps| =>
      VesselResult(Shown(v), baseCombo.relics, deeps[j].relics, baseCombo.score + deeps[j].score))
  }

  /** `allValidResults` after the loop has handled the base combinations `bases`. */
  function CombinedFrom(deepSlots: seq<string>, v: Vessel, bases: seq<Combination>, deep: seq<Scored>, desired: seq<DesiredEffect>,
                        catalogue: seq<CatalogueEffect>, table: EffectTable): seq<VesselResult>
  {
    if bases == [] then []
    else
      var last := bases[|bases| - 1];
      CombinedFrom(deepSlots, v, bases[..|bases| - 1], deep, desired, catalogue, table) +
      (match BestDeepForBase(deepSlots, deep, last.relics, desired, catalogue, table)
       case None => []
       case Some(ds) => Paired(v, last, ds))
  }

  /** `findBestCombinedRelicsWithFallback`, for a vessel with deep slots. */
  function BestCombined(v: Vessel, base: seq<Scored>, deep: seq<Scored>, desired: seq<DesiredEffect>,
                        catalogue: seq<CatalogueEffect>, table: EffectTable): Option<seq<VesselResult>>
    requires v.deepSlots.Some?
  {
    var allBase := Generated(v.baseSlots, base, desired, catalogue, table, [], false);
    if allBase == [] then None
    else
      var results := CombinedFrom(v.deepSlots.value, v, allBase, deep, desired, catalogue, table);
      if results == [] then None else Some(BestOf(results, ResultScore))
  }

  lemma CombinedFromSnoc(deepSlots: seq<string>, v: Vessel, bases: seq<Combination>, i: nat, deep: seq<Scored>,
                         desired: seq<DesiredEffect>, catalogue: seq<CatalogueEffect>, table: EffectTable)
    requires i < |bases|
    ensures CombinedFrom(deepSlots, v, bases[..i + 1], deep, desired, catalogue, table) ==
      CombinedFrom(deepSlots, v, bases[..i], deep, desired, catalogue, table) +
      (match BestDeepForBase(deepSlots, deep, bases[i].relics, desired, catalogue, table)
       case None => []
       case Some(ds) => Paired(v, bases[i], ds))
  {
    assert bases[..i + 1][..i] == bases[..i];
  }

  method FindBestCombinedRelicsWithFallback(v: Vessel, base: seq<Scored>, deep: seq<Scored>, desired: seq<DesiredEffect>,
                                            catalogue: seq<CatalogueEffect>, table: EffectTable)
    returns (best: Option<seq<VesselResult>>)
    requires v.deepSlots.Some?
    ensures best == BestCombined(v, base, deep, desired, catalogue, table)
  {
    var allBase := GenerateRelicCombinations(v.baseSlots, base, desired, catalogue, table, [], false);
    if |allBase| == 0 {
      return None;
    }
    var deepSlots := v.deepSlots.value;
    var results: seq<VesselResult> := [];
    for i := 0 to |allBase|
      invariant results == CombinedFrom(deepSlots, v, allBase[..i], deep, desired, catalogue, table)
    {
      var baseCombo := allBase[i];
      var deepCombos := FindBestDeepRelicsForBase(deepSlots, deep, baseCombo.relics, desired, catalogue, table);
      CombinedFromSnoc(deepSlots, v, allBase, i, deep, desired, catalogue, table);
      if deepCombos.Some? && |deepCombos.value| > 0 {
        results := PushPaired(results, v, baseCombo, deepCombos.value);
      }
    }
    assert allBase[..|allBase|] == allBase;
    if |results| == 0 {
      return None;
    }
    return Some(BestOf(results, ResultScore));
  }

  /** The inner loop: one result per deep combination, pushed in order. */
  method PushPaired(results: seq<VesselResult>, v: Vessel, baseCombo: Combination, deepCombos: seq<Combination>)
    returns (pushed: seq<VesselResult>)
    ensures pushed == results + Paired(v, baseCombo, deepCombos)
  {
    pushed := results;
    for j := 0 to |deepCombos|
      invariant pushed == results + Paired(v, baseCombo, deepCombos[..j])
    {
      var deepCombo := deepCombos[j];
      pushed := pushed + [VesselResult(Shown(v), baseCombo.relics, deepCombo.relics, baseCombo.score + deepCombo.score)];
    }
    assert deepCombos[..|deepCombos|] == deepCombos;
  }

  /** Whether a vessel takes the combined search: deep relics shown, the vessel has a deep
      slot list (an empty list counts), and some deep relic survived scoring. */
  predicate UsesDeep(v: Vessel, deep: seq<Scored>, showDeep: bool)
  {
    showDeep && v.deepSlots.Some? && deep != []
  }

  /** `findBestCombinationForVessel`. */
  function BestForVessel(v: Vessel, base: seq<Scored>, deep: seq<Scored>, showDeep: bool, desired: seq<DesiredEffect>,
                         catalogue: seq<CatalogueEffect>, table: EffectTable): Option<seq<VesselResult>>
  {
    if UsesDeep(v, deep, showDeep) then BestCombined(v, base, deep, desired, catalogue, table)
    else match BestForSlots(v.baseSlots, base, desired, catalogue, table)
      case None => None
      case Some(cs) => Some(seq(|cs|, i requires 0 <= i < |cs| => VesselResult(Shown(v), cs[i].relics, [], cs[i].score)))
  }

  method FindBestCombinationForVessel(v: Vessel, base: seq<Scored>, deep: seq<Scored>, showDeep: bool, desired: seq<DesiredEffect>,
                                      catalogue: seq<CatalogueEffect>, table: EffectTable)
    returns (results: Option<seq<VesselResult>>)
    ensures results == BestForVessel(v, base, deep, showDeep, desired, catalogue, table)
  {
    if showDeep && v.deepSlots.Some? && |deep| > 0 {
      results := FindBestCombinedRelicsWithFallback(v, base, deep, desired, catalogue, table);
    } else {
      var bestBase := FindBestRelicsForSlots(v.baseSlots, base, desired, catalogue, table);
      if bestBase.None? {
        return None;
      }
      var cs := bestBase.value;
      results := Some(seq(|cs|, i requires 0 <= i < |cs| => VesselResult(Shown(v), cs[i].relics, [], cs[i].score)));
    }
  }

  // ---------------------------------------------------------------------------
  // calculateBestRelics

  /** The save-file data of one character; `relics` is `None` when missing or not a list. */
  datatype CharacterRelicData = CharacterRelicData(relics: Option<seq<RawRelic>>)

  /** `vesselDataForCharacter.find(c => c.name === vesselName)`. */
  function FirstVessel(vessels: seq<Vessel>, name: string): (r: Option<Vessel>)
    ensures r.Some? ==> exists k :: 0 <= k < |vessels| && vessels[k] == r.value && r.value.name == name
                                    && forall j :: 0 <= j < k ==> vessels[j].name != name
    ensures r.None? ==> forall v :: v in vessels ==> v.name != name
  {
    if vessels == [] then None
    else if vessels[0].name == name then Some(vessels[0])
    else
      var r := FirstVessel(vessels[1..], name);
      assert forall k :: 1 <= k < |vessels| ==> vessels[k] == vessels[1..][k - 1];
      r
  }

  /** `allCombinations` after the vessel loop has handled the selected names `names`. */
  function VesselsResults(names: seq<string>, vessels: seq<Vessel>, base: seq<Scored>, deep: seq<Scored>, showDeep: bool,
                          desired: seq<DesiredEffect>, catalogue: seq<CatalogueEffect>, table: EffectTable): seq<VesselResult>
  {
    ConcatOf(names, name => BuildsOf(vessels, name, base, deep, showDeep, desired, catalogue, table))
  }

  /** The results of `f` for each name, in order. */
  function ConcatOf<T>(names: seq<string>, f: string -> seq<T>): seq<T>
  {
    if names == [] then [] else ConcatOf(names[..|names| - 1], f) + f(names[|names| - 1])
  }

  lemma {:induction false} ConcatOfContains<T>(names: seq<string>, f: string -> seq<T>, i: nat, y: T)
    requires i < |names| && y in f(names[i])
    ensures y in ConcatOf(names, f)
  {
    var init := names[..|names| - 1];
    if i < |init| {
      assert init[i] == names[i];
      ConcatOfContains(init, f, i, y);
    }
  }

  /** The best builds of the first vessel named `name`; none when there is no such vessel or it has no build. */
  function BuildsOf(vessels: seq<Vessel>, name: string, base: seq<Scored>, deep: seq<Scored>, showDeep: bool,
                    desired: seq<DesiredEffect>, catalogue: seq<CatalogueEffect>, table: EffectTable): seq<VesselResult>
  {
    match FirstVessel(vessels, name)
    case None => []
    case Some(v) =>
      match BestForVessel(v, base, deep, showDeep, desired, catalogue, table)
      case None => []
      case Some(rs) => rs
  }

  /** The base relics of the save file, scored. */
  function ScoredBase(raws: seq<RawRelic>, items: seq<(int, Item)>, table: EffectTable, desired: seq<DesiredEffect>, showForsaken: bool): seq<Scored>
  {
    ScoreAll(ProcessRelics(raws, items, table, showForsaken, false), table, desired)
  }

  /** The deep relics of the save file, scored; none unless deep relics are shown. */
  function ScoredDeep(raws: seq<RawRelic>, items: seq<(int, Item)>, table: EffectTable, desired: seq<DesiredEffect>,
                      showDeep: bool, showForsaken: bool): seq<Scored>
  {
    if showDeep then ScoreAll(ProcessRelics(raws, items, table, showForsaken, true), table, desired) else []
  }

  /** The input checks of `calculateBestRelics`, in order: the message of the first that
      fails, none when the inputs are usable. */
  function Invalid(desired: seq<DesiredEffect>, data: Option<CharacterRelicData>, nightfarer: string): (e: Option<string>)
    ensures e.None? <==> data.Some? && nightfarer != "" && desired != [] && data.value.relics.Some?
  {
    if data.None? || nightfarer == "" then Some("Missing required parameters for calculation")
    else if desired == [] then Some("No desired effects provided")
    else if data.value.relics.None? then Some("Invalid character relic data")
    else None
  }

  /** `calculateBestRelics`: an error for missing inputs, `None` when the character has no
      vessel data or no vessel yields a build, otherwise the builds of maximum score. */
  function Calculated(desired: seq<DesiredEffect>, data: Option<CharacterRelicData>, selected: seq<string>, nightfarer: string,
                      table: EffectTable, showDeep: bool, showForsaken: bool, vesselData: map<string, seq<Vessel>>,
                      items: seq<(int, Item)>, catalogue: seq<CatalogueEffect>): Result<Option<seq<VesselResult>>, string>
  {
    match Invalid(desired, data, nightfarer)
    case Some(e) => Err(e)
    case None =>
      var raws := data.value.relics.value;
      var base := ScoredBase(raws, items, table, desired, showForsaken);
      var deep := ScoredDeep(raws, items, table, desired, showDeep, showForsaken);
      if nightfarer !in vesselData then Ok(None)
      else
        var all := VesselsResults(selected, vesselData[nightfarer], base, deep, showDeep, desired, catalogue, table);
        if all == [] then Ok(None) else Ok(Some(BestOf(all, ResultScore)))
  }

  method CalculateBestRelics(desired: seq<DesiredEffect>, data: Option<CharacterRelicData>, selected: seq<string>, nightfarer: string,
                             table: EffectTable, showDeep: bool, showForsaken: bool, vesselData: map<string, seq<Vessel>>,
                             items: seq<(int, Item)>, catalogue: seq<CatalogueEffect>)
    returns (result: Result<Option<seq<VesselResult>>, string>)
    ensures result == Calculated(desired, data, selected, nightfarer, table, showDeep, showForsaken, vesselData, items, catalogue)
  {
    if data.None? || nightfarer == "" {
      return Err("Missing required parameters for calculation");
    }
    if |desired| == 0 {
      return Err("No desired effects provided");
    }
    if data.value.relics.None? {
      return Err("Invalid character relic data");
    }
    var raws := data.value.relics.value;
    var base := ScoredBase(raws, items, table, desired, showForsaken);
    var deep := ScoredDeep(raws, items, table, desired, showDeep, showForsaken);
    if nightfarer !in vesselData {
      return Ok(None);
    }
    var vessels := vesselData[nightfarer];
    var all: seq<VesselResult> := [];
    for i := 0 to |selected|
      invariant all == VesselsResults(selected[..i], vessels, base, deep, showDeep, desired, catalogue, table)
    {
      assert selected[..i + 1][..i] == selected[..i];
      var vessel := FirstVessel(vessels, selected[i]);
      if vessel.None? {
        continue;
      }
      var combinations := FindBestCombinationForVessel(vessel.value, base, deep, showDeep, desired, catalogue, table);
      if combinations.Some? && |combinations.value| > 0 {
        all := all + combinations.value;
      }
    }
    assert selected[..|selected|] == selected;
    if |all| == 0 {
      return Ok(None);
    }
    return Ok(Some(BestOf(all, ResultScore)));
  }

  // ---------------------------------------------------------------------------
  // What the builds contain

  /** The placeholder of a slot index is recognised by its negative sorting key `-1 - index`. */
  predicate IsPlaceholder(x: Scored)
  {
    x.relic.sorting < 0 && x == Placeholder(-1 - x.relic.sorting)
  }

  /** A placeholder carries no effect, so it is never forbidden. */
  lemma PlaceholderHarmless(j: nat, desired: seq<DesiredEffect>, table: EffectTable)
    ensures forall id :: id !in RelicEffects(Placeholder(j).relic, table)
    ensures !Forbidden(Placeholder(j).relic, desired, table)
  {
    forall n ensures !Carries(Placeholder(j).relic, n) {
      assert EffectNames(Placeholder(j).relic) == [None, None, None, None, None, None];
    }
  }

  /** The relics of a generated combination come from the scored list or are placeholders. */
  lemma GeneratedRelics(slots: seq<string>, scored: seq<Scored>, desired: seq<DesiredEffect>, catalogue: seq<CatalogueEffect>,
                        table: EffectTable, baseRelics: seq<Scored>, validate: bool, c: Combination)
    requires c in Generated(slots, scored, desired, catalogue, table, baseRelics, validate)
    ensures forall x :: x in c.relics ==> x in scored || IsPlaceholder(x)
  {
    GeneratedWellFormed(slots, scored, desired, catalogue, table, baseRelics, validate, c);
    forall x | x in c.relics ensures x in scored || IsPlaceholder(x) {
      var j :| 0 <= j < |c.relics| && c.relics[j] == x;
      if Candidates(slots[j], scored) == [] {
        assert x == Placeholder(j) && x.relic.sorting == -1 - j;
      }
    }
  }

  lemma {:induction false} CombinedFromMember(deepSlots: seq<string>, v: Vessel, bases: seq<Combination>, deep: seq<Scored>,
                                              desired: seq<DesiredEffect>, catalogue: seq<CatalogueEffect>, table: EffectTable, r: VesselResult)
    returns (b: Combination, d: Combination)
    requires r in CombinedFrom(deepSlots, v, bases, deep, desired, catalogue, table)
    ensures b in bases && BestDeepForBase(deepSlots, deep, b.relics, desired, catalogue, table).Some?
    ensures d in BestDeepForBase(deepSlots, deep, b.relics, desired, catalogue, table).value
    ensures r == VesselResult(Shown(v), b.relics, d.relics, b.score + d.score)
  {
    var init, last := bases[..|bases| - 1], bases[|bases| - 1];
    var rest := CombinedFrom(deepSlots, v, init, deep, desired, catalogue, table);
    var best := BestDeepForBase(deepSlots, deep, last.relics, desired, catalogue, table);
    assert CombinedFrom(deepSlots, v, bases, deep, desired, catalogue, table) ==
      rest + (if best.Some? then Paired(v, last, best.value) else []);
    if r in rest {
      b, d := CombinedFromMember(deepSlots, v, init, deep, desired, catalogue, table, r);
      assert b in bases by {
        var i :| 0 <= i < |init| && init[i] == b;
        assert bases[i] == b;
      }
    } else {
      var j := PairedMember(v, last, best.value, r);
      b, d := last, best.value[j];
    }
  }

  lemma PairedMember(v: Vessel, baseCombo: Combination, deeps: seq<Combination>, r: VesselResult) returns (j: nat)
    requires r in Paired(v, baseCombo, deeps)
    ensures j < |deeps| && r == VesselResult(Shown(v), baseCombo.relics, deeps[j].relics, baseCombo.score + deeps[j].score)
  {
    var i :| 0 <= i < |deeps| && Paired(v, baseCombo, deeps)[i] == r;
    j := i;
  }

  /** In the combined search each build pairs a base combination, generated without the
      required-effect check, with a best deep combination; its score is the sum of the two
      combination scores, and when the vessel has deep slots the base and deep relics
      together carry every required effect. */
  lemma CombinedResultsSound(v: Vessel, base: seq<Scored>, deep: seq<Scored>, showDeep: bool, desired: seq<DesiredEffect>,
                             catalogue: seq<CatalogueEffect>, table: EffectTable, r: VesselResult)
    requires UsesDeep(v, deep, showDeep)
    requires BestForVessel(v, base, deep, showDeep, desired, catalogue, table).Some?
    requires r in BestForVessel(v, base, deep, showDeep, desired, catalogue, table).value
    ensures r.vessel == Shown(v)
    ensures r.score == TrueScore(r.baseRelics, desired, catalogue) + TrueScore(r.deepRelics, desired, catalogue)
    ensures |r.deepRelics| == |v.deepSlots.value|
    ensures v.deepSlots.value != [] ==> ValidateRequiredEffects(Relics(r.baseRelics + r.deepRelics), desired, table)
    ensures forall x :: x in r.baseRelics ==> x in base || IsPlaceholder(x)
    ensures forall x :: x in r.deepRelics ==> x in deep || IsPlaceholder(x)
  {
    var deepSlots := v.deepSlots.value;
    var allBase := Generated(v.baseSlots, base, desired, catalogue, table, [], false);
    var results := CombinedFrom(deepSlots, v, allBase, deep, desired, catalogue, table);
    var b, d := CombinedFromMember(deepSlots, v, allBase, deep, desired, catalogue, table, r);
    var deeps := Generated(deepSlots, deep, desired, catalogue, table, b.relics, true);
    assert d in deeps;
    GeneratedWellFormed(v.baseSlots, base, desired, catalogue, table, [], false, b);
    GeneratedWellFormed(deepSlots, deep, desired, catalogue, table, b.relics, true, d);
    GeneratedRelics(v.baseSlots, base, desired, catalogue, table, [], false, b);
    GeneratedRelics(deepSlots, deep, desired, catalogue, table, b.relics, true, d);
    GeneratedValidated(deepSlots, deep, desired, catalogue, table, b.relics, d);
  }

  /** In the base-only search each build is a best base combination that carries every
      required effect (when the vessel has base slots), with no deep relics. */
  lemma BaseResultsSound(v: Vessel, base: seq<Scored>, deep: seq<Scored>, showDeep: bool, desired: seq<DesiredEffect>,
                         catalogue: seq<CatalogueEffect>, table: EffectTable, r: VesselResult)
    requires !UsesDeep(v, deep, showDeep)
    requires BestForVessel(v, base, deep, showDeep, desired, catalogue, table).Some?
    requires r in BestForVessel(v, base, deep, showDeep, desired, catalogue, table).value
    ensures r.vessel == Shown(v) && r.deepRelics == []
    ensures r.score == TrueScore(r.baseRelics, desired, catalogue)
    ensures v.baseSlots != [] ==> ValidateRequiredEffects(Relics(r.baseRelics), desired, table)
    ensures forall x :: x in r.baseRelics ==> x in base || IsPlaceholder(x)
  {
    var all := Generated(v.baseSlots, base, desired, catalogue, table, [], true);
    var cs := BestOf(all, Total);
    assert BestForSlots(v.baseSlots, base, desired, catalogue, table) == Some(cs);
    var rs := BestForVessel(v, base, deep, showDeep, desired, catalogue, table).value;
    assert rs == seq(|cs|, i requires 0 <= i < |cs| => VesselResult(Shown(v), cs[i].relics, [], cs[i].score));
    var i :| 0 <= i < |rs| && rs[i] == r;
    assert cs[i] in cs;
    BaseComboSound(v.baseSlots, base, desired, catalogue, table, cs[i]);
  }

  /** A combination generated with the required-effect check and no base relics. */
  lemma BaseComboSound(slots: seq<string>, base: seq<Scored>, desired: seq<DesiredEffect>,
                       catalogue: seq<CatalogueEffect>, table: EffectTable, c: Combination)
    requires c in Generated(slots, base, desired, catalogue, table, [], true)
    ensures c.score == TrueScore(c.relics, desired, catalogue)
    ensures slots != [] ==> ValidateRequiredEffects(Relics(c.relics), desired, table)
    ensures forall x :: x in c.relics ==> x in base || IsPlaceholder(x)
  {
    GeneratedWellFormed(slots, base, desired, catalogue, table, [], true, c);
    GeneratedRelics(slots, base, desired, catalogue, table, [], true, c);
    GeneratedValidated(slots, base, desired, catalogue, table, [], c);
    assert [] + c.relics == c.relics;
  }

  /** With an empty deep-slot list the combined search pairs every base combination with the
      empty deep combination, so its builds are the best base combinations generated without
      the required-effect check. */
  lemma EmptyDeepSlotsSkipValidation(v: Vessel, base: seq<Scored>, deep: seq<Scored>, showDeep: bool, desired: seq<DesiredEffect>,
                                     catalogue: seq<CatalogueEffect>, table: EffectTable)
    requires UsesDeep(v, deep, showDeep) && v.deepSlots.value == []
    ensures var all := Generated(v.baseSlots, base, desired, catalogue, table, [], false);
      BestForVessel(v, base, deep, showDeep, desired, catalogue, table) ==
        if all == [] then None
        else Some(BestOf(seq(|all|, i requires 0 <= i < |all| => VesselResult(Shown(v), all[i].relics, [], all[i].score)), ResultScore))
  {
    var all := Generated(v.baseSlots, base, desired, catalogue, table, [], false);
    if all != [] {
      CombinedFromNoDeepSlots(v, all, deep, desired, catalogue, table);
    }
  }

  lemma {:induction false} CombinedFromNoDeepSlots(v: Vessel, bases: seq<Combination>, deep: seq<Scored>,
                                                   desired: seq<DesiredEffect>, catalogue: seq<CatalogueEffect>, table: EffectTable)
    ensures CombinedFrom([], v, bases, deep, desired, catalogue, table) ==
      seq(|bases|, i requires 0 <= i < |bases| => VesselResult(Shown(v), bases[i].relics, [], bases[i].score))
  {
    if bases != [] {
      var init, last := bases[..|bases| - 1], bases[|bases| - 1];
      CombinedFromNoDeepSlots(v, init, deep, desired, catalogue, table);
      var empty := [Combination([], 0)];
      assert Generated([], deep, desired, catalogue, table, last.relics, true) == empty;
      assert BestOf(empty, Total) == empty by {
        assert WithScore(empty, Total, 0) == empty by {
          assert WithScore(empty[1..], Total, 0) == [];
        }
      }
      assert [] + Combination([], 0).relics == [];
    }
  }

  // ---------------------------------------------------------------------------
  // Properties of calculateBestRelics

  lemma {:induction false} VesselsResultsMember(names: seq<string>, vessels: seq<Vessel>, base: seq<Scored>, deep: seq<Scored>, showDeep: bool,
                                                desired: seq<DesiredEffect>, catalogue: seq<CatalogueEffect>, table: EffectTable, r: VesselResult)
    returns (v: Vessel)
    requires r in VesselsResults(names, vessels, base, deep, showDeep, desired, catalogue, table)
    ensures v in vessels && v.name in names && FirstVessel(vessels, v.name) == Some(v)
    ensures BestForVessel(v, base, deep, showDeep, desired, catalogue, table).Some?
    ensures r in BestForVessel(v, base, deep, showDeep, desired, catalogue, table).value
  {
    var init := names[..|names| - 1];
    if r in VesselsResults(init, vessels, base, deep, showDeep, desired, catalogue, table) {
      v := VesselsResultsMember(init, vessels, base, deep, showDeep, desired, catalogue, table, r);
      assert v.name in names by {
        var i :| 0 <= i < |init| && init[i] == v.name;
        assert names[i] == v.name;
      }
    } else {
      v := FirstVessel(vessels, names[|names| - 1]).value;
    }
  }

  /** The calculation fails exactly for a missing save-file object or nightfarer, an empty
      list of desired effects, or save-file data without a relic list, in that order. */
  lemma CalculateRejects(desired: seq<DesiredEffect>, data: Option<CharacterRelicData>, selected: seq<string>, nightfarer: string,
                         table: EffectTable, showDeep: bool, showForsaken: bool, vesselData: map<string, seq<Vessel>>,
                         items: seq<(int, Item)>, catalogue: seq<CatalogueEffect>)
    ensures var r := Calculated(desired, data, selected, nightfarer, table, showDeep, showForsaken, vesselData, items, catalogue);
      (r == Err("Missing required parameters for calculation") <==> data.None? || nightfarer == "")
      && (r == Err("No desired effects provided") <==> data.Some? && nightfarer != "" && desired == [])
      && (r == Err("Invalid character relic data") <==> data.Some? && nightfarer != "" && desired != [] && data.value.relics.None?)
      && (r.Ok? <==> data.Some? && nightfarer != "" && desired != [] && data.value.relics.Some?)
      && (r.Ok? && nightfarer !in vesselData ==> r.value.None?)
  {
  }

  /** The builds returned all have the maximum score among the builds of the selected vessels
      that the vessel table has, and each is a build of such a vessel. */
  lemma CalculateKeepsBest(desired: seq<DesiredEffect>, data: Option<CharacterRelicData>, selected: seq<string>, nightfarer: string,
                           table: EffectTable, showDeep: bool, showForsaken: bool, vesselData: map<string, seq<Vessel>>,
                           items: seq<(int, Item)>, catalogue: seq<CatalogueEffect>)
    requires Calculated(desired, data, selected, nightfarer, table, showDeep, showForsaken, vesselData, items, catalogue).Ok?
    ensures var r := Calculated(desired, data, selected, nightfarer, table, showDeep, showForsaken, vesselData, items, catalogue);
      r.value.Some? ==>
        r.value.value != [] && nightfarer in vesselData &&
        forall x :: x in r.value.value ==>
          x.score == r.value.value[0].score &&
          exists v :: v in vesselData[nightfarer] && v.name in selected && x.vessel == Shown(v)
  {
    var r := Calculated(desired, data, selected, nightfarer, table, showDeep, showForsaken, vesselData, items, catalogue);
    if r.value.Some? {
      var raws := data.value.relics.value;
      var base := ScoredBase(raws, items, table, desired, showForsaken);
      var deep := ScoredDeep(raws, items, table, desired, showDeep, showForsaken);
      var all := VesselsResults(selected, vesselData[nightfarer], base, deep, showDeep, desired, catalogue, table);
      var rs := r.value.value;
      assert rs == BestOf(all, ResultScore);
      forall x | x in rs
        ensures x.score == rs[0].score
        ensures exists v :: v in vesselData[nightfarer] && v.name in selected && x.vessel == Shown(v)
      {
        assert rs[0] in rs;
        var v := VesselsResultsMember(selected, vesselData[nightfarer], base, deep, showDeep, desired, catalogue, table, x);
        if UsesDeep(v, deep, showDeep) {
          CombinedResultsSound(v, base, deep, showDeep, desired, catalogue, table, x);
        } else {
          BaseResultsSound(v, base, deep, showDeep, desired, catalogue, table, x);
        }
      }
    }
  }

  /** No build of a selected vessel (the first vessel of the nightfarer's list with that name)
      scores above the builds returned. */
  lemma CalculateDominates(desired: seq<DesiredEffect>, data: Option<CharacterRelicData>, selected: seq<string>, nightfarer: string,
                           table: EffectTable, showDeep: bool, showForsaken: bool, vesselData: map<string, seq<Vessel>>,
                           items: seq<(int, Item)>, catalogue: seq<CatalogueEffect>, name: string, y: VesselResult)
    requires data.Some? && data.value.relics.Some? && nightfarer in vesselData
    requires Calculated(desired, data, selected, nightfarer, table, showDeep, showForsaken, vesselData, items, catalogue).Ok?
    requires name in selected
    requires var raws := data.value.relics.value;
      y in BuildsOf(vesselData[nightfarer], name, ScoredBase(raws, items, table, desired, showForsaken),
                    ScoredDeep(raws, items, table, desired, showDeep, showForsaken), showDeep, desired, catalogue, table)
    ensures var r := Calculated(desired, data, selected, nightfarer, table, showDeep, showForsaken, vesselData, items, catalogue);
      r.value.Some? && forall x :: x in r.value.value ==> y.score <= x.score
  {
    var raws := data.value.relics.value;
    var base := ScoredBase(raws, items, table, desired, showForsaken);
    var deep := ScoredDeep(raws, items, table, desired, showDeep, showForsaken);
    var i :| 0 <= i < |selected| && selected[i] == name;
    ConcatOfContains(selected, name => BuildsOf(vesselData[nightfarer], name, base, deep, showDeep, desired, catalogue, table), i, y);
  }

  /** A relic of a build is one of the character's relics, processed for its list (base or
      deep) and not forbidden, or an empty-slot placeholder. */
  predicate FromSave(x: Scored, raws: seq<RawRelic>, items: seq<(int, Item)>, table: EffectTable, desired: seq<DesiredEffect>,
                     showForsaken: bool, deep: bool)
  {
    IsPlaceholder(x) ||
    (!Forbidden(x.relic, desired, table) && x == ScoreRelic(x.relic, table, desired) &&
     exists i :: 0 <= i < |raws| && ProcessRelic(raws[i], items, table, showForsaken, deep) == Some(x.relic))
  }

  lemma ScoredFromSave(raws: seq<RawRelic>, items: seq<(int, Item)>, table: EffectTable, desired: seq<DesiredEffect>,
                       showForsaken: bool, deep: bool, x: Scored)
    requires x in ScoreAll(ProcessRelics(raws, items, table, showForsaken, deep), table, desired)
    ensures FromSave(x, raws, items, table, desired, showForsaken, deep)
  {
    ScoreAllMembers(ProcessRelics(raws, items, table, showForsaken, deep), table, desired, x);
  }

  /** Every relic of every build returned comes from the save file (base relics from the base
      list, deep relics from the deep list) and is not forbidden, or is a placeholder; and
      when deep relics are not shown no build has any. */
  lemma CalculateUsesOwnRelics(desired: seq<DesiredEffect>, data: Option<CharacterRelicData>, selected: seq<string>, nightfarer: string,
                               table: EffectTable, showDeep: bool, showForsaken: bool, vesselData: map<string, seq<Vessel>>,
                               items: seq<(int, Item)>, catalogue: seq<CatalogueEffect>, x: VesselResult)
    requires Calculated(desired, data, selected, nightfarer, table, showDeep, showForsaken, vesselData, items, catalogue).Ok?
    requires Calculated(desired, data, selected, nightfarer, table, showDeep, showForsaken, vesselData, items, catalogue).value.Some?
    requires x in Calculated(desired, data, selected, nightfarer, table, showDeep, showForsaken, vesselData, items, catalogue).value.value
    ensures forall y :: y in x.baseRelics ==> FromSave(y, data.value.relics.value, items, table, desired, showForsaken, false)
    ensures forall y :: y in x.deepRelics ==> FromSave(y, data.value.relics.value, items, table, desired, showForsaken, true)
    ensures !showDeep ==> x.deepRelics == []
  {
    var raws := data.value.relics.value;
    var base := ScoredBase(raws, items, table, desired, showForsaken);
    var deep := ScoredDeep(raws, items, table, desired, showDeep, showForsaken);
    var all := VesselsResults(selected, vesselData[nightfarer], base, deep, showDeep, desired, catalogue, table);
    assert x in all;
    var v := VesselsResultsMember(selected, vesselData[nightfarer], base, deep, showDeep, desired, catalogue, table, x);
    if UsesDeep(v, deep, showDeep) {
      CombinedResultsSound(v, base, deep, showDeep, desired, catalogue, table, x);
    } else {
      BaseResultsSound(v, base, deep, showDeep, desired, catalogue, table, x);
    }
    forall y | y in x.baseRelics ensures FromSave(y, raws, items, table, desired, showForsaken, false) {
      if y in base {
        ScoredFromSave(raws, items, table, desired, showForsaken, false, y);
      }
    }
    forall y | y in x.deepRelics ensures FromSave(y, raws, items, table, desired, showForsaken, true) {
      if y in deep {
        ScoredFromSave(raws, items, table, desired, showForsaken, true, y);
      }
    }
  }

  /** Whether the vessel the table lists first under `name` has no `deepSlots` at all. */
  predicate NoDeepSlots(vesselData: map<string, seq<Vessel>>, nightfarer: string, name: string)
  {
    nightfarer in vesselData && FirstVessel(vesselData[nightfarer], name).Some?
    && FirstVessel(vesselData[nightfarer], name).value.deepSlots.None?
  }

  /** Every build returned that has deep relics carries all required effects, and so does
      every build of a vessel with base slots that takes the base-only path: deep relics
      hidden, no deep relic scored, or a vessel without `deepSlots`. */
  lemma CalculateMeetsRequired(desired: seq<DesiredEffect>, data: Option<CharacterRelicData>, selected: seq<string>, nightfarer: string,
                               table: EffectTable, showDeep: bool, showForsaken: bool, vesselData: map<string, seq<Vessel>>,
                               items: seq<(int, Item)>, catalogue: seq<CatalogueEffect>, x: VesselResult)
    requires Calculated(desired, data, selected, nightfarer, table, showDeep, showForsaken, vesselData, items, catalogue).Ok?
    requires Calculated(desired, data, selected, nightfarer, table, showDeep, showForsaken, vesselData, items, catalogue).value.Some?
    requires x in Calculated(desired, data, selected, nightfarer, table, showDeep, showForsaken, vesselData, items, catalogue).value.value
    ensures x.deepRelics != [] ==> ValidateRequiredEffects(Relics(x.baseRelics + x.deepRelics), desired, table)
    ensures x.vessel.baseSlots != []
            && (!showDeep || ScoredDeep(data.value.relics.value, items, table, desired, showDeep, showForsaken) == []
                || NoDeepSlots(vesselData, nightfarer, x.vessel.name)) ==>
      ValidateRequiredEffects(Relics(x.baseRelics + x.deepRelics), desired, table)
  {
    var raws := data.value.relics.value;
    var base := ScoredBase(raws, items, table, desired, showForsaken);
    var deep := ScoredDeep(raws, items, table, desired, showDeep, showForsaken);
    var all := VesselsResults(selected, vesselData[nightfarer], base, deep, showDeep, desired, catalogue, table);
    assert x in all;
    var v := VesselsResultsMember(selected, vesselData[nightfarer], base, deep, showDeep, desired, catalogue, table, x);
    if UsesDeep(v, deep, showDeep) {
      CombinedResultsSound(v, base, deep, showDeep, desired, catalogue, table, x);
    } else {
      BaseResultsSound(v, base, deep, showDeep, desired, catalogue, table, x);
      assert x.baseRelics + x.deepRelics == x.baseRelics;
    }
  }
}

=== FILE: calc_model.dfy ===
/**
 * The records the build optimiser works on (`calculation.js`), the effect map it
 * reads names and ids from, and the two queries on relic effects:
 * `getRelicEffects` and `validateRequiredEffects`.
 */
module CalcModel {
  import opened Wrappers

  /** One group the user asks for: any of `ids` matches it. */
  datatype DesiredEffect = DesiredEffect(name: string, ids: seq<int>, weight: int, isRequired: bool, isForbidden: bool)

  /** `desiredEffect.weight || 1`: a zero weight counts as one. */
  function Weight(d: DesiredEffect): (w: int)
    ensures d.weight != 0 ==> w == d.weight
    ensures d.weight == 0 ==> w == 1
  {
    if d.weight == 0 then 1 else d.weight
  }

  /** A relic as read from the save file: `item_id`, the six effect ids, `sorting`, `source`. */
  datatype RawRelic = RawRelic(
    itemId: int,
    effect1: Option<int>, effect2: Option<int>, effect3: Option<int>,
    sec1: Option<int>, sec2: Option<int>, sec3: Option<int>,
    sorting: int, source: Option<string>)

  /** An entry of the relic item table (`relics.json`); `color == ""` is a missing colour. */
  datatype Item = Item(name: string, color: string, forsaken: bool, fixedEffects: Option<seq<int>>)

  datatype Kind = Base | Deep | Empty

  /** A processed relic: the effect slots hold effect names, `None` for `null`. */
  datatype Relic = Relic(
    relicId: Option<int>, name: string,
    effect1: Option<string>, effect2: Option<string>, effect3: Option<string>,
    sec1: Option<string>, sec2: Option<string>, sec3: Option<string>,
    sorting: int, color: string, kind: Kind, source: Option<string>)

  /** A relic with its score and the effect ids of its `effectScores` entries, in slot order. */
  datatype Scored = Scored(relic: Relic, score: int, slotIds: seq<int>)

  /** One candidate build: the relic in each slot and its combination score. */
  datatype Combination = Combination(relics: seq<Scored>, score: int)

  /** The effect map: its entries `(id, name)` in iteration order, as
      `EffectUtils.CreateEffectMap` builds it. */
  type EffectTable = seq<(int, string)>

  /** `map.get(id)` on a table of id/value pairs: the value stored under `id` (the first
      entry with that id). */
  function MapGet<V>(table: seq<(int, V)>, id: int): (r: Option<V>)
    ensures r.None? <==> forall k :: 0 <= k < |table| ==> table[k].0 != id
    ensures r.Some? ==> exists k :: 0 <= k < |table| && table[k] == (id, r.value)
  {
    if table == [] then None
    else if table[0].0 == id then Some(table[0].1)
    else MapGet(table[1..], id)
  }

  /** `effectMap.get(id) || null`: a missing id, a `null` id and an empty name all give `null`. */
  function GetEffect(table: EffectTable, id: Option<int>): (r: Option<string>)
    ensures r.Some? ==> r.value != "" && id.Some? && MapGet(table, id.value) == r
  {
    if id.None? then None
    else match MapGet(table, id.value)
      case Some(name) => if name == "" then None else Some(name)
      case None => None
  }

  /** The id of the first entry named `name`, as the `for ... of effectMap.entries()` search finds it. */
  function FirstIdNamed(table: EffectTable, name: string): (r: Option<int>)
    ensures r.None? <==> forall k :: 0 <= k < |table| ==> table[k].1 != name
    ensures r.Some? ==> exists k :: 0 <= k < |table| && table[k] == (r.value, name) &&
                                    (forall j :: 0 <= j < k ==> table[j].1 != name)
  {
    if table == [] then None
    else if table[0].1 == name then Some(table[0].0)
    else match FirstIdNamed(table[1..], name)
      case None => None
      case Some(id) =>
        assert forall k :: 1 <= k < |table| ==> table[k] == table[1..][k - 1];
        Some(id)
  }

  /** The six effect names in `getRelicEffects` order: primary effects, then secondary. */
  function EffectNames(r: Relic): seq<Option<string>>
  {
    [r.effect1, r.effect2, r.effect3, r.sec1, r.sec2, r.sec3]
  }

  /** The six effect names in `calculateRelicScore` order: each primary effect, then its secondary. */
  function SlotNames(r: Relic): seq<Option<string>>
  {
    [r.effect1, r.sec1, r.effect2, r.sec2, r.effect3, r.sec3]
  }

  /** Whether the relic carries the (non-empty) effect name `n` in one of its slots. */
  predicate Carries(r: Relic, n: string)
  {
    n != "" && Some(n) in EffectNames(r)
  }

  /** `getRelicEffects`: every id of the map, in map order, whose name the relic carries. */
  function RelicEffects(r: Relic, table: EffectTable): (ids: seq<int>)
    ensures forall id :: id in ids <==> exists k :: 0 <= k < |table| && table[k].0 == id && Carries(r, table[k].1)
  {
    if table == [] then []
    else
      var rest := RelicEffects(r, table[1..]);
      assert forall k :: 1 <= k < |table| ==> table[k] == table[1..][k - 1];
      if Carries(r, table[0].1) then [table[0].0] + rest else rest
  }

  /** The effect ids of every relic of a combination, concatenated. */
  function AllEffects(relics: seq<Relic>, table: EffectTable): (ids: seq<int>)
    ensures forall id :: id in ids <==> exists i :: 0 <= i < |relics| && id in RelicEffects(relics[i], table)
  {
    if relics == [] then []
    else
      var init := relics[..|relics| - 1];
      var ids := AllEffects(init, table) + RelicEffects(relics[|relics| - 1], table);
      assert forall i :: 0 <= i < |init| ==> init[i] == relics[i];
      ids
  }

  /** A required group is met when one of its ids is among the combination's effect ids. */
  predicate Met(d: DesiredEffect, ids: seq<int>)
  {
    exists id :: id in d.ids && id in ids
  }

  /** The check over the groups from `from` on, returning at the first unmet required group. */
  function RequiredFrom(desired: seq<DesiredEffect>, ids: seq<int>, from: nat): (ok: bool)
    requires from <= |desired|
    ensures ok <==> forall k :: from <= k < |desired| && desired[k].isRequired ==> Met(desired[k], ids)
    decreases |desired| - from
  {
    if from == |desired| then true
    else if desired[from].isRequired && !(exists id :: id in desired[from].ids && id in ids) then false
    else RequiredFrom(desired, ids, from + 1)
  }

  /** `validateRequiredEffects`. */
  function ValidateRequiredEffects(relics: seq<Relic>, desired: seq<DesiredEffect>, table: EffectTable): (ok: bool)
  {
    RequiredFrom(desired, AllEffects(relics, table), 0)
  }

  /** The check passes exactly when each required group has an id that some relic of the
      combination carries, through the map, by name. */
  lemma ValidateRequiredMeaning(relics: seq<Relic>, desired: seq<DesiredEffect>, table: EffectTable)
    ensures ValidateRequiredEffects(relics, desired, table) <==>
      forall k :: 0 <= k < |desired| && desired[k].isRequired ==>
        exists id, i :: id in desired[k].ids && 0 <= i < |relics| && id in RelicEffects(relics[i], table)
  {
    var ids := AllEffects(relics, table);
    forall k | 0 <= k < |desired| && desired[k].isRequired
      ensures Met(desired[k], ids) <==>
        exists id, i :: id in desired[k].ids && 0 <= i < |relics| && id in RelicEffects(relics[i], table)
    {
    }
  }

  /** A required group with no ids can never be met. */
  lemma EmptyRequiredGroupFails(relics: seq<Relic>, desired: seq<DesiredEffect>, table: EffectTable, k: nat)
    requires k < |desired| && desired[k].isRequired && desired[k].ids == []
    ensures !ValidateRequiredEffects(relics, desired, table)
  {
  }
}

=== FILE: calc_score.dfy ===
/**
 * Scores in the build optimiser (`calculation.js`): the score of one relic
 * (`calculateRelicScore`), where each desired group a relic matches counts once,
 * and the score of a whole combination (`calculateTrueCombinationScore`), where a
 * non-stacking group counts once and a stacking group once per matching effect.
 */
module CalcScore {
  import opened Wrappers
  import opened CalcModel

  // ---------------------------------------------------------------------------
  // Sums over the desired groups

  /** `f(0) + ... + f(n - 1)`. */
  function SumOver(n: nat, f: nat -> int): int
  {
    if n == 0 then 0 else SumOver(n - 1, f) + f(n - 1)
  }

  lemma {:induction false} SumLe(n: nat, f: nat -> int, g: nat -> int)
    requires forall k :: 0 <= k < n ==> f(k) <= g(k)
    ensures SumOver(n, f) <= SumOver(n, g)
  {
    if n > 0 {
      SumLe(n - 1, f, g);
    }
  }

  lemma {:induction false} SumEq(n: nat, f: nat -> int, g: nat -> int)
    requires forall k :: 0 <= k < n ==> f(k) == g(k)
    ensures SumOver(n, f) == SumOver(n, g)
  {
    if n > 0 {
      SumEq(n - 1, f, g);
    }
  }

  lemma {:induction false} SumAdd(n: nat, f: nat -> int, g: nat -> int, h: nat -> int)
    requires forall k :: 0 <= k < n ==> h(k) == f(k) + g(k)
    ensures SumOver(n, h) == SumOver(n, f) + SumOver(n, g)
  {
    if n > 0 {
      SumAdd(n - 1, f, g, h);
    }
  }

  lemma {:induction false} SumZero(n: nat, f: nat -> int)
    requires forall k :: 0 <= k < n ==> f(k) == 0
    ensures SumOver(n, f) == 0
  {
    if n > 0 {
      SumZero(n - 1, f);
    }
  }

  // ---------------------------------------------------------------------------
  // calculateRelicScore

  /** The effect ids the slots resolve to, in slot order: each non-empty name becomes the
      id of the first map entry with that name, and a name with no entry is dropped. */
  function SlotIds(r: Relic, table: EffectTable): (ids: seq<int>)
    ensures |ids| <= 6
    ensures forall id :: id in ids ==> exists n :: n != "" && Some(n) in SlotNames(r) && FirstIdNamed(table, n) == Some(id)
  {
    SlotIdsOf(SlotNames(r), table)
  }

  function SlotIdsOf(names: seq<Option<string>>, table: EffectTable): (ids: seq<int>)
    ensures |ids| <= |names|
    ensures forall id :: id in ids ==> exists n :: n != "" && Some(n) in names && FirstIdNamed(table, n) == Some(id)
  {
    if names == [] then []
    else
      var rest := SlotIdsOf(names[1..], table);
      assert forall n :: Some(n) in names[1..] ==> Some(n) in names;
      match names[0]
      case Some(n) =>
        if n != "" && FirstIdNamed(table, n).Some? then [FirstIdNamed(table, n).value] + rest else rest
      case None => rest
  }

  /** The index of the first desired group listing `id`. */
  function FirstGroup(desired: seq<DesiredEffect>, id: int): (r: Option<nat>)
    ensures r.None? <==> forall k :: 0 <= k < |desired| ==> id !in desired[k].ids
    ensures r.Some? ==> r.value < |desired| && id in desired[r.value].ids &&
                        (forall k :: 0 <= k < r.value ==> id !in desired[k].ids)
  {
    FirstGroupFrom(desired, id, 0)
  }

  function FirstGroupFrom(desired: seq<DesiredEffect>, id: int, from: nat): (r: Option<nat>)
    requires from <= |desired|
    ensures r.None? <==> forall k :: from <= k < |desired| ==> id !in desired[k].ids
    ensures r.Some? ==> from <= r.value < |desired| && id in desired[r.value].ids &&
                        (forall k :: from <= k < r.value ==> id !in desired[k].ids)
    decreases |desired| - from
  {
    if from == |desired| then None
    else if id in desired[from].ids then Some(from)
    else FirstGroupFrom(desired, id, from + 1)
  }

  /** Group `k` is the first group of at least one of the slot ids. */
  predicate GroupHit(desired: seq<DesiredEffect>, slotIds: seq<int>, k: nat)
  {
    exists j :: 0 <= j < |slotIds| && FirstGroup(desired, slotIds[j]) == Some(k)
  }

  /** The weight group `k` adds to a relic's score. */
  function HitWeight(desired: seq<DesiredEffect>, slotIds: seq<int>, k: nat): int
  {
    if k < |desired| && GroupHit(desired, slotIds, k) then Weight(desired[k]) else 0
  }

  /** `calculateRelicScore`: the weights of the groups the slots are credited to, each once. */
  function RelicScore(slotIds: seq<int>, desired: seq<DesiredEffect>): int
  {
    SumOver(|desired|, (k: nat) => HitWeight(desired, slotIds, k))
  }

  /** A slot whose group is already credited adds nothing: weights count once per group. */
  lemma RelicScoreCountsGroupOnce(slotIds: seq<int>, desired: seq<DesiredEffect>, j: nat, id: int)
    requires j < |slotIds| && FirstGroup(desired, id) == FirstGroup(desired, slotIds[j])
    ensures RelicScore(slotIds + [id], desired) == RelicScore(slotIds, desired)
  {
    var s := slotIds + [id];
    forall k | 0 <= k < |desired| ensures GroupHit(desired, s, k) == GroupHit(desired, slotIds, k) {
      if GroupHit(desired, s, k) {
        var i :| 0 <= i < |s| && FirstGroup(desired, s[i]) == Some(k);
        if i == |slotIds| {
          assert FirstGroup(desired, slotIds[j]) == Some(k);
        } else {
          assert s[i] == slotIds[i];
        }
      }
      if GroupHit(desired, slotIds, k) {
        var i :| 0 <= i < |slotIds| && FirstGroup(desired, slotIds[i]) == Some(k);
        assert s[i] == slotIds[i];
      }
    }
    SumEq(|desired|, (k: nat) => HitWeight(desired, s, k), (k: nat) => HitWeight(desired, slotIds, k));
  }

  /** A relic none of whose ids is desired scores zero. */
  lemma RelicScoreUnmatched(slotIds: seq<int>, desired: seq<DesiredEffect>)
    requires forall j :: 0 <= j < |slotIds| ==> FirstGroup(desired, slotIds[j]).None?
    ensures RelicScore(slotIds, desired) == 0
  {
    SumZero(|desired|, (k: nat) => HitWeight(desired, slotIds, k));
  }

  function WeightAt(desired: seq<DesiredEffect>, k: nat): int
  {
    if k < |desired| then Weight(desired[k]) else 0
  }

  /** With positive weights the score lies between 0 and the sum of all weights. */
  lemma RelicScoreBounds(slotIds: seq<int>, desired: seq<DesiredEffect>)
    requires forall k :: 0 <= k < |desired| ==> desired[k].weight >= 0
    ensures 0 <= RelicScore(slotIds, desired) <= SumOver(|desired|, (k: nat) => WeightAt(desired, k))
  {
    var f := (k: nat) => HitWeight(desired, slotIds, k);
    SumLe(|desired|, (_: nat) => 0, f);
    SumZero(|desired|, (_: nat) => 0);
    SumLe(|desired|, f, (k: nat) => WeightAt(desired, k));
  }

  // ---------------------------------------------------------------------------
  // calculateTrueCombinationScore

  /** An entry of the effect catalogue (`effects.json`): its ids and its `stacks` flag. */
  datatype CatalogueEffect = CatalogueEffect(ids: seq<int>, stacks: Option<bool>)

  /** `baseRelicEffects.find(effect => effect.ids.includes(id))`. */
  function CatalogueEntry(catalogue: seq<CatalogueEffect>, id: int): (r: Option<CatalogueEffect>)
    ensures r.Some? ==> r.value in catalogue && id in r.value.ids
    ensures r.None? ==> forall e :: e in catalogue ==> id !in e.ids
  {
    if catalogue == [] then None
    else if id in catalogue[0].ids then Some(catalogue[0])
    else CatalogueEntry(catalogue[1..], id)
  }

  /** A group is non-stacking when the catalogue entry of one of its ids says `stacks: false`. */
  predicate NonStacking(d: DesiredEffect, catalogue: seq<CatalogueEffect>)
  {
    exists id :: id in d.ids && CatalogueEntry(catalogue, id).Some? && CatalogueEntry(catalogue, id).value.stacks == Some(false)
  }

  /** The non-zero ids of a relic's `effectScores`: one effect instance each. */
  function RelicInstances(r: Scored): (ids: seq<int>)
    ensures forall id :: id in ids <==> id in r.slotIds && id != 0
    decreases |r.slotIds|
  {
    if r.slotIds == [] then []
    else
      var rest := RelicInstances(r.(slotIds := r.slotIds[1..]));
      assert forall id :: id in r.slotIds <==> id == r.slotIds[0] || id in r.slotIds[1..];
      (if r.slotIds[0] != 0 then [r.slotIds[0]] else []) + rest
  }

  /** Every effect instance of the combination, relic by relic. */
  function Instances(relics: seq<Scored>): seq<int>
  {
    if relics == [] then [] else Instances(relics[..|relics| - 1]) + RelicInstances(relics[|relics| - 1])
  }

  /** How many instances belong to group `d`. */
  function Count(d: DesiredEffect, instances: seq<int>): (m: nat)
    ensures m <= |instances|
    ensures m == 0 <==> forall i :: 0 <= i < |instances| ==> instances[i] !in d.ids
  {
    if instances == [] then 0
    else Count(d, instances[..|instances| - 1]) + (if instances[|instances| - 1] in d.ids then 1 else 0)
  }

  /** What one group adds: nothing when unmatched, its weight once when non-stacking,
      its weight per matching instance otherwise. */
  function Contribution(d: DesiredEffect, catalogue: seq<CatalogueEffect>, instances: seq<int>): int
  {
    var m := Count(d, instances);
    if m == 0 then 0 else if NonStacking(d, catalogue) then Weight(d) else Weight(d) * m
  }

  /** The score of a list of effect instances: the contributions of all groups. */
  function ScoreOf(instances: seq<int>, desired: seq<DesiredEffect>, catalogue: seq<CatalogueEffect>): int
  {
    SumOver(|desired|, (k: nat) => ContributionAt(desired, catalogue, instances, k))
  }

  function ContributionAt(desired: seq<DesiredEffect>, catalogue: seq<CatalogueEffect>, instances: seq<int>, k: nat): int
  {
    if k < |desired| then Contribution(desired[k], catalogue, instances) else 0
  }

  /** The combination score. */
  function TrueScore(relics: seq<Scored>, desired: seq<DesiredEffect>, catalogue: seq<CatalogueEffect>): int
  {
    ScoreOf(Instances(relics), desired, catalogue)
  }

  /** The instance collection of `calculateTrueCombinationScore`. */
  method CollectInstances(relics: seq<Scored>) returns (instances: seq<int>)
    ensures instances == Instances(relics)
  {
    instances := [];
    for i := 0 to |relics|
      invariant instances == Instances(relics[..i])
    {
      var relic := relics[i];
      ghost var before := instances;
      for j := 0 to |relic.slotIds|
        invariant instances == before + RelicInstances(relic.(slotIds := relic.slotIds[..j]))
      {
        if relic.slotIds[j] != 0 {
          instances := instances + [relic.slotIds[j]];
        }
        RelicInstancesSnoc(relic, j);
      }
      assert relic.(slotIds := relic.slotIds[..|relic.slotIds|]) == relic;
      assert relics[..i + 1][..i] == relics[..i];
    }
    assert relics[..|relics|] == relics;
  }

  lemma {:induction false} RelicInstancesSnoc(r: Scored, j: nat)
    requires j < |r.slotIds|
    ensures RelicInstances(r.(slotIds := r.slotIds[..j + 1])) ==
      RelicInstances(r.(slotIds := r.slotIds[..j])) + (if r.slotIds[j] != 0 then [r.slotIds[j]] else [])
    decreases j
  {
    var a := r.(slotIds := r.slotIds[..j + 1]);
    var b := r.(slotIds := r.slotIds[..j]);
    if j > 0 {
      var r' := r.(slotIds := r.slotIds[1..]);
      RelicInstancesSnoc(r', j - 1);
      assert a.(slotIds := a.slotIds[1..]) == r'.(slotIds := r'.slotIds[..j]);
      assert b.(slotIds := b.slotIds[1..]) == r'.(slotIds := r'.slotIds[..j - 1]);
    } else {
      assert b.slotIds == [];
      assert a.(slotIds := a.slotIds[1..]).slotIds == [];
    }
  }

  /** `calculateTrueCombinationScore`, the score part: a running total over the groups. */
  method TrueCombinationScore(relics: seq<Scored>, desired: seq<DesiredEffect>, catalogue: seq<CatalogueEffect>)
    returns (total: int)
    ensures total == TrueScore(relics, desired, catalogue)
  {
    var instances := CollectInstances(relics);
    ghost var f := (k: nat) => ContributionAt(desired, catalogue, Instances(relics), k);
    total := 0;
    for k := 0 to |desired|
      invariant total == SumOver(k, f)
    {
      var group := desired[k];
      var matching := Count(group, instances);
      assert SumOver(k + 1, f) == total + Contribution(group, catalogue, instances);
      if matching != 0 {
        var weight := Weight(group);
        if NonStacking(group, catalogue) {
          total := total + weight;
        } else {
          total := total + weight * matching;
        }
      }
    }
  }

  // ---------------------------------------------------------------------------
  // Properties of the combination score

  lemma {:induction false} CountAppend(d: DesiredEffect, a: seq<int>, b: seq<int>)
    ensures Count(d, a + b) == Count(d, a) + Count(d, b)
    decreases |b|
  {
    if b == [] {
      assert a + b == a;
    } else {
      assert (a + b)[..|a + b| - 1] == a + b[..|b| - 1];
      CountAppend(d, a, b[..|b| - 1]);
    }
  }

  lemma {:induction false} InstancesAppend(a: seq<Scored>, b: seq<Scored>)
    ensures Instances(a + b) == Instances(a) + Instances(b)
    decreases |b|
  {
    if b == [] {
      assert a + b == a;
    } else {
      assert (a + b)[..|a + b| - 1] == a + b[..|b| - 1];
      InstancesAppend(a, b[..|b| - 1]);
    }
  }

  /** A relic has effect instances only if one of its slot ids is non-zero. */
  lemma InstancesNeedNonZero(r: Scored)
    ensures RelicInstances(r) != [] ==> exists id :: id in r.slotIds && id != 0
  {
    if RelicInstances(r) != [] {
      var x := RelicInstances(r)[0];
      assert x in RelicInstances(r);
    }
  }

  /** A relic without effect instances, such as an empty-slot placeholder, adds nothing. */
  lemma PlaceholderAddsNothing(relics: seq<Scored>, p: Scored, desired: seq<DesiredEffect>, catalogue: seq<CatalogueEffect>)
    requires forall id :: id in p.slotIds ==> id == 0
    ensures TrueScore(relics + [p], desired, catalogue) == TrueScore(relics, desired, catalogue)
  {
    InstancesNeedNonZero(p);
    assert (relics + [p])[..|relics|] == relics;
    assert Instances(relics + [p]) == Instances(relics) + RelicInstances(p);
    assert Instances(relics + [p]) == Instances(relics);
  }

  lemma StackingContribution(d: DesiredEffect, catalogue: seq<CatalogueEffect>, instances: seq<int>)
    requires !NonStacking(d, catalogue)
    ensures Contribution(d, catalogue, instances) == Weight(d) * Count(d, instances)
  {
  }

  lemma Distributes(w: int, a: int, b: int)
    ensures w * (a + b) == w * a + w * b
  {
  }

  lemma StackingContributionAdds(d: DesiredEffect, catalogue: seq<CatalogueEffect>, ia: seq<int>, ib: seq<int>)
    requires !NonStacking(d, catalogue)
    ensures Contribution(d, catalogue, ia + ib) == Contribution(d, catalogue, ia) + Contribution(d, catalogue, ib)
  {
    CountAppend(d, ia, ib);
    StackingContribution(d, catalogue, ia);
    StackingContribution(d, catalogue, ib);
    StackingContribution(d, catalogue, ia + ib);
    Distributes(Weight(d), Count(d, ia), Count(d, ib));
  }

  /** When every group stacks, the score of two parts put together is the sum of their scores. */
  lemma StackingScoresAdd(a: seq<Scored>, b: seq<Scored>, desired: seq<DesiredEffect>, catalogue: seq<CatalogueEffect>)
    requires forall k :: 0 <= k < |desired| ==> !NonStacking(desired[k], catalogue)
    ensures TrueScore(a + b, desired, catalogue) == TrueScore(a, desired, catalogue) + TrueScore(b, desired, catalogue)
  {
    InstancesAppend(a, b);
    var ia, ib := Instances(a), Instances(b);
    forall k: nat | k < |desired|
      ensures ContributionAt(desired, catalogue, ia + ib, k) ==
              ContributionAt(desired, catalogue, ia, k) + ContributionAt(desired, catalogue, ib, k)
    {
      StackingContributionAdds(desired[k], catalogue, ia, ib);
    }
    SumAdd(|desired|,
      (k: nat) => ContributionAt(desired, catalogue, ia, k),
      (k: nat) => ContributionAt(desired, catalogue, ib, k),
      (k: nat) => ContributionAt(desired, catalogue, ia + ib, k));
  }

  lemma RepeatsKeepContribution(d: DesiredEffect, catalogue: seq<CatalogueEffect>, ia: seq<int>, ib: seq<int>)
    requires NonStacking(d, catalogue)
    requires forall id :: id in ib ==> id in ia
    ensures Contribution(d, catalogue, ia + ib) == Contribution(d, catalogue, ia)
  {
    CountAppend(d, ia, ib);
    if Count(d, ib) != 0 {
      var i :| 0 <= i < |ib| && ib[i] in d.ids;
      assert ib[i] in ib;
      var j :| 0 <= j < |ia| && ia[j] == ib[i];
      assert Count(d, ia) != 0;
    }
  }

  /** When every group is non-stacking, effects already present add nothing: only which
      groups are matched counts. */
  lemma NonStackingIgnoresRepeats(a: seq<Scored>, b: seq<Scored>, desired: seq<DesiredEffect>, catalogue: seq<CatalogueEffect>)
    requires forall k :: 0 <= k < |desired| ==> NonStacking(desired[k], catalogue)
    requires forall id :: id in Instances(b) ==> id in Instances(a)
    ensures TrueScore(a + b, desired, catalogue) == TrueScore(a, desired, catalogue)
  {
    InstancesAppend(a, b);
    var ia, ib := Instances(a), Instances(b);
    forall k: nat | k < |desired|
      ensures ContributionAt(desired, catalogue, ia + ib, k) == ContributionAt(desired, catalogue, ia, k)
    {
      RepeatsKeepContribution(desired[k], catalogue, ia, ib);
    }
    SumEq(|desired|,
      (k: nat) => ContributionAt(desired, catalogue, ia + ib, k),
      (k: nat) => ContributionAt(desired, catalogue, ia, k));
  }

  /** For a single relic, the combination score is at least its relic score when weights are
      positive: every group the relic is credited to is matched in the combination too. */
  lemma SingleRelicScoreBound(r: Scored, desired: seq<DesiredEffect>, catalogue: seq<CatalogueEffect>)
    requires forall k :: 0 <= k < |desired| ==> desired[k].weight >= 0
    requires 0 !in r.slotIds
    ensures RelicScore(r.slotIds, desired) <= TrueScore([r], desired, catalogue)
  {
    assert [r][..|[r]| - 1] == [];
    assert Instances([]) == [];
    var inst := Instances([r]);
    assert inst == RelicInstances(r);
    forall k: nat | k < |desired|
      ensures HitWeight(desired, r.slotIds, k) <= ContributionAt(desired, catalogue, inst, k)
    {
      HitWithinContribution(r, desired, catalogue, k);
    }
    SumLe(|desired|,
      (k: nat) => HitWeight(desired, r.slotIds, k),
      (k: nat) => ContributionAt(desired, catalogue, inst, k));
  }

  /** With a non-negative weight a group adds nothing negative, and at least its weight once matched. */
  lemma ContributionBounds(d: DesiredEffect, catalogue: seq<CatalogueEffect>, instances: seq<int>)
    requires d.weight >= 0
    ensures Contribution(d, catalogue, instances) >= 0
    ensures Count(d, instances) >= 1 ==> Contribution(d, catalogue, instances) >= Weight(d)
  {
    var w, m := Weight(d), Count(d, instances);
    if m >= 1 && !NonStacking(d, catalogue) {
      AtLeastOnce(w, m);
    }
  }

  lemma AtLeastOnce(w: int, m: int)
    requires w >= 0 && m >= 1
    ensures w * m >= w
  {
  }

  lemma HitWithinContribution(r: Scored, desired: seq<DesiredEffect>, catalogue: seq<CatalogueEffect>, k: nat)
    requires k < |desired| && desired[k].weight >= 0
    requires 0 !in r.slotIds
    ensures HitWeight(desired, r.slotIds, k) <= ContributionAt(desired, catalogue, RelicInstances(r), k)
  {
    var d := desired[k];
    var inst := RelicInstances(r);
    ContributionBounds(d, catalogue, inst);
    if GroupHit(desired, r.slotIds, k) {
      var j :| 0 <= j < |r.slotIds| && FirstGroup(desired, r.slotIds[j]) == Some(k);
      assert r.slotIds[j] in inst;
      var i :| 0 <= i < |inst| && inst[i] == r.slotIds[j];
      assert inst[i] in d.ids;
    }
  }
}

=== FILE: calc_search.dfy ===
/**
 * `generateRelicCombinations` (`calculation.js`) for the `returnAll: true` calls the
 * optimiser makes: the candidate relics of each slot, the exhaustive search with its
 * upper-bound pruning, the ordering by score and the required-effect filter.
 */
module CalcSearch {
  import opened Wrappers
  import opened StableSort
  import opened CalcModel
  import opened CalcScore

  // ---------------------------------------------------------------------------
  // Candidates per slot

  /** `scoredRelics.filter(r => r.color === color)`. */
  function OfColor(scored: seq<Scored>, color: string): (r: seq<Scored>)
    ensures forall x :: x in r <==> x in scored && x.relic.color == color
  {
    if scored == [] then []
    else
      assert forall x :: x in scored <==> x == scored[0] || x in scored[1..];
      (if scored[0].relic.color == color then [scored[0]] else []) + OfColor(scored[1..], color)
  }

  predicate IsRelicColor(c: string)
  {
    c == "red" || c == "blue" || c == "yellow" || c == "green"
  }

  /** Which relic colours a slot takes: a white slot any of the four, a coloured slot its own. */
  predicate Accepts(slot: string, color: string)
  {
    if slot == "white" then IsRelicColor(color) else IsRelicColor(slot) && color == slot
  }

  /** The relics a slot can hold: for white, the red, blue, yellow and green relics in that
      order; for any colour without a group, none. */
  function Candidates(slot: string, scored: seq<Scored>): (r: seq<Scored>)
    ensures forall x :: x in r <==> x in scored && Accepts(slot, x.relic.color)
  {
    if slot == "white" then
      OfColor(scored, "red") + OfColor(scored, "blue") + OfColor(scored, "yellow") + OfColor(scored, "green")
    else if IsRelicColor(slot) then OfColor(scored, slot)
    else []
  }

  /** `validRelicsPerSlot` as `slots.map` builds it. */
  function PerSlot(slots: seq<string>, scored: seq<Scored>): (lists: seq<seq<Scored>>)
    ensures |lists| == |slots|
  {
    seq(|slots|, i requires 0 <= i < |slots| => Candidates(slots[i], scored))
  }

  /** The empty-slot placeholder of slot `index`: no effects, score 0, sorting `-1 - index`. */
  function Placeholder(index: nat): Scored
  {
    Scored(Relic(None, "Empty Slot", None, None, None, None, None, None, -1 - index, "empty", Empty, None), 0, [])
  }

  /** The sort key of `(a, b) => b.score - a.score`: descending score. */
  function ByScore(x: Scored): int
  {
    -x.score
  }

  function WithPlaceholder(c: seq<Scored>, index: nat): seq<Scored>
  {
    if c == [] then [Placeholder(index)] else c
  }

  /** The lists the search runs on: a placeholder in each empty list, then each list sorted. */
  function Prepared(perSlot: seq<seq<Scored>>): (lists: seq<seq<Scored>>)
    ensures |lists| == |perSlot|
  {
    seq(|perSlot|, i requires 0 <= i < |perSlot| => SortBy(WithPlaceholder(perSlot[i], i), ByScore))
  }

  /** The placeholder loop and the sorting loop over `validRelicsPerSlot`. */
  method FillAndSort(perSlot: seq<seq<Scored>>) returns (lists: seq<seq<Scored>>)
    ensures lists == Prepared(perSlot)
  {
    lists := perSlot;
    for index := 0 to |lists|
      invariant |lists| == |perSlot|
      invariant forall i :: 0 <= i < index ==> lists[i] == WithPlaceholder(perSlot[i], i)
      invariant forall i :: index <= i < |lists| ==> lists[i] == perSlot[i]
    {
      if |lists[index]| == 0 {
        lists := lists[index := [Placeholder(index)]];
      }
    }
    for index := 0 to |lists|
      invariant |lists| == |perSlot|
      invariant forall i :: 0 <= i < index ==> lists[i] == SortBy(WithPlaceholder(perSlot[i], i), ByScore)
      invariant forall i :: index <= i < |lists| ==> lists[i] == WithPlaceholder(perSlot[i], i)
    {
      lists := lists[index := SortBy(lists[index], ByScore)];
    }
  }

  /** Every relic of a prepared list is a candidate of its slot, or the slot's placeholder
      when the slot has no candidate. */
  lemma PreparedMembers(perSlot: seq<seq<Scored>>, i: nat, x: Scored)
    requires i < |perSlot| && x in Prepared(perSlot)[i]
    ensures perSlot[i] != [] ==> x in perSlot[i]
    ensures perSlot[i] == [] ==> x == Placeholder(i)
  {
    var w := WithPlaceholder(perSlot[i], i);
    SortFacts(w, ByScore);
    assert x in multiset(SortBy(w, ByScore));
  }

  // ---------------------------------------------------------------------------
  // The search

  /** What the search closes over: the slot lists, the desired groups and the catalogue. */
  datatype Problem = Problem(lists: seq<seq<Scored>>, desired: seq<DesiredEffect>, catalogue: seq<CatalogueEffect>)

  /** `bestScoreSoFar` and `allValidCombinations`. */
  datatype Progress = Progress(best: int, found: seq<Combination>)

  /** `relics.filter(r => !usedRelicIds.has(r.sorting))`. */
  function Avail(cands: seq<Scored>, used: set<int>): (r: seq<Scored>)
    ensures forall x :: x in r <==> x in cands && x.relic.sorting !in used
  {
    if cands == [] then []
    else
      assert forall x :: x in cands <==> x == cands[0] || x in cands[1..];
      (if cands[0].relic.sorting !in used then [cands[0]] else []) + Avail(cands[1..], used)
  }

  /** The optimistic completion from slot `from`: the first available relic of each later
      slot, or `None` when one of them has none. */
  function Optimistic(p: Problem, from: nat, used: set<int>): Option<seq<Scored>>
    requires from <= |p.lists|
  {
    if forall j :: from <= j < |p.lists| ==> Avail(p.lists[j], used) != [] then
      Some(seq(|p.lists| - from, j requires 0 <= j < |p.lists| - from => Avail(p.lists[from + j], used)[0]))
    else None
  }

  /** A slot from `from` on without an available relic leaves no optimistic completion. */
  lemma OptimisticFails(p: Problem, from: nat, used: set<int>, i: nat)
    requires from <= i < |p.lists| && Avail(p.lists[i], used) == []
    ensures Optimistic(p, from, used).None?
  {
  }

  /** A sequence holding the first available relic of each slot from `from` on ends with the
      optimistic completion. */
  lemma OptimisticIs(p: Problem, from: nat, used: set<int>, s: seq<Scored>)
    requires from <= |p.lists| == |s|
    requires forall j :: from <= j < |s| ==> Avail(p.lists[j], used) != [] && s[j] == Avail(p.lists[j], used)[0]
    ensures Optimistic(p, from, used) == Some(s[from..])
  {
    assert forall j :: from <= j < |p.lists| ==> Avail(p.lists[j], used) != [];
    var opt := seq(|p.lists| - from, j requires 0 <= j < |p.lists| - from => Avail(p.lists[from + j], used)[0]);
    assert Optimistic(p, from, used) == Some(opt);
    forall j | 0 <= j < |opt| ensures opt[j] == s[from..][j] {
      assert s[from..][j] == s[from + j];
    }
    assert opt == s[from..];
  }

  /** The pruning test at the head of `generateCombinations`. */
  predicate Pruned(p: Problem, prefix: seq<Scored>, used: set<int>, best: int)
    requires |prefix| <= |p.lists|
  {
    best >= 0 && |prefix| > 0 &&
    var opt := Optimistic(p, |prefix|, used);
    opt.Some? && TrueScore(prefix + opt.value, p.desired, p.catalogue) <= best
  }

  /** Storing a finished combination and raising the best score. */
  function Record(st: Progress, c: Combination): Progress
  {
    Progress(if c.score > st.best then c.score else st.best, st.found + [c])
  }

  /** `generateCombinations` on the filled `prefix` with the sortings `used`. */
  function Node(p: Problem, prefix: seq<Scored>, used: set<int>, st: Progress): Progress
    requires |prefix| <= |p.lists|
    decreases |p.lists| - |prefix|, 1, 0
  {
    if Pruned(p, prefix, used, st.best) then st
    else if |prefix| == |p.lists| then Record(st, Combination(prefix, TrueScore(prefix, p.desired, p.catalogue)))
    else Children(p, prefix, used, Avail(p.lists[|prefix|], used), 0, st)
  }

  /** The loop over the available relics of the next slot, from the `k`-th on. */
  function Children(p: Problem, prefix: seq<Scored>, used: set<int>, avail: seq<Scored>, k: nat, st: Progress): Progress
    requires |prefix| < |p.lists| && k <= |avail|
    decreases |p.lists| - |prefix|, 0, |avail| - k
  {
    if k == |avail| then st
    else Children(p, prefix, used, avail, k + 1, Node(p, prefix + [avail[k]], used + {avail[k].relic.sorting}, st))
  }

  /** Stands for the holes of `new Array(slots.length)`; the search writes a slot before reading it. */
  const Unset: Scored := Scored(Relic(None, "", None, None, None, None, None, None, 0, "", Empty, None), 0, [])

  /** The state `generateCombinations` shares across its recursive calls. */
  class CombinationSearch {
    const problem: Problem
    const current: array<Scored>
    var used: set<int>
    var best: int
    var found: seq<Combination>

    constructor (problem: Problem)
      ensures this.problem == problem && current.Length == |problem.lists| && fresh(current)
      ensures used == {} && best == -1 && found == []
    {
      this.problem := problem;
      current := new Scored[|problem.lists|](_ => Unset);
      used := {};
      best := -1;
      found := [];
    }

    /** The optimistic completion: the current prefix, then the first available relic of each
        remaining slot, giving up at the first slot without one. */
    method Completion(slotIndex: nat) returns (canComplete: bool, combo: seq<Scored>)
      requires slotIndex <= current.Length == |problem.lists|
      ensures canComplete == Optimistic(problem, slotIndex, used).Some?
      ensures canComplete ==> combo == current[..slotIndex] + Optimistic(problem, slotIndex, used).value
    {
      var lists := problem.lists;
      var u := used;
      var optimistic := current[..];
      canComplete := true;
      var i := slotIndex;
      while i < |lists|
        invariant slotIndex <= i <= |lists| == |optimistic|
        invariant optimistic[..slotIndex] == current[..slotIndex]
        invariant forall j :: slotIndex <= j < i ==> Avail(lists[j], u) != [] && optimistic[j] == Avail(lists[j], u)[0]
      {
        var available := Avail(lists[i], u);
        if |available| == 0 {
          OptimisticFails(problem, slotIndex, u, i);
          canComplete := false;
          break;
        }
        optimistic := optimistic[i := available[0]];
        i := i + 1;
      }
      combo := optimistic;
      if canComplete {
        OptimisticIs(problem, slotIndex, u, optimistic);
        assert optimistic == optimistic[..slotIndex] + optimistic[slotIndex..];
      }
    }

    /** The pruning test: the optimistic completion exists and does not beat a non-negative best. */
    method IsPruned(slotIndex: nat) returns (prune: bool)
      requires slotIndex <= current.Length == |problem.lists|
      ensures prune == Pruned(problem, current[..slotIndex], used, best)
    {
      prune := false;
      if best >= 0 && slotIndex > 0 {
        var canComplete, optimistic := Completion(slotIndex);
        if canComplete {
          var upperBound := TrueCombinationScore(optimistic, problem.desired, problem.catalogue);
          prune := upperBound <= best;
        }
      }
    }

    /** The base case: store the filled combination with its score and raise the best score. */
    method RecordLeaf()
      requires current.Length == |problem.lists|
      modifies this
      ensures Progress(best, found) == Record(old(Progress(best, found)), Combination(current[..], TrueScore(current[..], problem.desired, problem.catalogue)))
      ensures used == old(used)
    {
      var trueScore := TrueCombinationScore(current[..], problem.desired, problem.catalogue);
      found := found + [Combination(current[..], trueScore)];
      if trueScore > best {
        best := trueScore;
      }
    }

    /** `generateCombinations(slotIndex, ...)`: the new best score and the combinations found
        are those of `Node` on the current prefix; the prefix and the used sortings are restored. */
    method Generate(slotIndex: nat)
      requires slotIndex <= current.Length == |problem.lists|
      modifies this, current
      ensures Progress(best, found) == Node(problem, old(current[..slotIndex]), old(used), Progress(old(best), old(found)))
      ensures used == old(used) && current[..slotIndex] == old(current[..slotIndex])
      decreases |problem.lists| - slotIndex, 1
    {
      var prune := IsPruned(slotIndex);
      if prune {
        return;
      }
      if slotIndex == |problem.lists| {
        assert current[..] == current[..slotIndex];
        RecordLeaf();
        return;
      }
      ghost var prefix := current[..slotIndex];
      ghost var start := Progress(best, found);
      ghost var u := used;
      var available := Avail(problem.lists[slotIndex], used);
      for k := 0 to |available|
        invariant used == u && current[..slotIndex] == prefix
        invariant Children(problem, prefix, u, available, k, Progress(best, found)) ==
                  Children(problem, prefix, u, available, 0, start)
      {
        Try(slotIndex, available[k]);
      }
    }

    /** One turn of the loop: place `relic`, mark its sorting used, recurse, then unmark it. */
    method Try(slotIndex: nat, relic: Scored)
      requires slotIndex < current.Length == |problem.lists|
      requires relic.relic.sorting !in used
      modifies this, current
      ensures Progress(best, found) == Node(problem, old(current[..slotIndex]) + [relic], old(used) + {relic.relic.sorting}, Progress(old(best), old(found)))
      ensures used == old(used) && current[..slotIndex] == old(current[..slotIndex])
      decreases |problem.lists| - slotIndex, 0
    {
      ghost var prefix := current[..slotIndex];
      current[slotIndex] := relic;
      used := used + {relic.relic.sorting};
      assert current[..slotIndex + 1] == prefix + [relic];
      Generate(slotIndex + 1);
      assert current[..slotIndex] == current[..slotIndex + 1][..slotIndex];
      used := used - {relic.relic.sorting};
    }
  }

  // ---------------------------------------------------------------------------
  // What the search records

  predicate DistinctSortings(rs: seq<Scored>)
  {
    forall i, j :: 0 <= i < j < |rs| ==> rs[i].relic.sorting != rs[j].relic.sorting
  }

  function Sortings(rs: seq<Scored>): set<int>
  {
    set x | x in rs :: x.relic.sorting
  }

  /** A recorded combination: one relic from each slot's list, no sorting twice, and its
      combination score. */
  predicate Sound(p: Problem, c: Combination)
  {
    |c.relics| == |p.lists| && (forall j :: 0 <= j < |c.relics| ==> c.relics[j] in p.lists[j])
    && DistinctSortings(c.relics) && c.score == TrueScore(c.relics, p.desired, p.catalogue)
  }

  predicate AllSound(p: Problem, found: seq<Combination>)
  {
    forall i :: 0 <= i < |found| ==> Sound(p, found[i])
  }

  /** A prefix the search can reach: its relics come from their lists, with distinct sortings,
      and `used` holds exactly those sortings. */
  predicate Reachable(p: Problem, prefix: seq<Scored>, used: set<int>)
  {
    |prefix| <= |p.lists| && (forall j :: 0 <= j < |prefix| ==> prefix[j] in p.lists[j])
    && DistinctSortings(prefix) && used == Sortings(prefix)
  }

  lemma ExtendReachable(p: Problem, prefix: seq<Scored>, used: set<int>, x: Scored)
    requires Reachable(p, prefix, used) && |prefix| < |p.lists|
    requires x in Avail(p.lists[|prefix|], used)
    ensures Reachable(p, prefix + [x], used + {x.relic.sorting})
  {
    var q := prefix + [x];
    forall i, j | 0 <= i < j < |q| ensures q[i].relic.sorting != q[j].relic.sorting {
      if j == |prefix| {
        assert q[i] in prefix;
      }
    }
    assert Sortings(q) == Sortings(prefix) + {x.relic.sorting} by {
      assert forall y :: y in q <==> y in prefix || y == x;
    }
  }

  /** Every combination the search records is sound. */
  lemma {:induction false} NodeSound(p: Problem, prefix: seq<Scored>, used: set<int>, st: Progress)
    requires Reachable(p, prefix, used) && AllSound(p, st.found)
    ensures AllSound(p, Node(p, prefix, used, st).found)
    decreases |p.lists| - |prefix|, 1, 0
  {
    if !Pruned(p, prefix, used, st.best) {
      if |prefix| < |p.lists| {
        ChildrenSound(p, prefix, used, Avail(p.lists[|prefix|], used), 0, st);
      }
    }
  }

  lemma {:induction false} ChildrenSound(p: Problem, prefix: seq<Scored>, used: set<int>, avail: seq<Scored>, k: nat, st: Progress)
    requires Reachable(p, prefix, used) && |prefix| < |p.lists|
    requires avail == Avail(p.lists[|prefix|], used) && k <= |avail|
    requires AllSound(p, st.found)
    ensures AllSound(p, Children(p, prefix, used, avail, k, st).found)
    decreases |p.lists| - |prefix|, 0, |avail| - k
  {
    if k < |avail| {
      var x := avail[k];
      ExtendReachable(p, prefix, used, x);
      NodeSound(p, prefix + [x], used + {x.relic.sorting}, st);
      ChildrenSound(p, prefix, used, avail, k + 1, Node(p, prefix + [x], used + {x.relic.sorting}, st));
    }
  }

  /** Every non-negative score recorded is beaten by each combination recorded after it:
      ties with a non-negative best are pruned. */
  predicate Increasing(found: seq<Combination>)
  {
    forall i, j :: 0 <= i < j < |found| && found[i].score >= 0 ==> found[i].score < found[j].score
  }

  /** The best score bounds every recorded score, and recorded scores increase. */
  predicate Coherent(st: Progress)
  {
    (forall i :: 0 <= i < |st.found| ==> st.found[i].score <= st.best) && Increasing(st.found)
  }

  lemma RecordCoherent(st: Progress, c: Combination)
    requires Coherent(st) && (st.best < 0 || c.score > st.best)
    ensures Coherent(Record(st, c))
  {
    var f := Record(st, c).found;
    forall i, j | 0 <= i < j < |f| && f[i].score >= 0 ensures f[i].score < f[j].score {
      if j == |st.found| {
        assert f[i] == st.found[i];
      }
    }
  }

  /** At a leaf the optimistic completion is empty, so a score that does not beat a
      non-negative best is pruned. */
  lemma LeafPruning(p: Problem, prefix: seq<Scored>, used: set<int>, best: int)
    requires |prefix| == |p.lists| > 0
    requires best >= 0 && TrueScore(prefix, p.desired, p.catalogue) <= best
    ensures Pruned(p, prefix, used, best)
  {
    assert prefix + Optimistic(p, |prefix|, used).value == prefix;
  }

  /** The search keeps its state coherent. */
  lemma {:induction false} NodeCoherent(p: Problem, prefix: seq<Scored>, used: set<int>, st: Progress)
    requires |prefix| <= |p.lists| && |p.lists| > 0 && Coherent(st)
    ensures Coherent(Node(p, prefix, used, st))
    decreases |p.lists| - |prefix|, 1, 0
  {
    if !Pruned(p, prefix, used, st.best) {
      if |prefix| == |p.lists| {
        var score := TrueScore(prefix, p.desired, p.catalogue);
        if st.best >= 0 && score <= st.best {
          LeafPruning(p, prefix, used, st.best);
        }
        RecordCoherent(st, Combination(prefix, score));
      } else {
        ChildrenCoherent(p, prefix, used, Avail(p.lists[|prefix|], used), 0, st);
      }
    }
  }

  lemma {:induction false} ChildrenCoherent(p: Problem, prefix: seq<Scored>, used: set<int>, avail: seq<Scored>, k: nat, st: Progress)
    requires |prefix| < |p.lists| && k <= |avail| && Coherent(st)
    ensures Coherent(Children(p, prefix, used, avail, k, st))
    decreases |p.lists| - |prefix|, 0, |avail| - k
  {
    if k < |avail| {
      var x := avail[k];
      NodeCoherent(p, prefix + [x], used + {x.relic.sorting}, st);
      ChildrenCoherent(p, prefix, used, avail, k + 1, Node(p, prefix + [x], used + {x.relic.sorting}, st));
    }
  }

  /** The search only appends: what was recorded before stays, in order. */
  lemma {:induction false} NodeKeeps(p: Problem, prefix: seq<Scored>, used: set<int>, st: Progress)
    requires |prefix| <= |p.lists|
    ensures var f := Node(p, prefix, used, st).found; |st.found| <= |f| && f[..|st.found|] == st.found
    decreases |p.lists| - |prefix|, 1, 0
  {
    if !Pruned(p, prefix, used, st.best) && |prefix| < |p.lists| {
      ChildrenKeeps(p, prefix, used, Avail(p.lists[|prefix|], used), 0, st);
    }
  }

  lemma {:induction false} ChildrenKeeps(p: Problem, prefix: seq<Scored>, used: set<int>, avail: seq<Scored>, k: nat, st: Progress)
    requires |prefix| < |p.lists| && k <= |avail|
    ensures var f := Children(p, prefix, used, avail, k, st).found; |st.found| <= |f| && f[..|st.found|] == st.found
    decreases |p.lists| - |prefix|, 0, |avail| - k
  {
    if k < |avail| {
      var x := avail[k];
      var mid := Node(p, prefix + [x], used + {x.relic.sorting}, st);
      NodeKeeps(p, prefix + [x], used + {x.relic.sorting}, st);
      ChildrenKeeps(p, prefix, used, avail, k + 1, mid);
      var f := Children(p, prefix, used, avail, k + 1, mid).found;
      assert f[..|st.found|] == f[..|mid.found|][..|st.found|];
    }
  }

  // ---------------------------------------------------------------------------
  // generateRelicCombinations

  function Relics(rs: seq<Scored>): (r: seq<Relic>)
    ensures |r| == |rs| && forall i :: 0 <= i < |rs| ==> r[i] == rs[i].relic
  {
    seq(|rs|, i requires 0 <= i < |rs| => rs[i].relic)
  }

  /** The required-effect check on the base relics and the combination's relics together. */
  predicate Satisfies(c: Combination, baseRelics: seq<Scored>, desired: seq<DesiredEffect>, table: EffectTable)
  {
    ValidateRequiredEffects(Relics(baseRelics + c.relics), desired, table)
  }

  /** `allValidCombinations.filter(...)` with the required-effect check. */
  function KeepSatisfying(cs: seq<Combination>, baseRelics: seq<Scored>, desired: seq<DesiredEffect>, table: EffectTable): (r: seq<Combination>)
    ensures forall c :: c in r <==> c in cs && Satisfies(c, baseRelics, desired, table)
  {
    if cs == [] then []
    else
      var rest := KeepSatisfying(cs[1..], baseRelics, desired, table);
      assert forall c :: c in cs <==> c == cs[0] || c in cs[1..];
      (if Satisfies(cs[0], baseRelics, desired, table) then [cs[0]] else []) + rest
  }

  /** The sort key of `(a, b) => b.score - a.score` on combinations. */
  function ByTotal(c: Combination): int
  {
    -c.score
  }

  /** `generateRelicCombinations(slots, scoredRelics, desiredEffects, effectMap,
      { baseRelics, returnAll: true, validateRequired })`. */
  function Generated(slots: seq<string>, scored: seq<Scored>, desired: seq<DesiredEffect>, catalogue: seq<CatalogueEffect>,
                     table: EffectTable, baseRelics: seq<Scored>, validate: bool): seq<Combination>
  {
    if slots == [] then [Combination([], 0)]
    else
      var perSlot := PerSlot(slots, scored);
      if forall i :: 0 <= i < |perSlot| ==> perSlot[i] == [] then []
      else
        var all := Node(Problem(Prepared(perSlot), desired, catalogue), [], {}, Progress(-1, [])).found;
        if all == [] then []
        else
          var sorted := SortBy(all, ByTotal);
          if validate then KeepSatisfying(sorted, baseRelics, desired, table) else sorted
  }

  method GenerateRelicCombinations(slots: seq<string>, scored: seq<Scored>, desired: seq<DesiredEffect>,
                                   catalogue: seq<CatalogueEffect>, table: EffectTable, baseRelics: seq<Scored>, validate: bool)
    returns (combinations: seq<Combination>)
    ensures combinations == Generated(slots, scored, desired, catalogue, table, baseRelics, validate)
  {
    if |slots| == 0 {
      return [Combination([], 0)];
    }
    var perSlot := PerSlot(slots, scored);
    if forall i :: 0 <= i < |perSlot| ==> perSlot[i] == [] {
      return [];
    }
    var lists := FillAndSort(perSlot);
    var search := new CombinationSearch(Problem(lists, desired, catalogue));
    search.Generate(0);
    var all := search.found;
    if |all| == 0 {
      return [];
    }
    combinations := SortBy(all, ByTotal);
    if validate {
      combinations := KeepSatisfying(combinations, baseRelics, desired, table);
    }
  }

  // ---------------------------------------------------------------------------
  // Properties of the combinations generated

  lemma EmptyScoresZero(desired: seq<DesiredEffect>, catalogue: seq<CatalogueEffect>)
    ensures TrueScore([], desired, catalogue) == 0
  {
    SumZero(|desired|, (k: nat) => ContributionAt(desired, catalogue, [], k));
  }

  /** Every generated combination fills each slot with a relic of a colour the slot takes,
      or with the slot's placeholder when no relic fits; no relic appears twice (by sorting);
      and its score is the combination score. */
  lemma GeneratedWellFormed(slots: seq<string>, scored: seq<Scored>, desired: seq<DesiredEffect>, catalogue: seq<CatalogueEffect>,
                            table: EffectTable, baseRelics: seq<Scored>, validate: bool, c: Combination)
    requires c in Generated(slots, scored, desired, catalogue, table, baseRelics, validate)
    ensures |c.relics| == |slots|
    ensures forall j :: 0 <= j < |slots| ==>
      if Candidates(slots[j], scored) == [] then c.relics[j] == Placeholder(j)
      else c.relics[j] in scored && Accepts(slots[j], c.relics[j].relic.color)
    ensures DistinctSortings(c.relics)
    ensures c.score == TrueScore(c.relics, desired, catalogue)
  {
    if slots == [] {
      EmptyScoresZero(desired, catalogue);
    } else {
      var perSlot := PerSlot(slots, scored);
      var p := Problem(Prepared(perSlot), desired, catalogue);
      var all := Node(p, [], {}, Progress(-1, [])).found;
      assert Reachable(p, [], {});
      NodeSound(p, [], {}, Progress(-1, []));
      SortFacts(all, ByTotal);
      assert c in multiset(SortBy(all, ByTotal));
      assert c in all;
      assert Sound(p, c);
      forall j | 0 <= j < |slots|
        ensures if Candidates(slots[j], scored) == [] then c.relics[j] == Placeholder(j)
                else c.relics[j] in scored && Accepts(slots[j], c.relics[j].relic.color)
      {
        PreparedMembers(perSlot, j, c.relics[j]);
      }
    }
  }

  /** The combinations come out in descending order of score. */
  lemma GeneratedOrdered(slots: seq<string>, scored: seq<Scored>, desired: seq<DesiredEffect>, catalogue: seq<CatalogueEffect>,
                         table: EffectTable, baseRelics: seq<Scored>, validate: bool)
    ensures var r := Generated(slots, scored, desired, catalogue, table, baseRelics, validate);
      forall i, j :: 0 <= i < j < |r| ==> r[i].score >= r[j].score
  {
    var r := Generated(slots, scored, desired, catalogue, table, baseRelics, validate);
    if slots != [] {
      var perSlot := PerSlot(slots, scored);
      var all := Node(Problem(Prepared(perSlot), desired, catalogue), [], {}, Progress(-1, [])).found;
      SortFacts(all, ByTotal);
      KeepSorted(SortBy(all, ByTotal), baseRelics, desired, table);
    }
    assert SortedBy(r, ByTotal);
  }

  /** Filtering keeps the order. */
  lemma {:induction false} KeepSorted(cs: seq<Combination>, baseRelics: seq<Scored>, desired: seq<DesiredEffect>, table: EffectTable)
    requires SortedBy(cs, ByTotal)
    ensures SortedBy(KeepSatisfying(cs, baseRelics, desired, table), ByTotal)
  {
    if cs != [] {
      var rest := KeepSatisfying(cs[1..], baseRelics, desired, table);
      KeepSorted(cs[1..], baseRelics, desired, table);
      forall j | 0 <= j < |rest| ensures ByTotal(cs[0]) <= ByTotal(rest[j]) {
        assert rest[j] in cs[1..];
      }
    }
  }

  /** Filtering never adds an element under a key. */
  lemma {:induction false} KeepWithKey(cs: seq<Combination>, baseRelics: seq<Scored>, desired: seq<DesiredEffect>, table: EffectTable, k: int)
    ensures |WithKey(KeepSatisfying(cs, baseRelics, desired, table), ByTotal, k)| <= |WithKey(cs, ByTotal, k)|
  {
    if cs != [] {
      var head := if Satisfies(cs[0], baseRelics, desired, table) then [cs[0]] else [];
      KeepWithKey(cs[1..], baseRelics, desired, table, k);
      WithKeyAppend(head, KeepSatisfying(cs[1..], baseRelics, desired, table), ByTotal, k);
      assert cs == [cs[0]] + cs[1..];
      WithKeyAppend([cs[0]], cs[1..], ByTotal, k);
      assert WithKey(head, ByTotal, k) == head[..0] + (if head != [] && ByTotal(cs[0]) == k then [cs[0]] else []);
      assert WithKey([cs[0]], ByTotal, k) == [][..0] + (if ByTotal(cs[0]) == k then [cs[0]] else []);
    }
  }

  /** Increasing scores leave at most one combination per non-negative score. */
  lemma {:induction false} IncreasingUnique(found: seq<Combination>, k: int)
    requires Increasing(found) && k <= 0
    ensures |WithKey(found, ByTotal, k)| <= 1
  {
    if found != [] {
      var init, last := found[..|found| - 1], found[|found| - 1];
      if ByTotal(last) == k {
        forall i | 0 <= i < |init| ensures ByTotal(init[i]) != k {
          assert init[i] == found[i];
        }
        WithKeyNone(init, ByTotal, k);
      } else {
        IncreasingUnique(init, k);
      }
    }
  }

  /** No two generated combinations share a non-negative score: a combination that only ties
      a non-negative best score is pruned at its leaf, so at most one combination reaches the
      top score whenever that score is non-negative. */
  lemma GeneratedScoresDistinct(slots: seq<string>, scored: seq<Scored>, desired: seq<DesiredEffect>, catalogue: seq<CatalogueEffect>,
                                table: EffectTable, baseRelics: seq<Scored>, validate: bool)
    ensures var r := Generated(slots, scored, desired, catalogue, table, baseRelics, validate);
      forall i, j :: 0 <= i < j < |r| && r[i].score >= 0 ==> r[i].score > r[j].score
  {
    var r := Generated(slots, scored, desired, catalogue, table, baseRelics, validate);
    GeneratedOrdered(slots, scored, desired, catalogue, table, baseRelics, validate);
    if slots != [] {
      var perSlot := PerSlot(slots, scored);
      var p := Problem(Prepared(perSlot), desired, catalogue);
      var all := Node(p, [], {}, Progress(-1, [])).found;
      NodeCoherent(p, [], {}, Progress(-1, []));
      SortFacts(all, ByTotal);
      forall i, j | 0 <= i < j < |r| && r[i].score >= 0 ensures r[i].score > r[j].score {
        var k := ByTotal(r[i]);
        WithKeyTwo(r, ByTotal, i, j);
        IncreasingUnique(all, k);
        KeepWithKey(SortBy(all, ByTotal), baseRelics, desired, table, k);
      }
    }
  }

  /** With `validateRequired`, every combination of a non-empty slot list passes the
      required-effect check together with the base relics; an empty slot list yields the
      single empty combination without any check. */
  lemma GeneratedValidated(slots: seq<string>, scored: seq<Scored>, desired: seq<DesiredEffect>, catalogue: seq<CatalogueEffect>,
                           table: EffectTable, baseRelics: seq<Scored>, c: Combination)
    ensures slots != [] && c in Generated(slots, scored, desired, catalogue, table, baseRelics, true) ==>
      Satisfies(c, baseRelics, desired, table)
    ensures slots == [] ==> Generated(slots, scored, desired, catalogue, table, baseRelics, true) == [Combination([], 0)]
  {
  }
}

=== FILE: container_js.dfy ===
/**
 * The browser extractor's container stage (`parseAndDecryptUserdataBuffers`,
 * `readAsciiZ`, `concatBuffers`): decrypt every entry whose data lies inside the
 * file, pad each plaintext with zeros, recognise `USERDATA_<n>` entry names, and
 * order the buffers by `n` when exactly fourteen such names were seen.
 */
module ContainerJs {
  import opened Wrappers
  import opened Bytes
  import opened Bnd4
  import StableSort

  /** Zero padding appended to every plaintext. */
  const PaddingSize: nat := 0xC

  /** "USERDATA_" in ASCII. */
  const UserdataPrefix: seq<byte> := [0x55, 0x53, 0x45, 0x52, 0x44, 0x41, 0x54, 0x41, 0x5F]

  /** A decrypted, padded entry and the index parsed from its name, if any. */
  datatype JsEntry = JsEntry(plain: seq<byte>, index: Option<int>)

  /** A named entry awaiting the sort by index. */
  datatype Userdata = Userdata(idx: int, plain: seq<byte>)

  // ---------------------------------------------------------------------------
  // Entry names

  /** The bytes `readAsciiZ` collects from `i` on, `n` having been collected already. */
  function AsciiZ(raw: seq<byte>, i: nat, n: nat): seq<byte>
    decreases |raw| - i
  {
    if i >= |raw| || raw[i] == 0 then []
    else if n + 1 > 256 then [raw[i]]
    else [raw[i]] + AsciiZ(raw, i + 1, n + 1)
  }

  /** `readAsciiZ`: bytes up to the first zero byte or the end of the file,
      stopping after 257 bytes. */
  method ReadAsciiZ(raw: seq<byte>, offset: nat) returns (name: seq<byte>)
    ensures name == AsciiZ(raw, offset, 0)
  {
    name := [];
    var i := offset;
    while i < |raw|
      invariant offset <= i && i - offset == |name| <= 256
      invariant name + AsciiZ(raw, i, |name|) == AsciiZ(raw, offset, 0)
      decreases |raw| - i
    {
      var b := raw[i];
      if b == 0 {
        break;
      }
      name := name + [b];
      if |name| > 256 {
        return;
      }
      i := i + 1;
    }
  }

  /** The collected name is the file's bytes from `i`, holds no zero byte, has at most
      `257 - n` bytes, and stops only at a zero byte, the end of the file or that bound. */
  lemma {:induction false} AsciiZShape(raw: seq<byte>, i: nat, n: nat)
    requires n <= 256
    ensures var s := AsciiZ(raw, i, n);
      |s| <= 257 - n && (|s| > 0 ==> i + |s| <= |raw| && s == raw[i..i + |s|])
      && (forall k :: 0 <= k < |s| ==> s[k] != 0)
      && (|s| == 257 - n || i + |s| >= |raw| || raw[i + |s|] == 0)
    decreases |raw| - i
  {
    if !(i >= |raw| || raw[i] == 0) && n + 1 <= 256 {
      AsciiZShape(raw, i + 1, n + 1);
      var rest := AsciiZ(raw, i + 1, n + 1);
      assert AsciiZ(raw, i, n) == [raw[i]] + rest;
      if |rest| > 0 {
        assert raw[i..i + 1 + |rest|] == [raw[i]] + raw[i + 1..i + 1 + |rest|];
      }
    }
  }

  predicate IsDigit(b: byte) { 0x30 <= b <= 0x39 }

  /** The characters `parseInt` skips before the number: tab, line feed, vertical tab,
      form feed, carriage return, space and no-break space. */
  predicate IsSpace(b: byte) { 0x09 <= b <= 0x0D || b == 0x20 || b == 0xA0 }

  /** The index of the first non-space byte at or after `i`. */
  function SkipSpace(s: seq<byte>, i: nat): (j: nat)
    decreases |s| - i
    ensures i <= j && (j < |s| ==> !IsSpace(s[j]))
    ensures forall k :: i <= k < j && k < |s| ==> IsSpace(s[k])
  {
    if i < |s| && IsSpace(s[i]) then SkipSpace(s, i + 1) else i
  }

  /** The number of consecutive digits at `i`. */
  function DigitRun(s: seq<byte>, i: nat): (n: nat)
    decreases |s| - i
    ensures i + n <= |s| || n == 0
    ensures forall k :: i <= k < i + n ==> IsDigit(s[k])
    ensures i + n < |s| ==> !IsDigit(s[i + n])
  {
    if i < |s| && IsDigit(s[i]) then 1 + DigitRun(s, i + 1) else 0
  }

  /** The value of a string of decimal digits. */
  function DigitsValue(ds: seq<byte>): nat
    requires forall k :: 0 <= k < |ds| ==> IsDigit(ds[k])
  {
    if ds == [] then 0
    else
      assert IsDigit(ds[|ds| - 1]);
      10 * DigitsValue(ds[..|ds| - 1]) + (ds[|ds| - 1] as int - 0x30)
  }

  /** `parseInt(s, 10)`: optional leading space, an optional sign, then the longest run
      of digits; `None` (NaN) when there is no digit. */
  function ParseInt(s: seq<byte>): Option<int>
  {
    var i := SkipSpace(s, 0);
    var neg := i < |s| && s[i] == 0x2D;
    var j := if i < |s| && (s[i] == 0x2D || s[i] == 0x2B) then i + 1 else i;
    var n := DigitRun(s, j);
    if n == 0 then None
    else
      var v: int := DigitsValue(s[j..j + n]);
      Some(if neg then -v else v)
  }

  /** The index an entry name declares: its `USERDATA_` suffix parsed as an integer. */
  function UserdataIndex(name: seq<byte>): Option<int>
  {
    if |name| > 0 && UserdataPrefix <= name then ParseInt(name[|UserdataPrefix|..]) else None
  }

  /** Two-digit decimal, as the Python writer formats entry indices below 100. */
  function TwoDigits(n: nat): (ds: seq<byte>)
    requires n < 100
    ensures |ds| == 2 && IsDigit(ds[0]) && IsDigit(ds[1])
  {
    [0x30 + n / 10, 0x30 + n % 10]
  }

  /** A digit run followed by anything that is not a digit parses to the run's value. */
  lemma ParseDigits(ds: seq<byte>, rest: seq<byte>)
    requires |ds| > 0 && (forall k :: 0 <= k < |ds| ==> IsDigit(ds[k]))
    requires rest == [] || !IsDigit(rest[0])
    ensures ParseInt(ds + rest) == Some(DigitsValue(ds))
  {
    var s := ds + rest;
    assert !IsSpace(s[0]) && s[0] != 0x2D && s[0] != 0x2B;
    assert SkipSpace(s, 0) == 0;
    var n := DigitRun(s, 0);
    assert forall k :: 0 <= k < |ds| ==> s[k] == ds[k];
    assert |rest| > 0 ==> s[|ds|] == rest[0];
    assert n == |ds|;
    assert s[0..n] == ds;
  }

  /** `USERDATA_` followed by a two-digit index names exactly that index. */
  lemma UserdataNameRoundTrip(n: nat, rest: seq<byte>)
    requires n < 100
    requires rest == [] || !IsDigit(rest[0])
    ensures UserdataIndex(UserdataPrefix + TwoDigits(n) + rest) == Some(n)
  {
    var name := UserdataPrefix + TwoDigits(n) + rest;
    assert UserdataPrefix <= name;
    assert name[|UserdataPrefix|..] == TwoDigits(n) + rest;
    ParseDigits(TwoDigits(n), rest);
    var ds := TwoDigits(n);
    assert ds[..1] == [ds[0]];
    assert DigitsValue(ds) == 10 * DigitsValue(ds[..1]) + (ds[1] - 0x30);
    assert DigitsValue(ds[..1]) == n / 10;
  }

  /** Names without the prefix, and empty names, declare no index. */
  lemma NonUserdataName(name: seq<byte>)
    requires !(UserdataPrefix <= name)
    ensures UserdataIndex(name) == None
  {
  }

  // ---------------------------------------------------------------------------
  // Entries

  /** Plaintext plus 12 zero bytes, plus `footer` more when it is positive. */
  function Pad(plain: seq<byte>, footer: int): (out: seq<byte>)
    ensures |out| == |plain| + PaddingSize + Max(0, footer)
    ensures out[..|plain|] == plain
    ensures forall k :: |plain| <= k < |out| ==> out[k] == 0
  {
    plain + Zeros(PaddingSize) + (if footer > 0 then Zeros(footer) else [])
  }

  /** The PKCS#7 padding block of `n` bytes, each of value `n`. */
  function PadBlock(n: nat): (b: seq<byte>)
    requires 1 <= n <= 16
    ensures |b| == n && forall k :: 0 <= k < n ==> b[k] == n
  {
    seq(n, _ => n)
  }

  /** The padding check WebCrypto's AES-CBC decryption makes on the raw blocks: the last
      byte `n` is between 1 and 16 and the last `n` bytes all equal `n`. */
  predicate ValidPkcs7(p: seq<byte>)
  {
    |p| > 0 && 1 <= p[|p| - 1] <= 16 && p[|p| - 1] <= |p|
    && forall k :: |p| - p[|p| - 1] <= k < |p| ==> p[k] == p[|p| - 1]
  }

  /** What `crypto.subtle.decrypt` with AES-CBC returns for the raw blocks: the blocks
      without their PKCS#7 padding, or `None` (an `OperationError`) when the padding is
      malformed, the empty plaintext included. */
  function Pkcs7Unpad(p: seq<byte>): (r: Option<seq<byte>>)
    ensures r.Some? <==> ValidPkcs7(p)
    ensures r.Some? ==> |r.value| < |p| && exists n :: 1 <= n <= 16 && p == r.value + PadBlock(n)
  {
    if ValidPkcs7(p) then
      var n := p[|p| - 1];
      assert p == p[..|p| - n] + PadBlock(n);
      Some(p[..|p| - n])
    else None
  }

  /** Unpadding removes exactly an appended padding block. */
  lemma Pkcs7RoundTrip(x: seq<byte>, n: nat)
    requires 1 <= n <= 16
    ensures Pkcs7Unpad(x + PadBlock(n)) == Some(x)
  {
    var p := x + PadBlock(n);
    assert p[|p| - 1] == n;
    assert p[..|p| - n] == x;
  }

  /** The unpadded plaintext is `x` exactly when the raw blocks are `x` followed by
      a padding block. */
  lemma Pkcs7UnpadExactly(p: seq<byte>, x: seq<byte>)
    ensures Pkcs7Unpad(p) == Some(x) <==> exists n :: 1 <= n <= 16 && p == x + PadBlock(n)
  {
    if exists n :: 1 <= n <= 16 && p == x + PadBlock(n) {
      var n :| 1 <= n <= 16 && p == x + PadBlock(n);
      Pkcs7RoundTrip(x, n);
    }
    if Pkcs7Unpad(p) == Some(x) {
      var n :| 1 <= n <= 16 && p == Pkcs7Unpad(p).value + PadBlock(n);
      assert p == x + PadBlock(n);
    }
  }

  /** The browser's admission check: positive size and data offset, data inside the file. */
  predicate AdmittedJs(raw: seq<byte>, h: EntryHeader)
  {
    0 < h.size && 0 < h.dataOffset && h.dataOffset + h.size <= |raw|
  }

  /** The index declared by the entry's name, when the name offset is inside the file. */
  function NameIndex(raw: seq<byte>, h: EntryHeader): Option<int>
  {
    if 0 < h.nameOffset < |raw| then UserdataIndex(AsciiZ(raw, h.nameOffset, 0)) else None
  }

  /** What one iteration yields for entry `i`: `Ok(None)` when skipped, an error when
      decryption or the padding check fails (the whole parse rejects). */
  function EntryOutcomeJs(raw: seq<byte>, i: nat, aes: Decryptor): Result<Option<JsEntry>, string>
    requires EntryPos(i) + EntryHeaderLength <= |raw|
  {
    match ReadEntryHeaderJs(raw, EntryPos(i))
    case None => Ok(None)
    case Some(h) =>
      if !AdmittedJs(raw, h) then Ok(None)
      else match DecryptEntry(raw, h, aes)
        case None => Err("OperationError")
        case Some(blocks) =>
          match Pkcs7Unpad(blocks)
          case None => Err("OperationError")
          case Some(plain) => Ok(Some(JsEntry(Pad(plain, h.footerLength), NameIndex(raw, h))))
  }

  /** What every iteration yields, as one function of the entry index. */
  function OutcomeJsAt(raw: seq<byte>, aes: Decryptor): nat -> Result<Option<JsEntry>, string>
  {
    (i: nat) => if EntryPos(i) + EntryHeaderLength <= |raw| then EntryOutcomeJs(raw, i, aes) else Ok(None)
  }

  /** What a successful iteration pushes onto `out`. */
  function RowJs(got: Option<JsEntry>): seq<JsEntry>
  {
    match got
    case None => []
    case Some(e) => [e]
  }

  /** The buffers pushed by the first `n` iterations, or the first error thrown. */
  function CollectJs(outcome: nat -> Result<Option<JsEntry>, string>, n: nat): Result<seq<JsEntry>, string>
  {
    if n == 0 then Ok([])
    else match CollectJs(outcome, n - 1)
      case Err(e) => Err(e)
      case Ok(prev) =>
        match outcome(n - 1)
        case Err(e) => Err(e)
        case Ok(got) => Ok(prev + RowJs(got))
  }

  /** The entries of the browser's entry loop for a file whose header counts `count` entries. */
  function EntriesJs(raw: seq<byte>, count: int, aes: Decryptor): Result<seq<JsEntry>, string>
  {
    CollectJs(OutcomeJsAt(raw, aes), Stop(raw, count, 0))
  }

  /** One more iteration after `n` successful ones: it throws or pushes its row. */
  lemma CollectJsNext(outcome: nat -> Result<Option<JsEntry>, string>, n: nat, out: seq<JsEntry>,
                      got: Result<Option<JsEntry>, string>)
    requires CollectJs(outcome, n) == Ok(out) && outcome(n) == got
    ensures got.Err? ==> CollectJs(outcome, n + 1) == Err(got.error)
    ensures got.Ok? ==> CollectJs(outcome, n + 1) == Ok(out + RowJs(got.value))
  {
  }

  /** Once an iteration throws, the loop's result is that error. */
  lemma {:induction false} CollectJsErrSticks(outcome: nat -> Result<Option<JsEntry>, string>, m: nat, n: nat)
    requires m <= n && CollectJs(outcome, m).Err?
    ensures CollectJs(outcome, n) == CollectJs(outcome, m)
    decreases n - m
  {
    if m < n {
      CollectJsErrSticks(outcome, m, n - 1);
    }
  }

  /** The loop throws exactly when one of its iterations does, and then with the first
      such error; otherwise it pushes at most one buffer per iteration. */
  lemma {:induction false} CollectJsErr(outcome: nat -> Result<Option<JsEntry>, string>, n: nat)
    ensures CollectJs(outcome, n).Err? <==> exists j :: 0 <= j < n && outcome(j).Err?
    ensures CollectJs(outcome, n).Err? ==>
              exists j :: 0 <= j < n && outcome(j) == Err(CollectJs(outcome, n).error)
                          && (forall k :: 0 <= k < j ==> outcome(k).Ok?)
    ensures CollectJs(outcome, n).Ok? ==> |CollectJs(outcome, n).value| <= n
  {
    if n > 0 {
      CollectJsErr(outcome, n - 1);
      if CollectJs(outcome, n - 1).Ok? && outcome(n - 1).Err? {
        assert forall k :: 0 <= k < n - 1 ==> outcome(k).Ok?;
      }
    }
  }

  /** The named entries, in decryption order. */
  function Named(es: seq<JsEntry>): (us: seq<Userdata>)
    ensures |us| <= |es|
    ensures forall u :: u in us <==> exists k :: 0 <= k < |es| && es[k].index == Some(u.idx) && es[k].plain == u.plain
  {
    if es == [] then []
    else Named(es[..|es| - 1])
         + (var e := es[|es| - 1]; if e.index.Some? then [Userdata(e.index.value, e.plain)] else [])
  }

  function Idx(u: Userdata): int { u.idx }

  function PlainsJs(es: seq<JsEntry>): seq<seq<byte>>
  {
    seq(|es|, k requires 0 <= k < |es| => es[k].plain)
  }

  function UserdataPlains(us: seq<Userdata>): seq<seq<byte>>
  {
    seq(|us|, k requires 0 <= k < |us| => us[k].plain)
  }

  /** The buffers returned: named entries sorted by index when there are exactly
      fourteen of them, otherwise every entry in decryption order. */
  function OrderBuffers(es: seq<JsEntry>): seq<seq<byte>>
  {
    var named := Named(es);
    if |named| == 14 then UserdataPlains(StableSort.SortBy(named, Idx)) else PlainsJs(es)
  }

  /** The body of the entry loop for entry `i`: the header, the admission checks,
      decryption with WebCrypto's padding removal (a failure rejects), zero padding,
      and the entry name. */
  method ProcessEntryJs(raw: seq<byte>, i: nat, aes: Decryptor) returns (r: Result<Option<JsEntry>, string>)
    requires EntryPos(i) + EntryHeaderLength <= |raw|
    ensures r == EntryOutcomeJs(raw, i, aes)
  {
    var header := ReadEntryHeaderJs(raw, EntryPos(i));
    if header.None? {
      return Ok(None);
    }
    var h := header.value;
    if h.size <= 0 || h.dataOffset <= 0 {
      return Ok(None);
    }
    if h.dataOffset + h.size > |raw| {
      return Ok(None);
    }
    var blocks := DecryptEntry(raw, h, aes);
    if blocks.None? {
      return Err("OperationError");
    }
    var plain := Pkcs7Unpad(blocks.value);
    if plain.None? {
      return Err("OperationError");
    }
    var finalPlain := Pad(plain.value, h.footerLength);
    var index: Option<int> := None;
    if 0 < h.nameOffset < |raw| {
      var name := ReadAsciiZ(raw, h.nameOffset);
      index := UserdataIndex(name);
    }
    return Ok(Some(JsEntry(finalPlain, index)));
  }

  /** The entry loop: decrypt entries `0 .. count - 1` until the file runs out of headers. */
  method DecryptEntriesJs(raw: seq<byte>, count: int, aes: Decryptor) returns (r: Result<seq<JsEntry>, string>)
    ensures r == EntriesJs(raw, count, aes)
  {
    var out: seq<JsEntry> := [];
    var i: nat := 0;
    while i < count
      invariant Stop(raw, count, i) == Stop(raw, count, 0)
      invariant CollectJs(OutcomeJsAt(raw, aes), i) == Ok(out)
      decreases count - i
    {
      if EntryPos(i) + EntryHeaderLength > |raw| {
        break;
      }
      var got := ProcessEntryJs(raw, i, aes);
      CollectJsNext(OutcomeJsAt(raw, aes), i, out, got);
      if got.Err? {
        CollectJsErrSticks(OutcomeJsAt(raw, aes), i + 1, Stop(raw, count, 0));
        return Err(got.error);
      }
      out := out + RowJs(got.value);
      i := i + 1;
    }
    return Ok(out);
  }

  /** `expectBND4Header` reads bytes 0 to 3 in turn and stops at the first that differs
      from "BND4"; so the header is rejected exactly when some byte that is present
      differs, before any read past the end could fail. */
  predicate HeaderMismatch(raw: seq<byte>)
  {
    exists k :: 0 <= k < 4 && k < |raw| && raw[k] != Magic[k]
  }

  /** Every error of the entry loop is WebCrypto's `OperationError`. */
  lemma {:induction false} CollectJsOperationError(raw: seq<byte>, aes: Decryptor, n: nat)
    ensures CollectJs(OutcomeJsAt(raw, aes), n).Err? ==>
      CollectJs(OutcomeJsAt(raw, aes), n).error == "OperationError"
  {
    if n > 0 {
      CollectJsOperationError(raw, aes, n - 1);
    }
  }

  /** `parseAndDecryptUserdataBuffers`: "'BND4' header not found" when a present header
      byte differs, a `RangeError` when the file ends before byte 16 otherwise, an
      `OperationError` when an entry fails to decrypt, and else the ordered buffers. */
  method ParseAndDecrypt(raw: seq<byte>, aes: Decryptor) returns (r: Result<seq<seq<byte>>, string>)
    ensures r.Err? <==> !HasMagic(raw) || |raw| < 16 || EntriesJs(raw, EntryCount(raw), aes).Err?
    ensures r == Err("'BND4' header not found") <==> HeaderMismatch(raw)
    ensures r == Err("RangeError") <==> !HeaderMismatch(raw) && |raw| < 16
    ensures r == Err("OperationError") <==> HasMagic(raw) && 16 <= |raw| && EntriesJs(raw, EntryCount(raw), aes).Err?
    ensures r.Ok? ==> r.value == OrderBuffers(EntriesJs(raw, EntryCount(raw), aes).value)
  {
    if |raw| < 1 {
      return Err("RangeError");
    }
    if raw[0] != 0x42 {
      return Err("'BND4' header not found");
    }
    if |raw| < 2 {
      return Err("RangeError");
    }
    if raw[1] != 0x4E {
      return Err("'BND4' header not found");
    }
    if |raw| < 3 {
      return Err("RangeError");
    }
    if raw[2] != 0x44 {
      return Err("'BND4' header not found");
    }
    if |raw| < 4 {
      return Err("RangeError");
    }
    if raw[3] != 0x34 {
      assert raw[..4] != Magic;
      return Err("'BND4' header not found");
    }
    assert raw[..4] == Magic;
    if |raw| < 16 {
      return Err("RangeError");
    }
    CollectJsOperationError(raw, aes, Stop(raw, EntryCount(raw), 0));
    var entries := DecryptEntriesJs(raw, I32(raw, 12), aes);
    if entries.Err? {
      return Err(entries.error);
    }
    var out := entries.value;
    var named := Named(out);
    if |named| == 14 {
      var sorted := StableSort.SortBy(named, Idx);
      return Ok(UserdataPlains(sorted));
    }
    return Ok(PlainsJs(out));
  }

  /** Fourteen named entries come back as a permutation of their buffers in
      non-decreasing index order, equal indices keeping decryption order. */
  lemma OrderedByIndex(es: seq<JsEntry>)
    requires |Named(es)| == 14
    ensures |OrderBuffers(es)| == 14
    ensures var sorted := StableSort.SortBy(Named(es), Idx);
      multiset(sorted) == multiset(Named(es)) && StableSort.SortedBy(sorted, Idx)
      && (forall k :: StableSort.WithKey(sorted, Idx, k) == StableSort.WithKey(Named(es), Idx, k))
      && (forall k :: 0 <= k < 14 ==> OrderBuffers(es)[k] == sorted[k].plain)
  {
    StableSort.SortFacts(Named(es), Idx);
    StableSort.SortLength(Named(es), Idx);
  }

  /** Names already in index order keep their decryption order. */
  lemma NamedInOrderKeepsOrder(es: seq<JsEntry>)
    requires |Named(es)| == 14 && StableSort.SortedBy(Named(es), Idx)
    ensures OrderBuffers(es) == UserdataPlains(Named(es))
  {
    StableSort.SortSortedIsIdentity(Named(es), Idx);
  }

  /** Without exactly fourteen names, the buffers are every entry in decryption order. */
  lemma UnnamedKeepsDecryptionOrder(es: seq<JsEntry>)
    requires |Named(es)| != 14
    ensures |OrderBuffers(es)| == |es| && forall k :: 0 <= k < |es| ==> OrderBuffers(es)[k] == es[k].plain
  {
  }

  /** Where the Python extractor keeps the raw blocks `plain` of an entry, the browser
      keeps them without their PKCS#7 padding, padded with zeros, when the padding is
      well formed, and rejects the whole parse otherwise. */
  lemma JsOutcomeOfPythonEntry(raw: seq<byte>, i: nat, aes: Decryptor, h: EntryHeader, plain: seq<byte>)
    requires EntryPos(i) + EntryHeaderLength <= |raw|
    requires ReadEntryHeader(raw, EntryPos(i)) == Some(h)
    requires 0 < h.size && 0 < h.dataOffset && h.dataOffset + h.size <= |raw|
    requires DecryptEntry(raw, h, aes) == Some(plain)
    ensures !ValidPkcs7(plain) ==> EntryOutcomeJs(raw, i, aes) == Err("OperationError")
    ensures ValidPkcs7(plain) ==>
      EntryOutcomeJs(raw, i, aes) == Ok(Some(JsEntry(Pad(Pkcs7Unpad(plain).value, h.footerLength), NameIndex(raw, h))))
  {
    EntryHeaderReadersAgree(raw, EntryPos(i));
  }

  /** A well-padded entry gives the browser a buffer shorter than Python's plaintext plus
      the zero padding by the padding length, the plaintext's last byte. */
  lemma JsBufferShorter(plain: seq<byte>, footer: int)
    requires ValidPkcs7(plain)
    ensures |Pad(Pkcs7Unpad(plain).value, footer)| == |Pad(plain, footer)| - plain[|plain| - 1]
  {
  }

  /** An entry the browser reaches whose raw blocks fail the padding check, for instance
      ones ending in a zero byte that Python keeps, rejects the whole browser parse. */
  lemma BadPaddingRejectsParse(raw: seq<byte>, count: int, aes: Decryptor, i: nat, h: EntryHeader, plain: seq<byte>)
    requires i < Stop(raw, count, 0)
    requires EntryPos(i) + EntryHeaderLength <= |raw|
    requires ReadEntryHeader(raw, EntryPos(i)) == Some(h)
    requires 0 < h.size && 0 < h.dataOffset && h.dataOffset + h.size <= |raw|
    requires DecryptEntry(raw, h, aes) == Some(plain) && !ValidPkcs7(plain)
    ensures EntriesJs(raw, count, aes).Err?
  {
    JsOutcomeOfPythonEntry(raw, i, aes, h, plain);
    assert OutcomeJsAt(raw, aes)(i).Err?;
    CollectJsErr(OutcomeJsAt(raw, aes), Stop(raw, count, 0));
  }

  /** `concatBuffers`: allocate the total length, then copy each buffer at a running offset. */
  method ConcatBuffers(buffers: seq<seq<byte>>) returns (joined: seq<byte>)
    ensures joined == Flatten(buffers)
  {
    FlattenLength(buffers);
    var total := Offset(buffers, |buffers|);
    var out := new byte[total];
    var offset := 0;
    for k := 0 to |buffers|
      invariant offset == Offset(buffers, k)
      invariant offset <= total
      invariant out[..offset] == Flatten(buffers[..k])
    {
      var b := buffers[k];
      FlattenPlacement(buffers, k);
      OffsetMonotone(buffers, k + 1, |buffers|);
      for j := 0 to |b|
        invariant out[..offset + j] == Flatten(buffers[..k]) + b[..j]
      {
        out[offset + j] := b[j];
        assert out[..offset + j + 1] == out[..offset + j] + [b[j]];
        assert b[..j + 1] == b[..j] + [b[j]];
      }
      assert buffers[..k + 1][..k] == buffers[..k];
      assert b[..|b|] == b;
      offset := offset + |b|;
    }
    assert buffers[..|buffers|] == buffers;
    return out[..];
  }
}

=== FILE: container_py.dfy ===
/**
 * The Python extractor's container stage (`decrypt_ds2_sl2`, `merge_userdata_files`):
 * decrypt every admissible BND4 entry, skipping the ones that fail, then join
 * exactly fourteen decrypted entries into one memory image.
 */
module ContainerPy {
  import opened Wrappers
  import opened Bytes
  import opened Bnd4

  /** A decrypted entry, written out as `USERDATA_<index>`. */
  datatype Decrypted = Decrypted(index: nat, plain: seq<byte>)

  /** The merged memory image and the size of each part (`userdata_sizes.json`). */
  datatype Merged = Merged(image: seq<byte>, sizes: seq<nat>)

  /** The validity checks on an entry header: size in (0, 10^9], data inside the
      file, name offset inside the file. */
  predicate Admitted(raw: seq<byte>, h: EntryHeader)
  {
    0 < h.size <= 1_000_000_000 && 0 < h.dataOffset && h.dataOffset + h.size <= |raw|
    && 0 < h.nameOffset < |raw|
  }

  /** What one iteration of the entry loop yields for entry `i`: the plaintext, or
      `None` when the header is missing, inadmissible, or decryption fails. */
  function EntryOutcome(raw: seq<byte>, i: nat, aes: Decryptor): Option<seq<byte>>
    requires EntryPos(i) + EntryHeaderLength <= |raw|
  {
    match ReadEntryHeader(raw, EntryPos(i))
    case None => None
    case Some(h) => if Admitted(raw, h) then DecryptEntry(raw, h, aes) else None
  }

  /** What every iteration yields, as one function of the entry index (entries whose
      header lies past the end of the file yield nothing). */
  function OutcomeAt(raw: seq<byte>, aes: Decryptor): nat -> Option<seq<byte>>
  {
    (i: nat) => if EntryPos(i) + EntryHeaderLength <= |raw| then EntryOutcome(raw, i, aes) else None
  }

  /** What iteration `i` appends: nothing, or entry `i` with its plaintext. */
  function Row(i: nat, plain: Option<seq<byte>>): seq<Decrypted>
  {
    match plain
    case None => []
    case Some(p) => [Decrypted(i, p)]
  }

  /** The entries kept by the first `n` iterations, given what each iteration yields. */
  function Collect(outcome: nat -> Option<seq<byte>>, n: nat): seq<Decrypted>
  {
    if n == 0 then [] else Collect(outcome, n - 1) + Row(n - 1, outcome(n - 1))
  }

  /** One more iteration appends its row. */
  lemma CollectNext(outcome: nat -> Option<seq<byte>>, i: nat, plain: Option<seq<byte>>)
    requires outcome(i) == plain
    ensures Collect(outcome, i + 1) == Collect(outcome, i) + Row(i, plain)
  {
  }

  /** The entries `decrypt_ds2_sl2` writes out for a file whose header counts `count` entries. */
  function Entries(raw: seq<byte>, count: int, aes: Decryptor): seq<Decrypted>
  {
    Collect(OutcomeAt(raw, aes), Stop(raw, count, 0))
  }

  /** The body of the entry loop for entry `i`: the validity checks in order, then decryption. */
  method ProcessEntry(raw: seq<byte>, i: nat, aes: Decryptor) returns (plain: Option<seq<byte>>)
    requires EntryPos(i) + EntryHeaderLength <= |raw|
    ensures plain == EntryOutcome(raw, i, aes)
  {
    var header := ReadEntryHeader(raw, EntryPos(i));
    if header.None? {
      return None;
    }
    var h := header.value;
    if h.size <= 0 || h.size > 1_000_000_000 {
      return None;
    }
    if h.dataOffset <= 0 || h.dataOffset + h.size > |raw| {
      return None;
    }
    if h.nameOffset <= 0 || h.nameOffset >= |raw| {
      return None;
    }
    plain := DecryptEntry(raw, h, aes);
  }

  /** The entry loop of `decrypt_ds2_sl2` over entries `0 .. count - 1`. */
  method DecryptEntriesFrom(raw: seq<byte>, count: int, aes: Decryptor) returns (entries: seq<Decrypted>)
    ensures entries == Entries(raw, count, aes)
  {
    entries := [];
    var i: nat := 0;
    while i < count
      invariant Stop(raw, count, i) == Stop(raw, count, 0)
      invariant entries == Collect(OutcomeAt(raw, aes), i)
      decreases count - i
    {
      if EntryPos(i) + EntryHeaderLength > |raw| {
        break;
      }
      var plain := ProcessEntry(raw, i, aes);
      CollectNext(OutcomeAt(raw, aes), i, plain);
      entries := entries + Row(i, plain);
      i := i + 1;
    }
  }

  /** `decrypt_ds2_sl2`: `None` for a file without the BND4 signature or too short
      to hold the entry count; otherwise the decrypted entries in index order. */
  method DecryptEntries(raw: seq<byte>, aes: Decryptor) returns (r: Option<seq<Decrypted>>)
    ensures r.None? <==> !HasMagic(raw) || |raw| < 16
    ensures r.Some? ==> r.value == Entries(raw, EntryCount(raw), aes)
  {
    if |raw| < 4 || raw[0..4] != Magic {
      return None;
    }
    if |raw| < 16 {
      return None;
    }
    var entries := DecryptEntriesFrom(raw, I32(raw, 12), aes);
    return Some(entries);
  }

  /** Entry `j` is inside the file and its iteration yields a plaintext. */
  predicate Yields(raw: seq<byte>, j: nat, aes: Decryptor)
  {
    EntryPos(j) + EntryHeaderLength <= |raw| && EntryOutcome(raw, j, aes).Some?
  }

  /** Every entry kept by the first `n` iterations has an index below `n` and is what
      that iteration yielded; the indices strictly increase. */
  lemma {:induction false} CollectSound(outcome: nat -> Option<seq<byte>>, n: nat)
    ensures forall e :: e in Collect(outcome, n) ==> e.index < n && outcome(e.index) == Some(e.plain)
    ensures forall a, b :: 0 <= a < b < |Collect(outcome, n)| ==> Collect(outcome, n)[a].index < Collect(outcome, n)[b].index
  {
    if n > 0 {
      CollectSound(outcome, n - 1);
      var prev := Collect(outcome, n - 1);
      var all := Collect(outcome, n);
      forall a, b | 0 <= a < b < |all| ensures all[a].index < all[b].index {
        if b >= |prev| {
          assert all[a] in prev;
        }
      }
    }
  }

  /** Every iteration among the first `n` that yields a plaintext contributes its entry. */
  lemma {:induction false} CollectComplete(outcome: nat -> Option<seq<byte>>, n: nat, j: nat)
    requires j < n && outcome(j).Some?
    ensures Decrypted(j, outcome(j).value) in Collect(outcome, n)
  {
    if j < n - 1 {
      CollectComplete(outcome, n - 1, j);
    }
  }

  /** `decrypt_ds2_sl2` keeps exactly the entries below the count whose header lies in
      the file, passes the checks and decrypts, each with its own plaintext, in index order. */
  lemma EntriesExactly(raw: seq<byte>, count: int, aes: Decryptor)
    ensures forall e :: e in Entries(raw, count, aes) ==>
              e.index < count && Yields(raw, e.index, aes) && e.plain == EntryOutcome(raw, e.index, aes).value
    ensures forall j: nat :: j < count && Yields(raw, j, aes) ==>
              Decrypted(j, EntryOutcome(raw, j, aes).value) in Entries(raw, count, aes)
    ensures forall a, b :: 0 <= a < b < |Entries(raw, count, aes)| ==>
              Entries(raw, count, aes)[a].index < Entries(raw, count, aes)[b].index
  {
    var n := Stop(raw, count, 0);
    var outcome := OutcomeAt(raw, aes);
    CollectSound(outcome, n);
    forall e | e in Entries(raw, count, aes)
      ensures e.index < count && Yields(raw, e.index, aes) && e.plain == EntryOutcome(raw, e.index, aes).value
    {
      assert outcome(e.index).Some?;
    }
    forall j: nat | j < count && Yields(raw, j, aes)
      ensures Decrypted(j, EntryOutcome(raw, j, aes).value) in Entries(raw, count, aes)
    {
      assert outcome(j) == EntryOutcome(raw, j, aes);
      CollectComplete(outcome, n, j);
    }
  }

  function Plains(entries: seq<Decrypted>): (ps: seq<seq<byte>>)
    ensures |ps| == |entries| && forall k :: 0 <= k < |entries| ==> ps[k] == entries[k].plain
  {
    seq(|entries|, k requires 0 <= k < |entries| => entries[k].plain)
  }

  function Sizes(entries: seq<Decrypted>): (ns: seq<nat>)
    ensures |ns| == |entries| && forall k :: 0 <= k < |entries| ==> ns[k] == |entries[k].plain|
  {
    seq(|entries|, k requires 0 <= k < |entries| => |entries[k].plain|)
  }

  /** `merge_userdata_files`: `None` unless exactly fourteen entries were decrypted;
      otherwise their concatenation in file-name order, and their sizes. */
  method MergeUserdata(entries: seq<Decrypted>) returns (r: Option<Merged>)
    ensures r.None? <==> |entries| != 14
    ensures r.Some? ==> r.value.image == Flatten(Plains(entries)) && r.value.sizes == Sizes(entries)
  {
    if |entries| != 14 {
      return None;
    }
    var image: seq<byte> := [];
    var sizes: seq<nat> := [];
    for k := 0 to |entries|
      invariant image == Flatten(Plains(entries[..k]))
      invariant sizes == Sizes(entries[..k])
    {
      assert Plains(entries[..k + 1]) == Plains(entries[..k]) + [entries[k].plain];
      FlattenAppend(Plains(entries[..k]), [entries[k].plain]);
      assert Flatten([entries[k].plain]) == entries[k].plain by {
        assert Flatten<byte>([]) == [];
      }
      image := image + entries[k].plain;
      sizes := sizes + [|entries[k].plain|];
    }
    assert entries[..|entries|] == entries;
    return Some(Merged(image, sizes));
  }

  /** The memory image: the fourteen decrypted entries joined in index order. */
  function MemoryImage(raw: seq<byte>, aes: Decryptor): Option<seq<byte>>
  {
    if !HasMagic(raw) || |raw| < 16 then None
    else
      var entries := Entries(raw, EntryCount(raw), aes);
      if |entries| != 14 then None else Some(Flatten(Plains(entries)))
  }

  /** `merge_userdata_files`: decrypt the container, then merge; `None` when decryption
      fails or does not yield exactly fourteen entries. */
  method MergeUserdataFiles(raw: seq<byte>, aes: Decryptor) returns (r: Option<Merged>)
    ensures r.None? <==> MemoryImage(raw, aes).None?
    ensures r.Some? ==> r.value.image == MemoryImage(raw, aes).value
    ensures r.Some? ==> r.value.sizes == Sizes(Entries(raw, EntryCount(raw), aes))
  {
    var entries := DecryptEntries(raw, aes);
    if entries.None? {
      return None;
    }
    r := MergeUserdata(entries.value);
  }

  /** In the merged image, part `k` starts where the sizes of the earlier parts add up to,
      and the image is as long as all sizes together. */
  lemma MergedLayout(entries: seq<Decrypted>, k: nat)
    requires k < |entries|
    ensures Offset(Plains(entries), k + 1) == Offset(Plains(entries), k) + |entries[k].plain|
    ensures Offset(Plains(entries), k + 1) <= |Flatten(Plains(entries))|
    ensures Flatten(Plains(entries))[Offset(Plains(entries), k)..Offset(Plains(entries), k + 1)] == entries[k].plain
    ensures |Flatten(Plains(entries))| == Offset(Plains(entries), |entries|)
  {
    FlattenPlacement(Plains(entries), k);
    FlattenLength(Plains(entries));
  }
}

=== FILE: effect_utils.dfy ===
/**
 * The client's effect and asset helpers (`utils.js`): effect-name lookup through
 * an id-to-name map, nightfarer-tagged effect names, image URL slugs, relic
 * descriptions and capitalisation.
 */
module EffectUtils {
  import opened Wrappers
  import opened Text
  import opened CalcModel

  /** The id the game stores in an empty effect slot: 2^32 - 1. */
  const EmptySlotId: int := 4294967295

  /** An entry of the effect table: its display name, the ids that carry it, and
      whether it belongs to the Deep of Night mode. */
  datatype Effect = Effect(name: string, ids: seq<int>, deep: bool)

  /** An entry of the relic description table. */
  datatype RelicInfo = RelicInfo(description: Option<string>)

  // ---------------------------------------------------------------------------
  // capitalize / formatEffectName

  /** `capitalize` on a string: the first character upper-cased, the rest unchanged. */
  function Capitalize(s: string): (r: string)
    ensures |r| == |s|
    ensures s != [] ==> r[0] == Upper(s[0]) && r[1..] == s[1..]
  {
    if s == [] then "" else [Upper(s[0])] + s[1..]
  }

  /** The index of the first nightfarer `c` such that the lower-cased name starts with `[c]`. */
  function FirstTagged(lname: string, nightfarers: seq<string>, i: nat): (r: Option<nat>)
    decreases |nightfarers| - i
    ensures r.Some? ==> i <= r.value < |nightfarers| && StartsWith(lname, "[" + nightfarers[r.value] + "]")
    ensures r.Some? ==> forall j :: i <= j < r.value ==> !StartsWith(lname, "[" + nightfarers[j] + "]")
    ensures r.None? ==> forall j :: i <= j < |nightfarers| ==> !StartsWith(lname, "[" + nightfarers[j] + "]")
  {
    if i >= |nightfarers| then None
    else if StartsWith(lname, "[" + nightfarers[i] + "]") then Some(i)
    else FirstTagged(lname, nightfarers, i + 1)
  }

  /** `formatEffectName`: a name tagged `[c]` (case-insensitively) for the first matching
      nightfarer `c` becomes `[C] rest` with the rest trimmed; any other name is returned
      as is. An empty nightfarer name is falsy and never rewrites. */
  function FormatEffectName(effect: Effect, nightfarers: seq<string>): (r: string)
    ensures FirstTagged(LowerStr(effect.name), nightfarers, 0).None? ==> r == effect.name
  {
    match FirstTagged(LowerStr(effect.name), nightfarers, 0)
    case None => effect.name
    case Some(k) =>
      var c := nightfarers[k];
      if c == "" then effect.name
      else "[" + Capitalize(c) + "] " + Trim(Drop(effect.name, |c| + 3))
  }

  /** Nightfarer names as the table holds them: lower case, no closing bracket. */
  predicate PlainNames(nightfarers: seq<string>)
  {
    forall j :: 0 <= j < |nightfarers| ==> LowerStr(nightfarers[j]) == nightfarers[j] && ']' !in nightfarers[j]
  }

  /** Where the tag `[d]` heads `[c] ...`: a shorter `d` puts `]` inside `c`, a longer
      `d` holds `]` itself, and one of the same length is `c`. */
  lemma TagPrefix(c: string, d: string, rest: string)
    ensures StartsWith("[" + c + "]" + rest, "[" + d + "]") && |d| < |c| ==> ']' in c
    ensures StartsWith("[" + c + "]" + rest, "[" + d + "]") && |d| > |c| ==> ']' in d
    ensures StartsWith("[" + c + "]" + rest, "[" + d + "]") && |d| == |c| ==> d == c
  {
    var s := "[" + c + "]" + rest;
    var t := "[" + d + "]";
    if StartsWith(s, t) {
      if |d| < |c| {
        assert s[|d| + 1] == c[|d|] && t[|d| + 1] == ']';
        assert c[|d|] in c;
      } else if |d| > |c| {
        assert s[|c| + 1] == ']' && t[|c| + 1] == d[|c|];
        assert d[|c|] in d;
      } else {
        assert forall k :: 0 <= k < |c| ==> c[k] == s[k + 1] == t[k + 1] == d[k];
      }
    }
  }

  /** A tag `[d]` at the head of `[c] ...` is the tag `[c]` itself when neither name holds `]`. */
  lemma TagIsUnique(c: string, d: string, rest: string)
    requires ']' !in c && ']' !in d
    requires StartsWith("[" + c + "]" + rest, "[" + d + "]")
    ensures d == c
  {
    TagPrefix(c, d, rest);
  }

  /** Capitalising a lower-case name and lower-casing it again gives the name back. */
  lemma LowerCapitalize(c: string)
    requires LowerStr(c) == c
    ensures LowerStr(Capitalize(c)) == c
  {
    if c != [] {
      assert Lower(c[0]) == c[0];
      assert Lower(Upper(c[0])) == c[0];
    }
  }

  /** The capitalised tag lower-cases back to the tag of a lower-case name. */
  lemma LowerTag(c: string)
    requires LowerStr(c) == c
    ensures LowerStr("[" + Capitalize(c) + "]") == "[" + c + "]"
  {
    var t := "[" + Capitalize(c) + "]";
    LowerCapitalize(c);
    forall k | 0 <= k < |t| ensures LowerStr(t)[k] == ("[" + c + "]")[k] {
      if 0 < k < |t| - 1 {
        assert t[k] == Capitalize(c)[k - 1];
        assert LowerStr(Capitalize(c))[k - 1] == c[k - 1];
      }
    }
  }

  /** The rewritten name lower-cases to `[c]` followed by the lower-cased rest, and
      dropping the tag and the space gives the rest back. */
  lemma RewrittenShape(c: string, rest: string)
    requires LowerStr(c) == c
    ensures LowerStr("[" + Capitalize(c) + "] " + rest) == "[" + c + "]" + LowerStr(" " + rest)
    ensures Drop("[" + Capitalize(c) + "] " + rest, |c| + 3) == rest
  {
    var t := "[" + Capitalize(c) + "]";
    var r := "[" + Capitalize(c) + "] " + rest;
    assert r == t + (" " + rest);
    LowerTag(c);
    LowerConcat(t, " " + rest);
    assert r[|t| + 1..] == rest;
  }

  /** A name whose first tag was `[c]` for nightfarer `k` has it again after rewriting. */
  lemma SameTagAfterRewrite(lname: string, lr: string, nightfarers: seq<string>, k: nat, tail: string)
    requires PlainNames(nightfarers)
    requires FirstTagged(lname, nightfarers, 0) == Some(k)
    requires lr == "[" + nightfarers[k] + "]" + tail
    ensures FirstTagged(lr, nightfarers, 0) == Some(k)
  {
    var c := nightfarers[k];
    var f := FirstTagged(lr, nightfarers, 0);
    assert StartsWith(lr, "[" + c + "]");
    assert f.Some?;
    TagIsUnique(c, nightfarers[f.value], tail);
  }

  /** Formatting a formatted name changes nothing, for a table of plain nightfarer names. */
  lemma FormatIdempotent(effect: Effect, nightfarers: seq<string>)
    requires PlainNames(nightfarers)
    ensures FormatEffectName(Effect(FormatEffectName(effect, nightfarers), effect.ids, effect.deep), nightfarers)
            == FormatEffectName(effect, nightfarers)
  {
    var lname := LowerStr(effect.name);
    match FirstTagged(lname, nightfarers, 0)
    case None =>
    case Some(k) =>
      var c := nightfarers[k];
      if c != "" {
        var rest := Trim(Drop(effect.name, |c| + 3));
        var r := "[" + Capitalize(c) + "] " + rest;
        assert FormatEffectName(effect, nightfarers) == r;
        RewrittenShape(c, rest);
        SameTagAfterRewrite(lname, LowerStr(r), nightfarers, k, LowerStr(" " + rest));
        TrimIdempotent(Drop(effect.name, |c| + 3));
        assert Trim(Drop(r, |c| + 3)) == rest;
      }
  }

  // ---------------------------------------------------------------------------
  // getImageUrl

  /** The characters the slug regex removes. */
  predicate Unsafe(c: char)
  {
    c == '<' || c == '>' || c == ':' || c == '\'' || c == '"' || c == '/' || c == '\\'
    || c == '|' || c == '?' || c == '*'
  }

  /** `.replace(/[<>:'"/\\|?*']/g, '')`. */
  function RemoveUnsafe(s: string): (r: string)
    ensures |r| <= |s|
    ensures forall k :: 0 <= k < |r| ==> !Unsafe(r[k]) && r[k] in s
  {
    if s == [] then []
    else (if Unsafe(s[0]) then [] else [s[0]]) + RemoveUnsafe(s[1..])
  }

  /** `.replace(/ /g, '-')`. */
  function Dashes(s: string): (r: string)
    ensures |r| == |s|
    ensures forall k :: 0 <= k < |s| ==> r[k] == if s[k] == ' ' then '-' else s[k]
  {
    seq(|s|, k requires 0 <= k < |s| => if s[k] == ' ' then '-' else s[k])
  }

  /** The file-name slug: lower case, unsafe characters removed, spaces turned into dashes. */
  function Slug(name: string): string
  {
    Dashes(RemoveUnsafe(LowerStr(name)))
  }

  /** `getImageUrl`: empty for an empty name, otherwise `/<type>/<slug>.png`. */
  function GetImageUrl(name: string, kind: string): (url: string)
    ensures name == [] <==> url == []
    ensures name != [] ==> url == "/" + kind + "/" + Slug(name) + ".png"
  {
    if name == [] then "" else "/" + kind + "/" + Slug(name) + ".png"
  }

  /** A slug has no spaces, no unsafe characters and no upper-case letters, and is no longer than the name. */
  lemma SlugShape(name: string)
    ensures |Slug(name)| <= |name|
    ensures forall k :: 0 <= k < |Slug(name)| ==>
              Slug(name)[k] != ' ' && !Unsafe(Slug(name)[k]) && !('A' <= Slug(name)[k] <= 'Z')
  {
    var low := LowerStr(name);
    var clean := RemoveUnsafe(low);
    forall k | 0 <= k < |clean| ensures !('A' <= clean[k] <= 'Z') {
      assert clean[k] in low;
    }
  }

  /** A string with none of the characters the slug rewrites. */
  predicate SlugSafe(s: string)
  {
    forall k :: 0 <= k < |s| ==> s[k] != ' ' && !Unsafe(s[k]) && !('A' <= s[k] <= 'Z')
  }

  /** On a slug-safe string each step of the slug is the identity. */
  lemma {:induction false} SlugSafeFixed(s: string)
    requires SlugSafe(s)
    ensures LowerStr(s) == s && RemoveUnsafe(s) == s && Dashes(s) == s
  {
    if s != [] {
      assert SlugSafe(s[1..]);
      SlugSafeFixed(s[1..]);
      assert [s[0]] + s[1..] == s;
    }
  }

  /** Slugging a slug gives the same slug. */
  lemma SlugIdempotent(name: string)
    ensures Slug(Slug(name)) == Slug(name)
  {
    SlugShape(name);
    SlugSafeFixed(Slug(name));
  }

  // ---------------------------------------------------------------------------
  // getRelicDescription

  /** `getRelicDescription`: nothing for a missing or zero id, an id without an entry,
      or an entry whose description is missing or empty. */
  function GetRelicDescription(relicId: Option<int>, relicsData: map<string, RelicInfo>): (r: Option<string>)
    ensures r.Some? <==> relicId.Some? && relicId.value != 0 && DecimalString(relicId.value) in relicsData
                         && relicsData[DecimalString(relicId.value)].description.Some?
                         && relicsData[DecimalString(relicId.value)].description.value != ""
    ensures r.Some? ==> r == relicsData[DecimalString(relicId.value)].description
  {
    if relicId.None? || relicId.value == 0 then None
    else
      var key := DecimalString(relicId.value);
      if key !in relicsData then None
      else
        var d := relicsData[key].description;
        if d.None? || d.value == "" then None else d
  }

  /** Two relic ids never share a description entry. */
  lemma DescriptionKeysDistinct(a: int, b: int)
    requires a != b
    ensures DecimalString(a) != DecimalString(b)
  {
    if DecimalString(a) == DecimalString(b) {
      DecimalStringInjective(a, b);
    }
  }

  // ---------------------------------------------------------------------------
  // createEffectMap / isEffectIdKnown / getEffectName

  /** Whether `createEffectMap` takes an effect in: Deep of Night effects only when shown. */
  predicate Included(showDeepOfNight: bool, e: Effect)
  {
    !(e.deep && !showDeepOfNight)
  }

  /** The ids of a table, in iteration order. */
  function Keys(t: EffectTable): (ks: seq<int>)
    ensures |ks| == |t| && forall k :: 0 <= k < |t| ==> ks[k] == t[k].0
  {
    seq(|t|, k requires 0 <= k < |t| => t[k].0)
  }

  /** No id occurs twice in the table, as in a JS `Map`. */
  predicate DistinctKeys(t: EffectTable)
  {
    forall i, j :: 0 <= i < j < |t| ==> t[i].0 != t[j].0
  }

  /** On a table with distinct ids, the lookup finds exactly the entry stored under the id. */
  lemma MapGetDistinct(t: EffectTable, id: int, name: string)
    requires DistinctKeys(t)
    ensures MapGet(t, id) == Some(name) <==> exists k :: 0 <= k < |t| && t[k] == (id, name)
  {
    if exists k :: 0 <= k < |t| && t[k] == (id, name) {
      var k :| 0 <= k < |t| && t[k] == (id, name);
      var j :| 0 <= j < |t| && t[j] == (id, MapGet(t, id).value);
      assert j == k;
    }
  }

  /** `map.set(id, name)` on a JS `Map`: an id already present keeps its position and
      takes the new name; a new id goes at the end. */
  function MapSet(t: EffectTable, id: int, name: string): (r: EffectTable)
    ensures id in Keys(t) ==> |r| == |t| && forall k :: 0 <= k < |t| ==> r[k] == if t[k].0 == id then (id, name) else t[k]
    ensures id !in Keys(t) ==> r == t + [(id, name)]
  {
    if id in Keys(t) then seq(|t|, k requires 0 <= k < |t| => if t[k].0 == id then (id, name) else t[k])
    else t + [(id, name)]
  }

  /** Setting a name adds the id as a key at the end only when it is new, keeps the ids
      distinct, and changes the lookup of that id alone. */
  lemma MapSetFacts(t: EffectTable, id: int, name: string)
    requires DistinctKeys(t)
    ensures Keys(MapSet(t, id, name)) == if id in Keys(t) then Keys(t) else Keys(t) + [id]
    ensures DistinctKeys(MapSet(t, id, name))
    ensures forall x :: MapGet(MapSet(t, id, name), x) == if x == id then Some(name) else MapGet(t, x)
  {
    var r := MapSet(t, id, name);
    assert DistinctKeys(r);
    forall x
      ensures MapGet(r, x) == if x == id then Some(name) else MapGet(t, x)
    {
      if x == id {
        if id in Keys(t) {
          var k :| 0 <= k < |t| && Keys(t)[k] == id;
          assert r[k] == (id, name);
        } else {
          assert r[|t|] == (id, name);
        }
        MapGetDistinct(r, x, name);
      } else if MapGet(t, x).Some? {
        var v := MapGet(t, x).value;
        MapGetDistinct(t, x, v);
        var k :| 0 <= k < |t| && t[k] == (x, v);
        assert r[k] == (x, v);
        MapGetDistinct(r, x, v);
      } else {
        assert forall k :: 0 <= k < |r| ==> r[k].0 != x;
      }
    }
  }

  /** `ids.forEach(id => map.set(id, name))`. */
  function SetAll(t: EffectTable, ids: seq<int>, name: string): EffectTable
  {
    if ids == [] then t else MapSet(SetAll(t, ids[..|ids| - 1], name), ids[|ids| - 1], name)
  }

  /** The first occurrences of the elements of `s`, in the order they first occur. */
  function Dedup(s: seq<int>): (d: seq<int>)
    ensures forall x :: x in d <==> x in s
  {
    if s == [] then []
    else
      var init := s[..|s| - 1];
      assert s == init + [s[|s| - 1]];
      if s[|s| - 1] in init then Dedup(init) else Dedup(init) + [s[|s| - 1]]
  }

  /** The position of the first occurrence of `x` in `s`. */
  function FirstIndex(s: seq<int>, x: int): (k: nat)
    requires x in s
    ensures k < |s| && s[k] == x && x !in s[..k]
  {
    if s[0] == x then 0 else 1 + FirstIndex(s[1..], x)
  }

  /** Each element once, ordered by where it first occurs in `s`. */
  lemma {:induction false} DedupOrder(s: seq<int>)
    ensures forall i, j :: 0 <= i < j < |Dedup(s)| ==> Dedup(s)[i] != Dedup(s)[j]
    ensures forall i, j :: 0 <= i < j < |Dedup(s)| ==> FirstIndex(s, Dedup(s)[i]) < FirstIndex(s, Dedup(s)[j])
  {
    if s != [] {
      var init := s[..|s| - 1];
      DedupOrder(init);
      forall x | x in init
        ensures FirstIndex(s, x) == FirstIndex(init, x)
      {
        var k := FirstIndex(init, x);
        assert s[..k] == init[..k];
        FirstIndexUnique(s, x, k);
      }
      if s[|s| - 1] !in init {
        FirstIndexUnique(s, s[|s| - 1], |s| - 1);
        assert s[..|s| - 1] == init;
      }
    }
  }

  /** The first occurrence is the position holding `x` with no `x` before it. */
  lemma FirstIndexUnique(s: seq<int>, x: int, k: nat)
    requires k < |s| && s[k] == x && x !in s[..k]
    ensures FirstIndex(s, x) == k
  {
  }

  /** Setting a run of ids: the keys are those of the table followed by the new ids in
      first-occurrence order, and each set id now maps to the name. */
  lemma {:induction false} SetAllFacts(t: EffectTable, prior: seq<int>, ids: seq<int>, name: string)
    requires DistinctKeys(t) && Keys(t) == Dedup(prior)
    ensures DistinctKeys(SetAll(t, ids, name)) && Keys(SetAll(t, ids, name)) == Dedup(prior + ids)
    ensures forall x :: MapGet(SetAll(t, ids, name), x) == if x in ids then Some(name) else MapGet(t, x)
  {
    if ids == [] {
      assert prior + ids == prior;
    } else {
      var init := ids[..|ids| - 1];
      var last := ids[|ids| - 1];
      SetAllFacts(t, prior, init, name);
      MapSetFacts(SetAll(t, init, name), last, name);
      assert (prior + ids)[..|prior + ids| - 1] == prior + init;
      assert ids == init + [last];
    }
  }

  /** The ids of the included effects, in table order, repeats kept. */
  function IncludedIds(showDeepOfNight: bool, effects: seq<Effect>): seq<int>
  {
    if effects == [] then []
    else
      var e := effects[|effects| - 1];
      IncludedIds(showDeepOfNight, effects[..|effects| - 1]) + (if Included(showDeepOfNight, e) then e.ids else [])
  }

  /** The table `createEffectMap` builds from the effects. */
  function EffectMapOf(showDeepOfNight: bool, effects: seq<Effect>): EffectTable
  {
    if effects == [] then []
    else
      var t := EffectMapOf(showDeepOfNight, effects[..|effects| - 1]);
      var e := effects[|effects| - 1];
      if Included(showDeepOfNight, e) then SetAll(t, e.ids, e.name) else t
  }

  /** The last included effect carrying `id`, if any. */
  function LastWith(showDeepOfNight: bool, effects: seq<Effect>, id: int): (r: Option<nat>)
    ensures r.Some? ==> r.value < |effects| && Included(showDeepOfNight, effects[r.value]) && id in effects[r.value].ids
    ensures r.Some? ==> forall j :: r.value < j < |effects| ==> !(Included(showDeepOfNight, effects[j]) && id in effects[j].ids)
    ensures r.None? ==> forall j :: 0 <= j < |effects| ==> !(Included(showDeepOfNight, effects[j]) && id in effects[j].ids)
  {
    if effects == [] then None
    else
      var e := effects[|effects| - 1];
      if Included(showDeepOfNight, e) && id in e.ids then Some(|effects| - 1)
      else LastWith(showDeepOfNight, effects[..|effects| - 1], id)
  }

  /** The name `id` ends up with: that of the last included effect carrying it. */
  function LastName(showDeepOfNight: bool, effects: seq<Effect>, id: int): Option<string>
  {
    match LastWith(showDeepOfNight, effects, id)
    case None => None
    case Some(k) => Some(effects[k].name)
  }

  /** The map holds each id of an included effect once, in the order the ids were first
      set, and an id maps exactly to the name of the last included effect carrying it:
      later effects overwrite the name but not the position. */
  lemma {:induction false} EffectMapLast(showDeepOfNight: bool, effects: seq<Effect>)
    ensures DistinctKeys(EffectMapOf(showDeepOfNight, effects))
    ensures Keys(EffectMapOf(showDeepOfNight, effects)) == Dedup(IncludedIds(showDeepOfNight, effects))
    ensures forall id :: MapGet(EffectMapOf(showDeepOfNight, effects), id) == LastName(showDeepOfNight, effects, id)
  {
    if effects != [] {
      var init := effects[..|effects| - 1];
      var e := effects[|effects| - 1];
      EffectMapLast(showDeepOfNight, init);
      if Included(showDeepOfNight, e) {
        SetAllFacts(EffectMapOf(showDeepOfNight, init), IncludedIds(showDeepOfNight, init), e.ids, e.name);
        assert IncludedIds(showDeepOfNight, effects) == IncludedIds(showDeepOfNight, init) + e.ids;
        assert EffectMapOf(showDeepOfNight, effects) == SetAll(EffectMapOf(showDeepOfNight, init), e.ids, e.name);
      } else {
        assert IncludedIds(showDeepOfNight, effects) == IncludedIds(showDeepOfNight, init) + [];
        assert IncludedIds(showDeepOfNight, init) + [] == IncludedIds(showDeepOfNight, init);
        assert EffectMapOf(showDeepOfNight, effects) == EffectMapOf(showDeepOfNight, init);
      }
      forall id
        ensures MapGet(EffectMapOf(showDeepOfNight, effects), id) == LastName(showDeepOfNight, effects, id)
      {
        var w := LastWith(showDeepOfNight, init, id);
        if w.Some? {
          assert effects[w.value] == init[w.value];
        }
      }
    }
  }

  /** The map's entries are its ids in first-set order, each with its last name. */
  lemma EffectMapEntries(showDeepOfNight: bool, effects: seq<Effect>)
    ensures var t := EffectMapOf(showDeepOfNight, effects);
      forall k :: 0 <= k < |t| ==>
        (k < |Dedup(IncludedIds(showDeepOfNight, effects))| && t[k].0 == Dedup(IncludedIds(showDeepOfNight, effects))[k]
         && LastName(showDeepOfNight, effects, t[k].0) == Some(t[k].1))
  {
    var t := EffectMapOf(showDeepOfNight, effects);
    EffectMapLast(showDeepOfNight, effects);
    forall k | 0 <= k < |t|
      ensures LastName(showDeepOfNight, effects, t[k].0) == Some(t[k].1)
    {
      MapGetDistinct(t, t[k].0, t[k].1);
    }
  }

  /** Looking a name up in the map (as `calculateRelicScore` does) gives the id that was
      set first among those whose last name is that name; no id when none has it. */
  lemma FirstIdOfName(showDeepOfNight: bool, effects: seq<Effect>, name: string)
    ensures var ids := Dedup(IncludedIds(showDeepOfNight, effects));
      match FirstIdNamed(EffectMapOf(showDeepOfNight, effects), name)
      case None => forall id :: id in ids ==> LastName(showDeepOfNight, effects, id) != Some(name)
      case Some(id) => exists k :: 0 <= k < |ids| && ids[k] == id && LastName(showDeepOfNight, effects, id) == Some(name)
                         && forall j :: 0 <= j < k ==> LastName(showDeepOfNight, effects, ids[j]) != Some(name)
  {
    var t := EffectMapOf(showDeepOfNight, effects);
    var ids := Dedup(IncludedIds(showDeepOfNight, effects));
    EffectMapLast(showDeepOfNight, effects);
    EffectMapEntries(showDeepOfNight, effects);
    assert |ids| == |t|;
    if FirstIdNamed(t, name).None? {
      forall id | id in ids
        ensures LastName(showDeepOfNight, effects, id) != Some(name)
      {
        var k :| 0 <= k < |ids| && ids[k] == id;
        assert t[k].1 != name;
      }
    }
  }

  /** `createEffectMap`: for each effect in order, unless it is a hidden Deep of Night
      effect, map each of its ids to its name. */
  method CreateEffectMap(showDeepOfNight: bool, effects: seq<Effect>) returns (effectMap: EffectTable)
    ensures effectMap == EffectMapOf(showDeepOfNight, effects)
  {
    effectMap := [];
    for i := 0 to |effects|
      invariant effectMap == EffectMapOf(showDeepOfNight, effects[..i])
    {
      var effect := effects[i];
      assert effects[..i + 1][..i] == effects[..i];
      if effect.deep && !showDeepOfNight {
        continue;
      }
      var before := effectMap;
      for j := 0 to |effect.ids|
        invariant effectMap == SetAll(before, effect.ids[..j], effect.name)
      {
        assert effect.ids[..j + 1][..j] == effect.ids[..j];
        effectMap := MapSet(effectMap, effect.ids[j], effect.name);
      }
      assert effect.ids[..|effect.ids|] == effect.ids;
    }
    assert effects[..|effects|] == effects;
  }

  /** `isEffectIdKnown`: some effect of the table carries the id. */
  function IsEffectIdKnown(id: int, effects: seq<Effect>): (known: bool)
    ensures known <==> exists k :: 0 <= k < |effects| && id in effects[k].ids
  {
    if effects == [] then false
    else id in effects[0].ids || IsEffectIdKnown(id, effects[1..])
  }

  /** With Deep of Night shown, the known ids are exactly the ids the effect map holds. */
  lemma KnownIffMapped(id: int, effects: seq<Effect>)
    ensures IsEffectIdKnown(id, effects) <==> MapGet(EffectMapOf(true, effects), id).Some?
  {
    EffectMapLast(true, effects);
  }

  /** `getEffectName`: nothing for an empty slot (0 or 2^32 - 1), the mapped name when
      it is non-empty, and otherwise `Unknown Effect (ID: <id>)`. */
  function GetEffectName(id: int, effectMap: EffectTable): (r: Option<string>)
    ensures r.None? <==> id == 0 || id == EmptySlotId
    ensures r.Some? && GetEffect(effectMap, Some(id)).Some? ==> r == GetEffect(effectMap, Some(id))
    ensures r.Some? && GetEffect(effectMap, Some(id)).None? ==>
              r.value == "Unknown Effect (ID: " + DecimalString(id) + ")"
  {
    if id == 0 || id == EmptySlotId then None
    else match MapGet(effectMap, id)
      case Some(name) => if name != "" then Some(name) else Some("Unknown Effect (ID: " + DecimalString(id) + ")")
      case None => Some("Unknown Effect (ID: " + DecimalString(id) + ")")
  }

  /** Two different unknown ids are reported under different names. */
  lemma UnknownNamesDistinct(a: int, b: int, effectMap: EffectTable)
    requires a != b
    requires GetEffectName(a, effectMap).Some? && GetEffect(effectMap, Some(a)).None?
    requires GetEffectName(b, effectMap).Some? && GetEffect(effectMap, Some(b)).None?
    ensures GetEffectName(a, effectMap) != GetEffectName(b, effectMap)
  {
    var pre := "Unknown Effect (ID: ";
    if GetEffectName(a, effectMap) == GetEffectName(b, effectMap) {
      var sa := pre + DecimalString(a) + ")";
      var sb := pre + DecimalString(b) + ")";
      assert sa == sb;
      assert |DecimalString(a)| == |DecimalString(b)|;
      assert DecimalString(a) == sa[|pre|..|sa| - 1] == sb[|pre|..|sb| - 1] == DecimalString(b);
      DecimalStringInjective(a, b);
    }
  }
}

=== FILE: extract_js.dfy ===
/**
 * The browser extractor end to end (`extractRelicsFromSection`,
 * `extractAllRelicsFromSl2`): the same extraction steps as the Python one, with the
 * differences of the port — every failure is an exception, the anchor read
 * treats any all-zero read as missing, and the relic region length is clamped
 * at zero.
 */
module ExtractJs {
  import opened Wrappers
  import opened Bytes
  import opened Bnd4
  import opened Sections
  import opened Anchor
  import opened SlotScanner
  import opened ContainerJs
  import opened ExtractPy

  /** `readAt(buffer, offset, length)`: `u8.slice(offset, offset + length)`. */
  function ReadAt(image: seq<byte>, offset: nat, length: nat): (r: seq<byte>)
    ensures |r| <= length
    ensures offset + length <= |image| ==> r == image[offset..offset + length]
  {
    Slice(image, offset, offset + length)
  }

  /** The relic region for an anchor at window offset `fixed`: `max(0, fixed - 132)`
      bytes from 32 into the window. */
  function RegionJs(image: seq<byte>, n: SectionNumber, fixed: nat): seq<byte>
  {
    ReadAt(image, RegionStart(n), Max(0, fixed - 132))
  }

  /** Where the name anchor of character `n` first occurs in its window, if it resolves:
      the bytes go through `toString(16)` and back through `parseInt(_, 16)`. */
  function AnchorPosJs(image: seq<byte>, n: SectionNumber): Option<nat>
  {
    match ResolveAnchorJs(image, AnchorOffset(n))
    case None => None
    case Some(name) => IndexOf(Window(image, n), HexDecodeJs(HexEncode(name)))
  }

  /** The result of `extractRelicsFromSection` once the anchor is found at window offset `fixed`. */
  function SectionAtAnchorJs(image: seq<byte>, n: SectionNumber, fixed: nat): Option<CharacterRelics>
  {
    var window := Window(image, n);
    if fixed + 1000 >= |window| then None
    else Some(CharacterRelics(n, NameFrom(Slice(window, fixed, fixed + 32), 0),
                              Scan(RegionJs(image, n, fixed), RegionStart(n))))
  }

  /** The result of `extractRelicsFromSection` for character `n`. */
  function SectionJs(image: seq<byte>, n: SectionNumber): Option<CharacterRelics>
  {
    match AnchorPosJs(image, n)
    case None => None
    case Some(fixed) => SectionAtAnchorJs(image, n, fixed)
  }

  /** `extractRelicsFromSection`. The anchor is never empty, so `findHexOffset` cannot throw here. */
  method ExtractRelicsFromSectionJs(image: seq<byte>, n: SectionNumber) returns (r: Option<CharacterRelics>)
    ensures r == SectionJs(image, n)
  {
    var sectionBytes := ReadAt(image, Start(n), End(n) - Start(n) + 1);
    var nameBytes := LocateAnchorJs(image, AnchorOffset(n));
    if nameBytes.None? {
      return None;
    }
    var hex := HexEncode(nameBytes.value);
    var found := FindHexOffsetJs(sectionBytes, hex);
    var fixed := found.value;
    if fixed.None? {
      return None;
    }
    r := ExtractAtAnchorJs(image, n, sectionBytes, fixed.value);
  }

  /** The tail of `extractRelicsFromSection`: the distance check, the character name,
      and the scan of the region between 32 into the window and 100 before the anchor. */
  method ExtractAtAnchorJs(image: seq<byte>, n: SectionNumber, sectionBytes: seq<byte>, fixed: nat)
    returns (r: Option<CharacterRelics>)
    requires sectionBytes == Window(image, n)
    ensures r == SectionAtAnchorJs(image, n, fixed)
  {
    if fixed + 1000 >= |sectionBytes| {
      return None;
    }
    var characterName := FindCharacterName(sectionBytes, fixed);
    var startPos := Start(n) + 32;
    var endPos := Start(n) + fixed - 100;
    var section := ReadAt(image, startPos, Max(0, endPos - startPos));
    var relics := EmptySlotFinder(section, startPos);
    return Some(CharacterRelics(n, characterName, relics));
  }

  /** The results of `extractRelicsFromSection` for slots 1 to 10, in order. */
  function SectionResultsJs(image: seq<byte>): (cs: seq<Option<CharacterRelics>>)
    ensures |cs| == 10 && forall k :: 0 <= k < 10 ==> cs[k] == SectionJs(image, k + 1)
  {
    seq(10, k requires 0 <= k < 10 => SectionJs(image, k + 1))
  }

  /** The buffers `parseAndDecryptUserdataBuffers` resolves to, or `None` when it throws. */
  function BuffersJs(raw: seq<byte>, aes: Decryptor): Option<seq<seq<byte>>>
  {
    if !HasMagic(raw) || |raw| < 16 || EntriesJs(raw, EntryCount(raw), aes).Err? then None
    else Some(OrderBuffers(EntriesJs(raw, EntryCount(raw), aes).value))
  }

  /** The browser's memory image: the fourteen buffers joined, or `None` when
      decryption throws or does not give exactly fourteen buffers. */
  function MemoryImageJs(raw: seq<byte>, aes: Decryptor): Option<seq<byte>>
  {
    match BuffersJs(raw, aes)
    case None => None
    case Some(buffers) => if |buffers| != 14 then None else Some(Flatten(buffers))
  }

  /** `extractAllRelicsFromSl2`: an exception unless the container yields fourteen
      buffers, otherwise every character with relics, in slot order. */
  method ExtractAllRelicsFromSl2(raw: seq<byte>, aes: Decryptor) returns (r: Result<seq<CharacterRelics>, string>)
    ensures r.Err? <==> MemoryImageJs(raw, aes).None?
    ensures r.Ok? ==> r.value == Reported(SectionResultsJs(MemoryImageJs(raw, aes).value))
  {
    var userdataBuffers := ParseAndDecrypt(raw, aes);
    if userdataBuffers.Err? {
      return Err(userdataBuffers.error);
    }
    if |userdataBuffers.value| != 14 {
      return Err("expected 14 USERDATA buffers");
    }
    var memoryBuffer := ConcatBuffers(userdataBuffers.value);
    var all := ExtractSectionsJs(memoryBuffer);
    return Ok(all);
  }

  /** The section loop of `extractAllRelicsFromSl2` over slots 1 to 10. */
  method ExtractSectionsJs(image: seq<byte>) returns (all: seq<CharacterRelics>)
    ensures all == Reported(SectionResultsJs(image))
  {
    all := [];
    var section := 1;
    while section <= 10
      invariant 1 <= section <= 11
      invariant all == Reported(SectionResultsJs(image)[..section - 1])
    {
      var data := ExtractRelicsFromSectionJs(image, section);
      ReportedNext(SectionResultsJs(image), section - 1);
      if data.Some? && |data.value.relics| > 0 {
        all := all + [data.value];
      }
      section := section + 1;
    }
    assert SectionResultsJs(image)[..section - 1] == SectionResultsJs(image);
  }

  // ---------------------------------------------------------------------------
  // Properties

  /** Both extractors find the anchor at the same window offset, the first occurrence of
      the anchor bytes, whenever the image holds the whole 10-byte anchor read. */
  lemma AnchorPosAgree(image: seq<byte>, n: SectionNumber)
    requires AnchorOffset(n) + 10 <= |image|
    ensures AnchorPosJs(image, n) == AnchorPosPy(image, n)
    ensures AnchorPosJs(image, n).Some? ==>
              IndexOf(Window(image, n), ResolveAnchorJs(image, AnchorOffset(n)).value) == AnchorPosJs(image, n)
  {
    AnchorsAgreeInBounds(image, AnchorOffset(n));
    match ResolveAnchorJs(image, AnchorOffset(n))
    case None =>
    case Some(name) =>
      FindAnchorThroughHex(Window(image, n), name);
  }

  /** From 132 bytes into the window on, both extractors read the same relic region. */
  lemma RegionsAgree(image: seq<byte>, n: SectionNumber, fixed: nat)
    requires fixed >= 132
    ensures RegionJs(image, n, fixed) == RegionPy(image, n, fixed)
  {
  }

  /** With the anchor present and at least 132 bytes into the window (or absent), the two
      extractors return the same result for the character. */
  lemma SectionsAgree(image: seq<byte>, n: SectionNumber)
    requires AnchorOffset(n) + 10 <= |image|
    requires AnchorPosPy(image, n).Some? ==> AnchorPosPy(image, n).value >= 132
    ensures SectionJs(image, n) == SectionPy(image, n)
  {
    AnchorPosAgree(image, n);
    match AnchorPosPy(image, n)
    case None =>
    case Some(fixed) =>
      RegionsAgree(image, n, fixed);
      assert SectionAtAnchorJs(image, n, fixed) == SectionAtAnchor(image, n, fixed);
  }

  /** With the anchor less than 132 bytes into the window, the clamped region is empty
      and the browser reports the character with no relics. */
  lemma EarlyAnchorFindsNothingJs(image: seq<byte>, n: SectionNumber)
    requires SectionJs(image, n).Some? && AnchorPosJs(image, n).value < 132
    ensures SectionJs(image, n).value.relics == []
  {
    var region := RegionJs(image, n, AnchorPosJs(image, n).value);
    assert region == [];
    assert FirstAlignedFrom(region, 0).None?;
  }

  /** With the anchor at least 132 bytes into the window, every relic is a framed 72-byte
      record that ends at least 100 bytes before the anchor, and no two overlap. */
  lemma RelicsBeforeAnchorJs(image: seq<byte>, n: SectionNumber)
    requires SectionJs(image, n).Some?
    ensures var fixed := AnchorPosJs(image, n).value;
      forall r :: r in SectionJs(image, n).value.relics ==>
        Framed(RegionJs(image, n, fixed), RegionStart(n), r)
        && RegionStart(n) <= r.offset && r.offset + 72 <= Start(n) + Max(132, fixed) - 100
    ensures Spaced(SectionJs(image, n).value.relics)
  {
    var fixed := AnchorPosJs(image, n).value;
    var region := RegionJs(image, n, fixed);
    ScanFramed(region, RegionStart(n));
  }

  /** A successful extraction is labelled with its own slot. */
  lemma SectionResultsNumberedJs(image: seq<byte>)
    ensures Numbered(SectionResultsJs(image))
  {
    forall k | 0 <= k < 10 && SectionResultsJs(image)[k].Some?
      ensures SectionResultsJs(image)[k].value.sectionNumber == k + 1
    {
      match AnchorPosJs(image, k + 1)
      case None =>
      case Some(fixed) =>
    }
  }

  /** Every character `extractAllRelicsFromSl2` reports is the successful extraction of the
      slot it names, with at least one relic. */
  lemma ReportedSoundJs(image: seq<byte>)
    ensures forall c :: c in Reported(SectionResultsJs(image)) ==>
              1 <= c.sectionNumber <= 10 && SectionJs(image, c.sectionNumber) == Some(c) && |c.relics| > 0
  {
    SectionResultsNumberedJs(image);
    ReportedIn(SectionResultsJs(image));
  }

  /** Every slot whose extraction yields at least one relic is reported. */
  lemma ReportedCompleteJs(image: seq<byte>, n: SectionNumber)
    requires SectionJs(image, n).Some? && |SectionJs(image, n).value.relics| > 0
    ensures SectionJs(image, n).value in Reported(SectionResultsJs(image))
  {
    ReportedHas(SectionResultsJs(image), n - 1);
  }

  /** Reported characters come in strictly increasing slot order. */
  lemma ReportedOrderedJs(image: seq<byte>)
    ensures forall a, b :: 0 <= a < b < |Reported(SectionResultsJs(image))| ==>
              Reported(SectionResultsJs(image))[a].sectionNumber < Reported(SectionResultsJs(image))[b].sectionNumber
  {
    SectionResultsNumberedJs(image);
    ReportedIncreasing(SectionResultsJs(image));
  }

  /** The browser image is the fourteen buffers laid end to end: buffer `k` sits at the
      sum of the earlier lengths. */
  lemma MemoryImageLayoutJs(raw: seq<byte>, aes: Decryptor, k: nat)
    requires MemoryImageJs(raw, aes).Some? && k < 14
    ensures var buffers := BuffersJs(raw, aes).value;
      |buffers| == 14
      && Offset(buffers, k + 1) <= |MemoryImageJs(raw, aes).value|
      && MemoryImageJs(raw, aes).value[Offset(buffers, k)..Offset(buffers, k + 1)] == buffers[k]
  {
    var buffers := BuffersJs(raw, aes).value;
    FlattenPlacement(buffers, k);
  }
}

=== FILE: extract_py.dfy ===
/**
 * The Python extractor end to end (`extract_relics_from_section`,
 * `extract_all_relics`): decrypt and merge the container into a memory image,
 * then for each of the ten characters resolve the name anchor, find it in the
 * character's window, and scan the bytes between the window start and the anchor.
 */
module ExtractPy {
  import opened Wrappers
  import opened Bytes
  import opened Bnd4
  import opened Sections
  import opened Anchor
  import opened SlotScanner
  import opened ContainerPy

  /** Where the relic region starts: 32 bytes into the window. */
  function RegionStart(n: SectionNumber): nat { Start(n) + 32 }

  /** The relic region read for an anchor at window offset `fixed`:
      `read(fixed - 132)` from the region start, which reads to the end of the
      image when the length is negative. */
  function RegionPy(image: seq<byte>, n: SectionNumber, fixed: nat): seq<byte>
  {
    PyRead(image, RegionStart(n), fixed - 132)
  }

  /** Where the name anchor of character `n` first occurs in its window, if it resolves. */
  function AnchorPosPy(image: seq<byte>, n: SectionNumber): Option<nat>
  {
    match ResolveAnchorPy(image, AnchorOffset(n))
    case None => None
    case Some(name) => FindHexOffsetPy(Window(image, n), HexEncode(name))
  }

  /** The result of `extract_relics_from_section` once the anchor is found at window offset `fixed`:
      nothing unless the anchor lies more than 1000 bytes before the window ends. */
  function SectionAtAnchor(image: seq<byte>, n: SectionNumber, fixed: nat): Option<CharacterRelics>
  {
    var window := Window(image, n);
    if fixed + 1000 >= |window| then None
    else Some(CharacterRelics(n, NameFrom(Slice(window, fixed, fixed + 32), 0),
                              Scan(RegionPy(image, n, fixed), RegionStart(n))))
  }

  /** The result of `extract_relics_from_section` for character `n`. */
  function SectionPy(image: seq<byte>, n: SectionNumber): Option<CharacterRelics>
  {
    match AnchorPosPy(image, n)
    case None => None
    case Some(fixed) => SectionAtAnchor(image, n, fixed)
  }

  /** `extract_relics_from_section`. */
  method ExtractRelicsFromSection(image: seq<byte>, n: SectionNumber) returns (r: Option<CharacterRelics>)
    ensures r == SectionPy(image, n)
  {
    var window := Window(image, n);
    var nameBytes := LocateAnchorPy(image, AnchorOffset(n));
    if nameBytes.None? {
      return None;
    }
    var fixed := FindHexOffsetPy(window, HexEncode(nameBytes.value));
    if fixed.None? {
      return None;
    }
    r := ExtractAtAnchor(image, n, window, fixed.value);
  }

  /** The tail of `extract_relics_from_section`: the distance check, the character name,
      and the scan of the bytes from 32 into the window up to 100 before the anchor. */
  method ExtractAtAnchor(image: seq<byte>, n: SectionNumber, window: seq<byte>, fixed: nat)
    returns (r: Option<CharacterRelics>)
    requires window == Window(image, n)
    ensures r == SectionAtAnchor(image, n, fixed)
  {
    if fixed + 1000 >= |window| {
      return None;
    }
    var characterName := FindCharacterName(window, fixed);
    var regionStart := Start(n) + 32;
    var region := PyRead(image, regionStart, (Start(n) + fixed - 100) - regionStart);
    var relics := EmptySlotFinder(region, regionStart);
    return Some(CharacterRelics(n, characterName, relics));
  }

  /** The results of `extract_relics_from_section` for slots 1 to 10, in order. */
  function SectionResults(image: seq<byte>): (cs: seq<Option<CharacterRelics>>)
    ensures |cs| == 10 && forall k :: 0 <= k < 10 ==> cs[k] == SectionPy(image, k + 1)
  {
    seq(10, k requires 0 <= k < 10 => SectionPy(image, k + 1))
  }

  /** A character is reported when its extraction succeeds with at least one relic. */
  function Report(c: Option<CharacterRelics>): seq<CharacterRelics>
  {
    if c.Some? && |c.value.relics| > 0 then [c.value] else []
  }

  /** The characters reported for a run of per-slot results, in slot order. */
  function Reported(cs: seq<Option<CharacterRelics>>): seq<CharacterRelics>
  {
    if cs == [] then [] else Reported(cs[..|cs| - 1]) + Report(cs[|cs| - 1])
  }

  /** One more slot appends its report. */
  lemma ReportedNext(cs: seq<Option<CharacterRelics>>, k: nat)
    requires k < |cs|
    ensures Reported(cs[..k + 1]) == Reported(cs[..k]) + Report(cs[k])
  {
    assert cs[..k + 1][..k] == cs[..k];
  }

  /** `extract_all_relics`: `None` when the container does not yield exactly fourteen
      decrypted entries, otherwise every character with relics, in slot order. */
  method ExtractAllRelics(raw: seq<byte>, aes: Decryptor) returns (r: Option<seq<CharacterRelics>>)
    ensures r.None? <==> MemoryImage(raw, aes).None?
    ensures r.Some? ==> r.value == Reported(SectionResults(MemoryImage(raw, aes).value))
  {
    var merged := MergeUserdataFiles(raw, aes);
    if merged.None? {
      return None;
    }
    var all := ExtractSections(merged.value.image);
    return Some(all);
  }

  /** The section loop of `extract_all_relics` over slots 1 to 10. */
  method ExtractSections(image: seq<byte>) returns (all: seq<CharacterRelics>)
    ensures all == Reported(SectionResults(image))
  {
    all := [];
    var n := 1;
    while n <= 10
      invariant 1 <= n <= 11
      invariant all == Reported(SectionResults(image)[..n - 1])
    {
      var c := ExtractRelicsFromSection(image, n);
      ReportedNext(SectionResults(image), n - 1);
      if c.Some? && |c.value.relics| > 0 {
        all := all + [c.value];
      }
      n := n + 1;
    }
    assert SectionResults(image)[..n - 1] == SectionResults(image);
  }

  // ---------------------------------------------------------------------------
  // Properties

  /** A section result names its slot, carries a printable name of at most sixteen
      characters, and the anchor it was found at lies at least 1000 bytes before the
      window ends and matches the name bytes read at the anchor offset. */
  lemma SectionShape(image: seq<byte>, n: SectionNumber)
    requires SectionPy(image, n).Some?
    ensures var c := SectionPy(image, n).value;
      c.sectionNumber == n && |c.characterName| <= 16
      && forall k :: 0 <= k < |c.characterName| ==> ' ' <= c.characterName[k] <= '~'
    ensures var fixed := AnchorPosPy(image, n).value;
      fixed + 1000 < |Window(image, n)|
      && MatchAt(Window(image, n), ResolveAnchorPy(image, AnchorOffset(n)).value, fixed)
  {
    var window := Window(image, n);
    var fixed := AnchorPosPy(image, n).value;
    var name := ResolveAnchorPy(image, AnchorOffset(n)).value;
    FindAnchorThroughHex(window, name);
    NameAtMostSixteen(window, fixed);
    NameShape(Slice(window, fixed, fixed + 32), 0);
  }

  /** With the anchor at least 132 bytes into the window, every relic is a framed
      72-byte record that ends at least 100 bytes before the anchor, and no two overlap. */
  lemma RelicsBeforeAnchor(image: seq<byte>, n: SectionNumber)
    requires SectionPy(image, n).Some? && AnchorPosPy(image, n).value >= 132
    ensures var fixed := AnchorPosPy(image, n).value;
      forall r :: r in SectionPy(image, n).value.relics ==>
        Framed(RegionPy(image, n, fixed), RegionStart(n), r)
        && RegionStart(n) <= r.offset && r.offset + 72 <= Start(n) + fixed - 100
    ensures Spaced(SectionPy(image, n).value.relics)
  {
    var fixed := AnchorPosPy(image, n).value;
    var region := RegionPy(image, n, fixed);
    ScanFramed(region, RegionStart(n));
    assert |region| <= fixed - 132;
  }

  /** With the anchor less than 132 bytes into the window, the negative read length
      makes the scan run from the region start to the end of the whole image. */
  lemma EarlyAnchorScansToEnd(image: seq<byte>, n: SectionNumber)
    requires SectionPy(image, n).Some? && AnchorPosPy(image, n).value < 132
    ensures SectionPy(image, n).value.relics
            == Scan(image[Min(RegionStart(n), |image|)..], RegionStart(n))
  {
  }

  /** Results labelled with their own slot numbers (slot k + 1 at position k). */
  predicate Numbered(cs: seq<Option<CharacterRelics>>)
  {
    forall k :: 0 <= k < |cs| && cs[k].Some? ==> cs[k].value.sectionNumber == k + 1
  }

  /** Every reported character is the result of the slot it names, with at least one relic. */
  lemma {:induction false} ReportedIn(cs: seq<Option<CharacterRelics>>)
    requires Numbered(cs)
    ensures forall c :: c in Reported(cs) ==>
              1 <= c.sectionNumber <= |cs| && cs[c.sectionNumber - 1] == Some(c) && |c.relics| > 0
  {
    if cs != [] {
      var init := cs[..|cs| - 1];
      assert Numbered(init) by {
        forall k | 0 <= k < |init| ensures init[k] == cs[k] {}
      }
      ReportedIn(init);
      forall c | c in Reported(cs)
        ensures 1 <= c.sectionNumber <= |cs| && cs[c.sectionNumber - 1] == Some(c) && |c.relics| > 0
      {
        if c in Reported(init) {
          assert cs[c.sectionNumber - 1] == init[c.sectionNumber - 1];
        }
      }
    }
  }

  /** A slot whose result carries at least one relic is reported. */
  lemma {:induction false} ReportedHas(cs: seq<Option<CharacterRelics>>, k: nat)
    requires k < |cs| && cs[k].Some? && |cs[k].value.relics| > 0
    ensures cs[k].value in Reported(cs)
  {
    var init := cs[..|cs| - 1];
    if k < |init| {
      assert init[k] == cs[k];
      ReportedHas(init, k);
    }
  }

  /** Reported characters come in strictly increasing slot order. */
  lemma {:induction false} ReportedIncreasing(cs: seq<Option<CharacterRelics>>)
    requires Numbered(cs)
    ensures forall a, b :: 0 <= a < b < |Reported(cs)| ==> Reported(cs)[a].sectionNumber < Reported(cs)[b].sectionNumber
  {
    if cs != [] {
      var init := cs[..|cs| - 1];
      assert Numbered(init) by {
        forall k | 0 <= k < |init| ensures init[k] == cs[k] {}
      }
      ReportedIncreasing(init);
      ReportedIn(init);
      var prev := Reported(init);
      var all := Reported(cs);
      forall a, b | 0 <= a < b < |all| ensures all[a].sectionNumber < all[b].sectionNumber {
        if b >= |prev| {
          assert all[a] in prev;
        }
      }
    }
  }

  /** A successful extraction is labelled with its own slot. */
  lemma SectionNumbered(image: seq<byte>, n: SectionNumber)
    ensures SectionPy(image, n).Some? ==> SectionPy(image, n).value.sectionNumber == n
  {
    match AnchorPosPy(image, n)
    case None =>
    case Some(fixed) =>
  }

  /** The per-slot results are labelled with their slot numbers. */
  lemma SectionResultsNumbered(image: seq<byte>)
    ensures Numbered(SectionResults(image))
  {
    forall k | 0 <= k < 10 && SectionResults(image)[k].Some?
      ensures SectionResults(image)[k].value.sectionNumber == k + 1
    {
      SectionNumbered(image, k + 1);
    }
  }

  /** Every character `extract_all_relics` reports is the successful extraction of the
      slot it names, with at least one relic. */
  lemma ReportedSound(image: seq<byte>)
    ensures forall c :: c in Reported(SectionResults(image)) ==>
              1 <= c.sectionNumber <= 10 && SectionPy(image, c.sectionNumber) == Some(c) && |c.relics| > 0
  {
    SectionResultsNumbered(image);
    ReportedIn(SectionResults(image));
  }

  /** Every slot whose extraction yields at least one relic is reported. */
  lemma ReportedComplete(image: seq<byte>, n: SectionNumber)
    requires SectionPy(image, n).Some? && |SectionPy(image, n).value.relics| > 0
    ensures SectionPy(image, n).value in Reported(SectionResults(image))
  {
    ReportedHas(SectionResults(image), n - 1);
  }

  /** Reported characters come in strictly increasing slot order. */
  lemma ReportedOrdered(image: seq<byte>)
    ensures forall a, b :: 0 <= a < b < |Reported(SectionResults(image))| ==>
              Reported(SectionResults(image))[a].sectionNumber < Reported(SectionResults(image))[b].sectionNumber
  {
    SectionResultsNumbered(image);
    ReportedIncreasing(SectionResults(image));
  }

  /** Relic offsets are positions in the merged image: a part of the memory image
      is decrypted entry `k`, starting at the sizes of the earlier entries summed. */
  lemma MemoryImageLayout(raw: seq<byte>, aes: Decryptor, k: nat)
    requires MemoryImage(raw, aes).Some? && k < 14
    ensures var entries := Entries(raw, EntryCount(raw), aes);
      var image := MemoryImage(raw, aes).value;
      Offset(Plains(entries), k + 1) <= |image|
      && image[Offset(Plains(entries), k)..Offset(Plains(entries), k + 1)] == entries[k].plain
  {
    MergedLayout(Entries(raw, EntryCount(raw), aes), k);
  }
}

=== FILE: guaranteeable.dfy ===
/**
 * The guaranteeable-relic second pass (`guaranteeableCalculation.js`, whose first five
 * functions `guaranteeableRelics.js` repeats): relics of the item table with fixed effects
 * that the save file lacks are added as synthetic relics, the calculation is run again, and
 * the builds that use one of them and score at least as well as the owned builds are
 * offered as potential upgrades.
 */
module Guaranteeable {
  import opened Wrappers
  import opened Text
  import opened CalcModel
  import opened CalcScore
  import opened CalcBest

  /** A relic that can always be obtained: its item id, name, colour (as written in the
      item table), fixed effect ids and whether it is a deep relic. */
  datatype Definition = Definition(itemId: int, name: string, color: string, fixedEffects: seq<int>, isDeep: bool)

  /** One item-table entry: a definition when the item has fixed effects, is not a deep
      relic unless deep relics are shown, and has a colour. */
  function DefinitionOf(entry: (int, Item), showDeep: bool): (r: Option<Definition>)
    ensures r.Some? <==>
      entry.1.fixedEffects.Some? && (showDeep || !StartsWith(entry.1.name, "Deep")) && entry.1.color != ""
    ensures r.Some? ==> (r.value.itemId == entry.0 && r.value.name == entry.1.name && r.value.color == entry.1.color
      && Some(r.value.fixedEffects) == entry.1.fixedEffects && r.value.isDeep == StartsWith(entry.1.name, "Deep"))
  {
    match entry.1.fixedEffects
    case None => None
    case Some(fixedEffects) =>
      var isDeep := StartsWith(entry.1.name, "Deep");
      if isDeep && !showDeep then None
      else if entry.1.color == "" then None
      else Some(Definition(entry.0, entry.1.name, entry.1.color, fixedEffects, isDeep))
  }

  /** The definitions of the item table, in its order. */
  function Definitions(items: seq<(int, Item)>, showDeep: bool): (defs: seq<Definition>)
    ensures forall d :: d in defs <==> exists k :: 0 <= k < |items| && DefinitionOf(items[k], showDeep) == Some(d)
  {
    if items == [] then []
    else
      var init := items[..|items| - 1];
      assert forall k :: 0 <= k < |init| ==> init[k] == items[k];
      Definitions(init, showDeep) +
      match DefinitionOf(items[|items| - 1], showDeep) case None => [] case Some(d) => [d]
  }

  /** `getGuaranteeableRelicDefinitions`, with the item table as a parameter. */
  method GetGuaranteeableRelicDefinitions(items: seq<(int, Item)>, showDeep: bool) returns (defs: seq<Definition>)
    ensures defs == Definitions(items, showDeep)
  {
    defs := [];
    for i := 0 to |items|
      invariant defs == Definitions(items[..i], showDeep)
    {
      DefinitionsNext(items, i, showDeep);
      var (itemId, itemData) := items[i];
      if itemData.fixedEffects.None? {
        continue;
      }
      var isDeep := StartsWith(itemData.name, "Deep");
      if isDeep && !showDeep {
        continue;
      }
      if itemData.color == "" {
        continue;
      }
      defs := defs + [Definition(itemId, itemData.name, itemData.color, itemData.fixedEffects.value, isDeep)];
    }
    assert items[..|items|] == items;
  }

  lemma DefinitionsNext(items: seq<(int, Item)>, i: nat, showDeep: bool)
    requires i < |items|
    ensures Definitions(items[..i + 1], showDeep) ==
      Definitions(items[..i], showDeep) + match DefinitionOf(items[i], showDeep) case None => [] case Some(d) => [d]
  {
    assert items[..i + 1][..i] == items[..i];
  }

  /** The item ids of the table are distinct, as the keys of a JSON object are. */
  predicate UniqueIds(items: seq<(int, Item)>)
  {
    forall i, j :: 0 <= i < j < |items| ==> items[i].0 != items[j].0
  }

  /** With distinct item ids, every definition is the item the table holds under its id. */
  lemma DefinitionItem(items: seq<(int, Item)>, showDeep: bool, d: Definition)
    requires UniqueIds(items) && d in Definitions(items, showDeep)
    ensures MapGet(items, d.itemId).Some?
    ensures var it := MapGet(items, d.itemId).value;
      it.name == d.name && it.color == d.color && it.color != "" && it.fixedEffects == Some(d.fixedEffects)
      && d.isDeep == StartsWith(d.name, "Deep") && (d.isDeep ==> showDeep)
  {
    var k :| 0 <= k < |items| && DefinitionOf(items[k], showDeep) == Some(d);
    assert items[k].0 == d.itemId;
    var it := MapGet(items, d.itemId).value;
    var j :| 0 <= j < |items| && items[j] == (d.itemId, it);
    assert j == k;
    assert items[k].1 == it;
  }

  /** `hasRelicInSaveFile`. */
  function HasRelicInSaveFile(raws: seq<RawRelic>, itemId: int): (b: bool)
    ensures b <==> exists i :: 0 <= i < |raws| && raws[i].itemId == itemId
  {
    if raws == [] then false
    else
      assert forall i :: 1 <= i < |raws| ==> raws[i] == raws[1..][i - 1];
      raws[0].itemId == itemId || HasRelicInSaveFile(raws[1..], itemId)
  }

  /** The definitions whose item the save file does not hold, in their order. */
  function MissingFrom(defs: seq<Definition>, raws: seq<RawRelic>): (r: seq<Definition>)
    ensures |r| <= |defs|
    ensures forall d :: d in r <==> d in defs && !HasRelicInSaveFile(raws, d.itemId)
  {
    if defs == [] then []
    else
      assert forall d :: d in defs <==> d == defs[0] || d in defs[1..];
      (if HasRelicInSaveFile(raws, defs[0].itemId) then [] else [defs[0]]) + MissingFrom(defs[1..], raws)
  }

  /** `getMissingGuaranteeableRelics`. */
  function GetMissing(raws: seq<RawRelic>, items: seq<(int, Item)>, showDeep: bool): seq<Definition>
  {
    MissingFrom(Definitions(items, showDeep), raws)
  }

  /** Nothing is dropped when the save file holds none of the definitions. */
  lemma {:induction false} NoneOwnedAllMissing(defs: seq<Definition>, raws: seq<RawRelic>)
    requires forall d :: d in defs ==> !HasRelicInSaveFile(raws, d.itemId)
    ensures MissingFrom(defs, raws) == defs
  {
    if defs != [] {
      assert defs[0] in defs;
      NoneOwnedAllMissing(defs[1..], raws);
    }
  }

  /** Everything is dropped when the save file holds every definition. */
  lemma {:induction false} AllOwnedNoneMissing(defs: seq<Definition>, raws: seq<RawRelic>)
    requires forall d :: d in defs ==> HasRelicInSaveFile(raws, d.itemId)
    ensures MissingFrom(defs, raws) == []
  {
    if defs != [] {
      assert defs[0] in defs;
      AllOwnedNoneMissing(defs[1..], raws);
    }
  }

  /** `fixedEffects[k] || null`: a missing entry and the id 0 both give `null`. */
  function FixedId(fixedEffects: seq<int>, k: nat): (r: Option<int>)
    ensures r.Some? <==> k < |fixedEffects| && fixedEffects[k] != 0
    ensures r.Some? ==> r.value == fixedEffects[k]
  {
    if k < |fixedEffects| && fixedEffects[k] != 0 then Some(fixedEffects[k]) else None
  }

  const GuaranteeableSource: string := "guaranteeable"

  /** `createSyntheticRelic`: the definition as a processed relic of the given list. */
  function CreateSyntheticRelic(itemId: int, name: string, color: string, fixedEffects: seq<int>, table: EffectTable, kind: Kind): (r: Relic)
    ensures r.relicId == Some(itemId) && r.name == name && r.kind == kind
    ensures r.sec1.None? && r.sec2.None? && r.sec3.None?
    ensures r.sorting == 999999 && r.color == LowerStr(color) && r.source == Some(GuaranteeableSource)
    ensures [r.effect1, r.effect2, r.effect3] ==
      [GetEffect(table, FixedId(fixedEffects, 0)), GetEffect(table, FixedId(fixedEffects, 1)), GetEffect(table, FixedId(fixedEffects, 2))]
  {
    Relic(Some(itemId), name,
      GetEffect(table, FixedId(fixedEffects, 0)), GetEffect(table, FixedId(fixedEffects, 1)), GetEffect(table, FixedId(fixedEffects, 2)),
      None, None, None, 999999, LowerStr(color), kind, Some(GuaranteeableSource))
  }

  function KindOf(d: Definition): Kind
  {
    if d.isDeep then Deep else Base
  }

  /** `generateMissingGuaranteeableRelics`. */
  function GenerateMissing(missing: seq<Definition>, table: EffectTable): (r: seq<Relic>)
    ensures |r| == |missing|
    ensures forall i :: 0 <= i < |r| ==>
      r[i].relicId == Some(missing[i].itemId) && r[i].kind == KindOf(missing[i]) && r[i].source == Some(GuaranteeableSource)
  {
    seq(|missing|, i requires 0 <= i < |missing| =>
      CreateSyntheticRelic(missing[i].itemId, missing[i].name, missing[i].color, missing[i].fixedEffects, table, KindOf(missing[i])))
  }

  /** `mergeRelicsWithGuaranteeable`: the processed relics, then the synthetic ones. */
  function Merge(processed: seq<Relic>, synthetic: seq<Relic>): (r: seq<Relic>)
    ensures |r| == |processed| + |synthetic|
    ensures r[..|processed|] == processed && r[|processed|..] == synthetic
  {
    processed + synthetic
  }

  /** The save-file record of the `index`-th missing definition. */
  function SyntheticRaw(d: Definition, index: nat): RawRelic
  {
    RawRelic(d.itemId, FixedId(d.fixedEffects, 0), FixedId(d.fixedEffects, 1), FixedId(d.fixedEffects, 2),
             None, None, None, 999999 + index, Some(GuaranteeableSource))
  }

  /** The synthetic save-file records: distinct increasing sorting keys from 999999, no
      secondary effects, and the `guaranteeable` source. */
  function SyntheticRaws(missing: seq<Definition>): (r: seq<RawRelic>)
    ensures |r| == |missing|
    ensures forall i :: 0 <= i < |r| ==>
      r[i].itemId == missing[i].itemId && r[i].sorting == 999999 + i && r[i].source == Some(GuaranteeableSource)
      && r[i].sec1.None? && r[i].sec2.None? && r[i].sec3.None?
    ensures forall i, j :: 0 <= i < j < |r| ==> r[i].sorting < r[j].sorting
  {
    seq(|missing|, i requires 0 <= i < |missing| => SyntheticRaw(missing[i], i))
  }

  /** Processing a synthetic record in the second pass gives the relic `createSyntheticRelic`
      builds, with the record's own sorting key, in the list its name selects and in no other. */
  lemma SyntheticAgreesWithProcessing(items: seq<(int, Item)>, showDeep: bool, showForsaken: bool, table: EffectTable,
                                      d: Definition, index: nat)
    requires UniqueIds(items) && d in Definitions(items, showDeep)
    ensures ProcessRelic(SyntheticRaw(d, index), items, table, showForsaken, !d.isDeep).None?
    ensures showForsaken || !MapGet(items, d.itemId).value.forsaken ==>
      ProcessRelic(SyntheticRaw(d, index), items, table, showForsaken, d.isDeep) ==
        Some(CreateSyntheticRelic(d.itemId, d.name, d.color, d.fixedEffects, table, KindOf(d)).(sorting := 999999 + index))
  {
    DefinitionItem(items, showDeep, d);
  }

  // ---------------------------------------------------------------------------
  // calculateWithGuaranteeableRelics

  /** What the calculation returns: the owned builds alone (the original format), or the
      owned builds together with the potential upgrades. */
  datatype Outcome = Owned(results: Option<seq<VesselResult>>) | Both(owned: seq<VesselResult>, potential: seq<VesselResult>)

  /** The error a property read on `undefined` raises. */
  const UndefinedVesselData: string := "Cannot read properties of undefined"

  /** One call of `calculateBestRelics`. With `shifted` the call omits the
      `showForsakenHollows` argument, as the two calls in `calculateWithGuaranteeableRelics`
      do: the first six arguments are in place, but the seventh, the vessel table, lands
      in the forsaken-relics flag and the vessel-table parameter is undefined, so the call
      fails its input checks or else fails reading the vessel table. */
  function BestRelicsCall(shifted: bool, desired: seq<DesiredEffect>, data: Option<CharacterRelicData>, selected: seq<string>,
                          nightfarer: string, table: EffectTable, showDeep: bool, showForsaken: bool,
                          vesselData: map<string, seq<Vessel>>, items: seq<(int, Item)>, catalogue: seq<CatalogueEffect>)
    : Result<Option<seq<VesselResult>>, string>
  {
    if shifted then
      match Invalid(desired, data, nightfarer)
      case Some(e) => Err(e)
      case None => Err(UndefinedVesselData)
    else Calculated(desired, data, selected, nightfarer, table, showDeep, showForsaken, vesselData, items, catalogue)
  }

  /** `characterRelicData.relics || []`. */
  function RelicsOrEmpty(data: Option<CharacterRelicData>): seq<RawRelic>
  {
    if data.Some? && data.value.relics.Some? then data.value.relics.value else []
  }

  predicate HasGuaranteeable(r: VesselResult)
  {
    exists x :: x in r.baseRelics + r.deepRelics && x.relic.source == Some(GuaranteeableSource)
  }

  /** The potential builds kept: at least the owned maximum and using a guaranteeable relic. */
  function Upgrades(potential: seq<VesselResult>, maxOwned: int): (r: seq<VesselResult>)
    ensures forall x :: x in r <==> x in potential && x.score >= maxOwned && HasGuaranteeable(x)
  {
    if potential == [] then []
    else
      assert forall x :: x in potential <==> x == potential[0] || x in potential[1..];
      var p := potential[0];
      (if p.score >= maxOwned && HasGuaranteeable(p) then [p] else []) + Upgrades(potential[1..], maxOwned)
  }

  /** The highest owned score, 0 without owned builds. */
  function MaxOwned(owned: Option<seq<VesselResult>>): (m: int)
    ensures owned.Some? ==> forall x :: x in owned.value ==> x.score <= m
    ensures owned.Some? && owned.value != [] ==> exists x :: x in owned.value && x.score == m
    ensures owned.None? || owned.value == [] ==> m == 0
  {
    if owned.Some? && owned.value != [] then MaxOf(owned.value, ResultScore) else 0
  }

  /** `calculateWithGuaranteeableRelics`, with `shifted` choosing the argument order of its
      two `calculateBestRelics` calls (see `BestRelicsCall`). */
  function TwoPass(shifted: bool, desired: seq<DesiredEffect>, data: Option<CharacterRelicData>, selected: seq<string>,
                   nightfarer: string, table: EffectTable, showDeep: bool, showForsaken: bool,
                   vesselData: map<string, seq<Vessel>>, items: seq<(int, Item)>, catalogue: seq<CatalogueEffect>): Result<Outcome, string>
  {
    match BestRelicsCall(shifted, desired, data, selected, nightfarer, table, showDeep, showForsaken, vesselData, items, catalogue)
    case Err(e) => Err(e)
    case Ok(owned) => SecondPass(shifted, owned, desired, data, selected, nightfarer, table, showDeep, showForsaken, vesselData, items, catalogue)
  }

  /** The part of `calculateWithGuaranteeableRelics` after the first pass returned `owned`. */
  function SecondPass(shifted: bool, owned: Option<seq<VesselResult>>, desired: seq<DesiredEffect>, data: Option<CharacterRelicData>,
                      selected: seq<string>, nightfarer: string, table: EffectTable, showDeep: bool, showForsaken: bool,
                      vesselData: map<string, seq<Vessel>>, items: seq<(int, Item)>, catalogue: seq<CatalogueEffect>): Result<Outcome, string>
  {
    var relics := RelicsOrEmpty(data);
    var missing := GetMissing(relics, items, showDeep);
    if missing == [] then Ok(Owned(owned))
    else
      var augmented := Some(CharacterRelicData(Some(relics + SyntheticRaws(missing))));
      match BestRelicsCall(shifted, desired, augmented, selected, nightfarer, table, showDeep, showForsaken, vesselData, items, catalogue)
      case Err(e) => Err(e)
      case Ok(potential) => Ok(Offer(owned, potential))
  }

  /** The end of `calculateWithGuaranteeableRelics` once both passes returned: the owned
      results alone, unless some second-pass build qualifies as an upgrade. */
  function Offer(owned: Option<seq<VesselResult>>, potential: Option<seq<VesselResult>>): Outcome
  {
    if potential.None? || potential.value == [] then Owned(owned)
    else
      var kept := Upgrades(potential.value, MaxOwned(owned));
      if kept == [] then Owned(owned)
      else Both(if owned.Some? then owned.value else [], kept)
  }

  /** The new format is chosen exactly when a second-pass build scores at least the owned
      maximum and uses a guaranteeable relic, and its potential builds are exactly those. */
  lemma OfferBoth(owned: Option<seq<VesselResult>>, potential: Option<seq<VesselResult>>)
    ensures Offer(owned, potential).Both? <==>
      potential.Some? && exists x :: x in potential.value && x.score >= MaxOwned(owned) && HasGuaranteeable(x)
    ensures Offer(owned, potential).Both? ==> forall x :: x in Offer(owned, potential).potential <==>
      x in potential.value && x.score >= MaxOwned(owned) && HasGuaranteeable(x)
  {
    if potential.Some? && potential.value != [] {
      var kept := Upgrades(potential.value, MaxOwned(owned));
      if kept != [] {
        assert kept[0] in kept;
      }
    }
  }

  /** The augmented save file of the second pass. */
  function Augmented(data: Option<CharacterRelicData>, items: seq<(int, Item)>, showDeep: bool): Option<CharacterRelicData>
  {
    var relics := RelicsOrEmpty(data);
    Some(CharacterRelicData(Some(relics + SyntheticRaws(GetMissing(relics, items, showDeep)))))
  }

  /** As written, the calculation never returns builds: it fails with the first input check
      of `calculateBestRelics`, or reading the undefined vessel table. */
  lemma ShiftedCallAlwaysFails(desired: seq<DesiredEffect>, data: Option<CharacterRelicData>, selected: seq<string>,
                               nightfarer: string, table: EffectTable, showDeep: bool, showForsaken: bool,
                               vesselData: map<string, seq<Vessel>>, items: seq<(int, Item)>, catalogue: seq<CatalogueEffect>)
    ensures var r := TwoPass(true, desired, data, selected, nightfarer, table, showDeep, showForsaken, vesselData, items, catalogue);
      r.Err? && (Invalid(desired, data, nightfarer).None? ==> r.error == UndefinedVesselData)
      && (Invalid(desired, data, nightfarer).Some? ==> r.error == Invalid(desired, data, nightfarer).value)
  {
  }

  /** With the arguments in order, the calculation fails exactly when the first pass rejects
      its inputs, with the same message. */
  lemma TwoPassErrors(desired: seq<DesiredEffect>, data: Option<CharacterRelicData>, selected: seq<string>,
                      nightfarer: string, table: EffectTable, showDeep: bool, showForsaken: bool,
                      vesselData: map<string, seq<Vessel>>, items: seq<(int, Item)>, catalogue: seq<CatalogueEffect>)
    ensures var r := TwoPass(false, desired, data, selected, nightfarer, table, showDeep, showForsaken, vesselData, items, catalogue);
      (r.Err? <==> Invalid(desired, data, nightfarer).Some?)
      && (r.Err? ==> r.error == Invalid(desired, data, nightfarer).value)
  {
    var first := BestRelicsCall(false, desired, data, selected, nightfarer, table, showDeep, showForsaken, vesselData, items, catalogue);
    if Invalid(desired, data, nightfarer).Some? {
      assert first == Err(Invalid(desired, data, nightfarer).value);
    } else {
      assert first.Ok?;
      SecondPassSucceeds(first.value, desired, data, selected, nightfarer, table, showDeep, showForsaken, vesselData, items, catalogue);
    }
  }

  /** With usable inputs the second pass does not fail: its save file is the augmented one. */
  lemma SecondPassSucceeds(owned: Option<seq<VesselResult>>, desired: seq<DesiredEffect>, data: Option<CharacterRelicData>,
                           selected: seq<string>, nightfarer: string, table: EffectTable, showDeep: bool, showForsaken: bool,
                           vesselData: map<string, seq<Vessel>>, items: seq<(int, Item)>, catalogue: seq<CatalogueEffect>)
    requires Invalid(desired, data, nightfarer).None?
    ensures SecondPass(false, owned, desired, data, selected, nightfarer, table, showDeep, showForsaken, vesselData, items, catalogue).Ok?
  {
    var aug := Augmented(data, items, showDeep);
    assert Invalid(desired, aug, nightfarer).None?;
    assert BestRelicsCall(false, desired, aug, selected, nightfarer, table, showDeep, showForsaken, vesselData, items, catalogue).Ok?;
  }

  /** Whenever the owned format is returned, it holds exactly the first pass's builds; in
      particular when the save file lacks no guaranteeable relic. */
  lemma OwnedUnchanged(desired: seq<DesiredEffect>, data: Option<CharacterRelicData>, selected: seq<string>,
                       nightfarer: string, table: EffectTable, showDeep: bool, showForsaken: bool,
                       vesselData: map<string, seq<Vessel>>, items: seq<(int, Item)>, catalogue: seq<CatalogueEffect>)
    ensures var r := TwoPass(false, desired, data, selected, nightfarer, table, showDeep, showForsaken, vesselData, items, catalogue);
      var owned := Calculated(desired, data, selected, nightfarer, table, showDeep, showForsaken, vesselData, items, catalogue);
      (r.Ok? && r.value.Owned? ==> owned.Ok? && r.value.results == owned.value)
      && (owned.Ok? && GetMissing(RelicsOrEmpty(data), items, showDeep) == [] ==> r == Ok(Owned(owned.value)))
  {
  }

  /** The potential upgrades are builds of the second pass, all of its maximum score; each
      uses a guaranteeable relic and scores at least as much as every owned build. */
  lemma PotentialUpgrades(desired: seq<DesiredEffect>, data: Option<CharacterRelicData>, selected: seq<string>,
                          nightfarer: string, table: EffectTable, showDeep: bool, showForsaken: bool,
                          vesselData: map<string, seq<Vessel>>, items: seq<(int, Item)>, catalogue: seq<CatalogueEffect>)
    ensures var r := TwoPass(false, desired, data, selected, nightfarer, table, showDeep, showForsaken, vesselData, items, catalogue);
      var owned := Calculated(desired, data, selected, nightfarer, table, showDeep, showForsaken, vesselData, items, catalogue);
      var second := Calculated(desired, Augmented(data, items, showDeep), selected, nightfarer, table, showDeep, showForsaken,
                               vesselData, items, catalogue);
      r.Ok? && r.value.Both? ==>
        owned.Ok? && r.value.owned == (if owned.value.Some? then owned.value.value else [])
        && second.Ok? && second.value.Some? && r.value.potential != []
        && forall x :: x in r.value.potential ==>
             x in second.value.value && x.score == r.value.potential[0].score && HasGuaranteeable(x)
             && forall y :: y in r.value.owned ==> y.score <= x.score
  {
    var r := TwoPass(false, desired, data, selected, nightfarer, table, showDeep, showForsaken, vesselData, items, catalogue);
    var owned := Calculated(desired, data, selected, nightfarer, table, showDeep, showForsaken, vesselData, items, catalogue);
    var second := Calculated(desired, Augmented(data, items, showDeep), selected, nightfarer, table, showDeep, showForsaken,
                             vesselData, items, catalogue);
    if r.Ok? && r.value.Both? {
      var pot := r.value.potential;
      assert pot[0] in pot;
      forall x | x in pot
        ensures x in second.value.value && x.score == pot[0].score && HasGuaranteeable(x)
        ensures forall y :: y in r.value.owned ==> y.score <= x.score
      {
        assert x.score >= MaxOwned(owned.value);
      }
    }
  }

  /** Conversely, the new format is returned exactly when the save file lacks some
      guaranteeable relic and the second pass has a build that scores at least the owned
      maximum and uses a guaranteeable relic; its potential builds are then exactly those. */
  lemma UpgradesOffered(desired: seq<DesiredEffect>, data: Option<CharacterRelicData>, selected: seq<string>,
                        nightfarer: string, table: EffectTable, showDeep: bool, showForsaken: bool,
                        vesselData: map<string, seq<Vessel>>, items: seq<(int, Item)>, catalogue: seq<CatalogueEffect>)
    ensures var r := TwoPass(false, desired, data, selected, nightfarer, table, showDeep, showForsaken, vesselData, items, catalogue);
      var owned := Calculated(desired, data, selected, nightfarer, table, showDeep, showForsaken, vesselData, items, catalogue);
      var second := Calculated(desired, Augmented(data, items, showDeep), selected, nightfarer, table, showDeep, showForsaken,
                               vesselData, items, catalogue);
      r.Ok? ==>
        owned.Ok?
        && (r.value.Both? <==>
              GetMissing(RelicsOrEmpty(data), items, showDeep) != [] && second.Ok? && second.value.Some?
              && exists x :: x in second.value.value && x.score >= MaxOwned(owned.value) && HasGuaranteeable(x))
        && (r.value.Both? ==> forall x :: x in r.value.potential <==>
              x in second.value.value && x.score >= MaxOwned(owned.value) && HasGuaranteeable(x))
  {
    var r := TwoPass(false, desired, data, selected, nightfarer, table, showDeep, showForsaken, vesselData, items, catalogue);
    var owned := Calculated(desired, data, selected, nightfarer, table, showDeep, showForsaken, vesselData, items, catalogue);
    var second := Calculated(desired, Augmented(data, items, showDeep), selected, nightfarer, table, showDeep, showForsaken,
                             vesselData, items, catalogue);
    if r.Ok? {
      assert owned.Ok?;
      if GetMissing(RelicsOrEmpty(data), items, showDeep) != [] {
        assert second.Ok? && r.value == Offer(owned.value, second.value);
        OfferBoth(owned.value, second.value);
      } else {
        assert r.value.Owned?;
      }
    }
  }

  /** A guaranteeable relic in a potential upgrade is the synthetic relic of a definition
      the save file lacks (when no save-file record itself claims the guaranteeable source). */
  lemma UpgradesUseMissingRelics(desired: seq<DesiredEffect>, data: Option<CharacterRelicData>, selected: seq<string>,
                                 nightfarer: string, table: EffectTable, showDeep: bool, showForsaken: bool,
                                 vesselData: map<string, seq<Vessel>>, items: seq<(int, Item)>, catalogue: seq<CatalogueEffect>,
                                 x: VesselResult, y: Scored)
    requires forall i :: 0 <= i < |RelicsOrEmpty(data)| ==> RelicsOrEmpty(data)[i].source != Some(GuaranteeableSource)
    requires TwoPass(false, desired, data, selected, nightfarer, table, showDeep, showForsaken, vesselData, items, catalogue).Ok?
    requires TwoPass(false, desired, data, selected, nightfarer, table, showDeep, showForsaken, vesselData, items, catalogue).value.Both?
    requires x in TwoPass(false, desired, data, selected, nightfarer, table, showDeep, showForsaken, vesselData, items, catalogue).value.potential
    requires y in x.baseRelics + x.deepRelics && y.relic.source == Some(GuaranteeableSource)
    ensures exists d :: d in GetMissing(RelicsOrEmpty(data), items, showDeep) && y.relic.relicId == Some(d.itemId)
                        && !HasRelicInSaveFile(RelicsOrEmpty(data), d.itemId)
  {
    var relics := RelicsOrEmpty(data);
    var missing := GetMissing(relics, items, showDeep);
    var aug := Augmented(data, items, showDeep);
    var raws := relics + SyntheticRaws(missing);
    PotentialUpgrades(desired, data, selected, nightfarer, table, showDeep, showForsaken, vesselData, items, catalogue);
    CalculateUsesOwnRelics(desired, aug, selected, nightfarer, table, showDeep, showForsaken, vesselData, items, catalogue, x);
    var deep := y !in x.baseRelics;
    var i := GuaranteeableRecord(raws, items, table, desired, showForsaken, deep, y);
    assert i >= |relics|;
    var d := missing[i - |relics|];
    assert d in missing;
  }

  lemma GuaranteeableRecord(raws: seq<RawRelic>, items: seq<(int, Item)>, table: EffectTable, desired: seq<DesiredEffect>,
                            showForsaken: bool, deep: bool, y: Scored) returns (i: nat)
    requires FromSave(y, raws, items, table, desired, showForsaken, deep) && y.relic.source == Some(GuaranteeableSource)
    ensures i < |raws| && raws[i].source == Some(GuaranteeableSource) && y.relic.relicId == Some(raws[i].itemId)
  {
    assert !IsPlaceholder(y);
    i :| 0 <= i < |raws| && ProcessRelic(raws[i], items, table, showForsaken, deep) == Some(y.relic);
  }
}

=== FILE: pairing.dfy ===
/**
 * Pairing codes for device-to-device transfer (`crypto.js`): eight characters
 * drawn from a 32-letter alphabet without look-alikes, shown as `XXXX-XXXX`.
 */
module Pairing {
  import opened Bytes
  import opened Text

  /** The 24 letters and the 8 digits of the alphabet, each run in ascending order. */
  const CodeLetters: string := "ABCDEFGHJKLMNPQRSTUVWXYZ"
  const CodeDigits: string := "23456789"

  /** Upper-case letters and digits without I, O, 0 and 1. */
  const Base32Alphabet: string := CodeLetters + CodeDigits

  /** Each character of `s` has a larger code than the one before it. */
  predicate Ascending(s: string)
  {
    forall i :: 0 <= i < |s| - 1 ==> s[i] < s[i + 1]
  }

  lemma {:induction false} AscendingDistinct(s: string, i: nat, j: nat)
    requires Ascending(s) && i < j < |s|
    ensures s[i] < s[j]
    decreases j - i
  {
    if i + 1 < j {
      AscendingDistinct(s, i + 1, j);
    }
  }

  lemma RunsAscending()
    ensures Ascending(CodeLetters) && Ascending(CodeDigits)
    ensures forall k :: 0 <= k < |CodeLetters| ==> 'A' <= CodeLetters[k] <= 'Z'
    ensures forall k :: 0 <= k < |CodeDigits| ==> '2' <= CodeDigits[k] <= '9'
  {
  }

  /** The alphabet has 32 pairwise distinct characters. */
  lemma AlphabetDistinct()
    ensures |Base32Alphabet| == 32
    ensures forall i, j :: 0 <= i < j < 32 ==> Base32Alphabet[i] != Base32Alphabet[j]
  {
    RunsAscending();
    forall i, j | 0 <= i < j < 32 ensures Base32Alphabet[i] != Base32Alphabet[j] {
      if j < 24 {
        AscendingDistinct(CodeLetters, i, j);
      } else if 24 <= i {
        AscendingDistinct(CodeDigits, i - 24, j - 24);
      } else {
        assert Base32Alphabet[i] == CodeLetters[i] && Base32Alphabet[j] == CodeDigits[j - 24];
      }
    }
  }

  /** None of the look-alikes I, O, 0 and 1 is in the alphabet. */
  lemma NoLookAlikes()
    ensures 'I' !in Base32Alphabet && 'O' !in Base32Alphabet && '0' !in Base32Alphabet && '1' !in Base32Alphabet
  {
    RunsAscending();
    assert 'I' !in CodeLetters && 'O' !in CodeLetters;
  }

  /** `Math.floor(Math.random() * 32)` for one draw of `Math.random()`. */
  function DrawIndex(d: real): (k: nat)
    requires 0.0 <= d < 1.0
    ensures k < 32
  {
    (d * 32.0).Floor
  }

  predicate Draws(draws: seq<real>)
  {
    |draws| == 8 && forall i :: 0 <= i < 8 ==> 0.0 <= draws[i] < 1.0
  }

  /** The code the eight draws select. */
  function CodeOf(draws: seq<real>): (code: string)
    requires Draws(draws)
    ensures |code| == 8
    ensures forall i :: 0 <= i < 8 ==> code[i] == Base32Alphabet[DrawIndex(draws[i])]
  {
    seq(8, i requires 0 <= i < 8 => Base32Alphabet[DrawIndex(draws[i])])
  }

  /** `generatePairingCode`, with the eight `Math.random()` results passed in. */
  method GeneratePairingCode(draws: seq<real>) returns (code: string)
    requires Draws(draws)
    ensures code == CodeOf(draws)
  {
    code := "";
    for i := 0 to 8
      invariant code == CodeOf(draws)[..i]
    {
      code := code + [Base32Alphabet[DrawIndex(draws[i])]];
    }
  }

  /** Every generated code is eight alphabet characters, and every such string is
      generated by some draws. */
  lemma CodesAreExactlyAlphabetStrings(draws: seq<real>, code: string)
    requires Draws(draws)
    ensures forall i :: 0 <= i < 8 ==> CodeOf(draws)[i] in Base32Alphabet
    ensures |code| == 8 && (forall i :: 0 <= i < 8 ==> code[i] in Base32Alphabet) ==>
              exists ds :: Draws(ds) && CodeOf(ds) == code
  {
    if |code| == 8 && forall i :: 0 <= i < 8 ==> code[i] in Base32Alphabet {
      var ds := DrawsFor(code);
      forall i | 0 <= i < 8 ensures CodeOf(ds)[i] == code[i] {
        DrawOfPosition(PositionIn(code[i]));
      }
      assert CodeOf(ds) == code;
    }
  }

  /** Draws that select the given code: the alphabet position of each character, over 32. */
  function DrawsFor(code: string): (ds: seq<real>)
    requires |code| == 8 && forall i :: 0 <= i < 8 ==> code[i] in Base32Alphabet
    ensures Draws(ds)
    ensures forall i :: 0 <= i < 8 ==> ds[i] == PositionIn(code[i]) as real / 32.0
  {
    seq(8, i requires 0 <= i < 8 => PositionIn(code[i]) as real / 32.0)
  }

  /** Drawing `k / 32` selects position `k`. */
  lemma DrawOfPosition(k: nat)
    requires k < 32
    ensures DrawIndex(k as real / 32.0) == k
  {
    assert k as real / 32.0 * 32.0 == k as real;
  }

  /** Where a character sits in the alphabet. */
  function PositionIn(c: char): (k: nat)
    requires c in Base32Alphabet
    ensures k < 32 && Base32Alphabet[k] == c
  {
    PositionFrom(c, 0)
  }

  function PositionFrom(c: char, i: nat): (k: nat)
    requires i <= 32 && c in Base32Alphabet[i..]
    ensures i <= k < 32 && Base32Alphabet[k] == c
    decreases 32 - i
  {
    if Base32Alphabet[i] == c then i else PositionFrom(c, i + 1)
  }

  /** `formatPairingCode` (through `formatCode`): the first four characters, a dash, the rest. */
  function FormatPairingCode(code: string): (shown: string)
    ensures |code| == 8 ==> |shown| == 9 && shown[4] == '-'
  {
    Slice(code, 0, 4) + "-" + Drop(code, 4)
  }

  /** Removing the inserted dash gives the code back, whatever its length. */
  lemma FormatRoundTrip(code: string)
    ensures var p := Min(4, |code|);
      FormatPairingCode(code)[p] == '-' && FormatPairingCode(code)[..p] + FormatPairingCode(code)[p + 1..] == code
  {
    var p := Min(4, |code|);
    var shown := FormatPairingCode(code);
    assert shown[..p] == code[..p];
    assert shown[p + 1..] == code[p..];
  }
}

=== FILE: sections.dfy ===
/**
 * The static layout of the decrypted memory image: ten character windows and
 * the place where each character's name anchor is read.
 */
module Sections {
  import opened Bytes

  /** A character slot number, the keys of the `SECTIONS` table. */
  type SectionNumber = n: int | 1 <= n <= 10 witness 1

  const WindowStarts: seq<nat> := [
    0x00000004, 0x00100024, 0x00200044, 0x00300064, 0x00400084,
    0x005000A4, 0x006000C4, 0x007000E4, 0x00800104, 0x00900124]

  /** Inclusive window ends. */
  const WindowEnds: seq<nat> := [
    0x00100003, 0x00200023, 0x00300043, 0x00400063, 0x00500083,
    0x006000A3, 0x007000C3, 0x008000E3, 0x00900103, 0x00A00123]

  function Start(n: SectionNumber): nat { WindowStarts[n - 1] }

  function End(n: SectionNumber): (e: nat)
    ensures e == Start(n) + 0xF_FFFF
  {
    WindowEnds[n - 1]
  }

  /** Base of the name-anchor table and the stride between characters. */
  const NameBase: nat := 0xA01AA2
  const NameStride: nat := 0x290

  /** Where the name anchor of character `n` is read from the image. */
  function AnchorOffset(n: SectionNumber): (off: nat)
    ensures off == NameBase + (n - 1) * NameStride
    ensures forall m: SectionNumber :: off > End(m)
  {
    NameBase + (n - 1) * NameStride
  }

  /** The bytes of window `n`, cut short where the image ends (`read(end - start + 1)`). */
  function Window(image: seq<byte>, n: SectionNumber): (w: seq<byte>)
    ensures |w| <= End(n) - Start(n) + 1
    ensures End(n) < |image| ==> w == image[Start(n)..End(n) + 1]
  {
    Slice(image, Start(n), End(n) + 1)
  }

  /** Every window spans exactly 0x100000 bytes. */
  lemma WindowsSpanOneMegabyte(n: SectionNumber)
    ensures End(n) - Start(n) + 1 == 0x100000
  {
  }

  /** Windows are ordered by number and never overlap; each starts 0x20 bytes after the previous one ends. */
  lemma WindowsDisjoint(m: SectionNumber, n: SectionNumber)
    requires m < n
    ensures End(m) < Start(n)
    ensures n == m + 1 ==> Start(n) == End(m) + 0x21
  {
  }

  /** Anchors of different characters are `0x290` bytes apart, so their 10-byte reads never overlap. */
  lemma AnchorsDistinct(m: SectionNumber, n: SectionNumber)
    requires m < n
    ensures AnchorOffset(m) + 10 <= AnchorOffset(n)
  {
  }
}

=== FILE: slot_scanner.dfy ===
/**
 * The heuristic slot scanner (`empty_slot_finder_aow` / `emptySlotFinderAow`):
 * find the first self-consistent record boundary in a byte region, then walk
 * the region consuming 16/72/80-byte records, skipping 8-byte empty sentinels
 * and resynchronising one byte at a time, decoding every 72-byte record.
 */
module SlotScanner {
  import opened Wrappers
  import opened Bytes

  /** One decoded relic record; `offset` is absolute within the memory image. */
  datatype RelicSlot = RelicSlot(
    offset: int, size: nat, itemId: nat,
    effect1: nat, effect2: nat, effect3: nat,
    secEffect1: nat, secEffect2: nat, secEffect3: nat,
    sorting: nat)

  /** One character's extraction result. */
  datatype CharacterRelics = CharacterRelics(sectionNumber: int, characterName: string, relics: seq<RelicSlot>)

  /** The empty-record sentinel `00 00 00 00 FF FF FF FF`. */
  const Sentinel: seq<byte> := [0x00, 0x00, 0x00, 0x00, 0xFF, 0xFF, 0xFF, 0xFF]

  /** Record length for each size-class byte (`get_slot_size`). */
  function SlotSize(b4: byte): (r: Option<nat>)
    ensures r.Some? ==> r.value in {16, 72, 80}
    ensures r == Some(72) <==> b4 == 0xC0
  {
    if b4 == 0xC0 then Some(72)
    else if b4 == 0x90 then Some(16)
    else if b4 == 0x80 then Some(80)
    else None
  }

  /** The record-kind bytes 0x80..0x85 accepted at offset 2. */
  predicate IsKind(b3: byte)
  {
    0x80 <= b3 <= 0x85
  }

  /** `is_valid_slot_start`: the record length when a whole record is framed at `pos`. */
  function ValidSlotStart(data: seq<byte>, pos: nat): (r: Option<nat>)
    ensures r.Some? <==> pos + 4 <= |data| && IsKind(data[pos + 2])
                         && SlotSize(data[pos + 3]).Some? && pos + SlotSize(data[pos + 3]).value <= |data|
    ensures r.Some? ==> r == SlotSize(data[pos + 3])
  {
    if pos + 4 > |data| then None
    else if IsKind(data[pos + 2]) && SlotSize(data[pos + 3]).Some?
         && pos + SlotSize(data[pos + 3]).value <= |data|
    then SlotSize(data[pos + 3])
    else None
  }

  predicate EmptyAt(data: seq<byte>, pos: nat)
  {
    pos + 8 <= |data| && data[pos..pos + 8] == Sentinel
  }

  /** A framed record at `i` that is immediately followed by another framed record or a sentinel. */
  predicate AlignedAt(data: seq<byte>, i: nat)
  {
    ValidSlotStart(data, i).Some? &&
    var next := i + ValidSlotStart(data, i).value;
    ValidSlotStart(data, next).Some? || EmptyAt(data, next)
  }

  /** The first aligned position `j >= i` with `j < |data| - 8`. */
  function FirstAlignedFrom(data: seq<byte>, i: nat): (r: Option<nat>)
    decreases |data| - i
    ensures r.Some? ==> i <= r.value && r.value + 8 < |data| && AlignedAt(data, r.value)
    ensures r.Some? ==> forall j :: i <= j < r.value ==> !AlignedAt(data, j)
    ensures r.None? ==> forall j :: i <= j && j + 8 < |data| ==> !AlignedAt(data, j)
  {
    if i + 8 >= |data| then None
    else if AlignedAt(data, i) then Some(i)
    else FirstAlignedFrom(data, i + 1)
  }

  /** The fields of the 72-byte relic record at `p`; `base` is the region's absolute start. */
  function DecodeRelic(data: seq<byte>, p: nat, base: int): RelicSlot
    requires p + 72 <= |data|
  {
    RelicSlot(base + p, 72, LE24(data, p + 4),
              LE32(data, p + 16), LE32(data, p + 20), LE32(data, p + 24),
              LE32(data, p + 56), LE32(data, p + 60), LE32(data, p + 64),
              LE16(data, p))
  }

  /** The linear walk from `i`: consume a framed record, else a sentinel, else one byte. */
  function Walk(data: seq<byte>, i: nat, base: int): seq<RelicSlot>
    decreases |data| - i
  {
    if i + 4 >= |data| then []
    else match ValidSlotStart(data, i)
      case Some(size) =>
        (if data[i + 3] == 0xC0 then [DecodeRelic(data, i, base)] else []) + Walk(data, i + size, base)
      case None =>
        if EmptyAt(data, i) then Walk(data, i + 8, base) else Walk(data, i + 1, base)
  }

  /** Alignment discovery followed by the walk; no alignment means no relics. */
  function Scan(data: seq<byte>, base: int): seq<RelicSlot>
  {
    match FirstAlignedFrom(data, 0)
    case None => []
    case Some(start) => Walk(data, start, base)
  }

  /** The alignment search loop of the scanner. */
  method FindAlignment(data: seq<byte>) returns (start: Option<nat>)
    ensures start.Some? ==> start.value + 8 < |data| && AlignedAt(data, start.value)
    ensures start.Some? ==> forall j :: 0 <= j < start.value ==> !AlignedAt(data, j)
    ensures start.None? ==> forall j :: 0 <= j && j + 8 < |data| ==> !AlignedAt(data, j)
  {
    var i := 0;
    while i < |data| - 8
      invariant 0 <= i
      invariant forall j :: 0 <= j < i ==> !AlignedAt(data, j)
    {
      var valid := ValidSlotStart(data, i);
      if valid.Some? {
        var nextPos := i + valid.value;
        var validNext := ValidSlotStart(data, nextPos);
        var isEmptyNext := nextPos + 8 <= |data| && data[nextPos..nextPos + 8] == Sentinel;
        if validNext.Some? || isEmptyNext {
          return Some(i);
        }
      }
      i := i + 1;
    }
    return None;
  }

  /** The alignment the loop found is the first one. */
  lemma FirstAlignedIs(data: seq<byte>, start: nat)
    requires start + 8 < |data| && AlignedAt(data, start)
    requires forall j :: 0 <= j < start ==> !AlignedAt(data, j)
    ensures FirstAlignedFrom(data, 0) == Some(start)
  {
    var f := FirstAlignedFrom(data, 0);
    assert f.Some?;
    assert !(f.value < start);
  }

  /** `empty_slot_finder_aow` / `emptySlotFinderAow` over region bytes starting at absolute offset `base`. */
  method EmptySlotFinder(data: seq<byte>, base: int) returns (found: seq<RelicSlot>)
    ensures found == Scan(data, base)
  {
    var startOffset := FindAlignment(data);
    if startOffset.None? {
      return [];
    }
    FirstAlignedIs(data, startOffset.value);
    found := [];
    var i := startOffset.value;
    while i + 4 < |data|
      invariant found + Walk(data, i, base) == Scan(data, base)
      decreases |data| - i
    {
      var valid := ValidSlotStart(data, i);
      if valid.Some? {
        if data[i + 3] == 0xC0 {
          found := found + [DecodeRelic(data, i, base)];
        }
        i := i + valid.value;
      } else if i + 8 <= |data| && data[i..i + 8] == Sentinel {
        i := i + 8;
      } else {
        i := i + 1;
      }
    }
  }

  // ---------------------------------------------------------------------------
  // What every emitted relic is

  /** `r` is the decoding of a framed 72-byte record of `data` at `r.offset - base`. */
  predicate Framed(data: seq<byte>, base: int, r: RelicSlot)
  {
    var p := r.offset - base;
    0 <= p && p + 72 <= |data| && IsKind(data[p + 2]) && data[p + 3] == 0xC0
    && r == DecodeRelic(data, p, base)
  }

  /** Every relic of `ws` is framed in `data` and lies at or after absolute offset `lo`. */
  predicate AllFramedFrom(data: seq<byte>, base: int, ws: seq<RelicSlot>, lo: int)
  {
    forall k :: 0 <= k < |ws| ==> Framed(data, base, ws[k]) && lo <= ws[k].offset
  }

  /** Consecutive relics are at increasing offsets and do not overlap. */
  predicate Spaced(ws: seq<RelicSlot>)
  {
    forall k :: 0 <= k < |ws| - 1 ==> ws[k].offset + 72 <= ws[k + 1].offset
  }

  /** Where the walk goes from `i`: past the framed record, past the sentinel, or one byte on. */
  function Next(data: seq<byte>, i: nat): (j: nat)
    ensures i < j <= i + 80
  {
    match ValidSlotStart(data, i)
    case Some(size) => i + size
    case None => if EmptyAt(data, i) then i + 8 else i + 1
  }

  /** What the walk emits at `i`: the relic when a 72-byte record is framed there. */
  function Head(data: seq<byte>, i: nat, base: int): (h: seq<RelicSlot>)
    requires i + 4 < |data|
    ensures |h| <= 1
    ensures |h| == 1 ==> Framed(data, base, h[0]) && h[0].offset == base + i && Next(data, i) == i + 72
  {
    if ValidSlotStart(data, i).Some? && data[i + 3] == 0xC0 then [DecodeRelic(data, i, base)] else []
  }

  /** One step of the walk. */
  lemma WalkStep(data: seq<byte>, i: nat, base: int)
    requires i + 4 < |data|
    ensures Walk(data, i, base) == Head(data, i, base) + Walk(data, Next(data, i), base)
  {
  }

  /** Emitted relics are framed 72-byte records at or after the walk's start. */
  lemma {:induction false} WalkFramed(data: seq<byte>, i: nat, base: int)
    ensures AllFramedFrom(data, base, Walk(data, i, base), base + i)
    decreases |data| - i
  {
    if i + 4 < |data| {
      WalkStep(data, i, base);
      WalkFramed(data, Next(data, i), base);
      var h, rest := Head(data, i, base), Walk(data, Next(data, i), base);
      forall k | 0 <= k < |h + rest|
        ensures Framed(data, base, (h + rest)[k]) && base + i <= (h + rest)[k].offset
      {
        if k >= |h| {
          assert (h + rest)[k] == rest[k - |h|];
        }
      }
    }
  }

  /** Emitted relics lie at or after the walk's start. */
  lemma {:induction false} WalkAtLeast(data: seq<byte>, i: nat, base: int)
    ensures forall k :: 0 <= k < |Walk(data, i, base)| ==> base + i <= Walk(data, i, base)[k].offset
    decreases |data| - i
  {
    if i + 4 < |data| {
      WalkStep(data, i, base);
      WalkAtLeast(data, Next(data, i), base);
      var h, rest := Head(data, i, base), Walk(data, Next(data, i), base);
      assert forall k :: |h| <= k < |h + rest| ==> (h + rest)[k] == rest[k - |h|];
    }
  }

  /** Emitted relics are in increasing offset order and never overlap. */
  lemma {:induction false} WalkSpaced(data: seq<byte>, i: nat, base: int)
    ensures Spaced(Walk(data, i, base))
    decreases |data| - i
  {
    if i + 4 < |data| {
      WalkStep(data, i, base);
      WalkSpaced(data, Next(data, i), base);
      WalkAtLeast(data, Next(data, i), base);
      var h, rest := Head(data, i, base), Walk(data, Next(data, i), base);
      assert forall k :: |h| <= k < |h + rest| ==> (h + rest)[k] == rest[k - |h|];
    }
  }

  /** Each relic takes 72 bytes of the walked span, so the walk emits at most `(|data| - i) / 72` of them. */
  lemma {:induction false} WalkCount(data: seq<byte>, i: nat, base: int)
    ensures 72 * |Walk(data, i, base)| <= Max(0, |data| - i)
    decreases |data| - i
  {
    if i + 4 < |data| {
      WalkStep(data, i, base);
      WalkCount(data, Next(data, i), base);
    }
  }

  /** Every relic of a scan is a framed 72-byte record of the region, reported at `base + p`. */
  lemma ScanFramed(data: seq<byte>, base: int)
    ensures forall r :: r in Scan(data, base) ==> Framed(data, base, r) && r.size == 72
    ensures Spaced(Scan(data, base))
    ensures 72 * |Scan(data, base)| <= |data|
  {
    match FirstAlignedFrom(data, 0)
    case None =>
    case Some(start) =>
      WalkFramed(data, start, base);
      WalkSpaced(data, start, base);
      WalkCount(data, start, base);
  }

  // ---------------------------------------------------------------------------
  // Synthetic regions

  /** `k` copies of the empty sentinel. */
  function Sentinels(k: nat): (r: seq<byte>)
    ensures |r| == 8 * k
    ensures forall t :: 0 <= t < |r| ==> r[t] == 0x00 || r[t] == 0xFF
  {
    if k == 0 then [] else Sentinel + Sentinels(k - 1)
  }

  /** The walk passes over trailing sentinels without emitting anything. */
  lemma {:induction false} WalkOverSentinels(data: seq<byte>, q: nat, n: nat, base: int)
    requires q + 8 * n == |data| && data[q..] == Sentinels(n)
    ensures Walk(data, q, base) == []
    decreases n
  {
    if q + 4 < |data| {
      assert data[q + 2] == data[q..][2] == 0;
      assert ValidSlotStart(data, q).None?;
      assert data[q..q + 8] == data[q..][..8] == Sentinel;
      assert data[q + 8..] == data[q..][8..] == Sentinels(n - 1);
      WalkOverSentinels(data, q + 8, n - 1, base);
    }
  }

  /** A region holding only empty sentinels yields no relics: no position is aligned. */
  lemma SentinelRegionScansEmpty(k: nat, base: int)
    ensures Scan(Sentinels(k), base) == []
  {
    var d := Sentinels(k);
    assert forall j: nat :: j + 4 <= |d| ==> ValidSlotStart(d, j).None?;
    assert FirstAlignedFrom(d, 0).None?;
  }

  predicate Encodable(r: RelicSlot)
  {
    r.sorting < 0x1_0000 && r.itemId < 0x100_0000
    && r.effect1 < 0x1_0000_0000 && r.effect2 < 0x1_0000_0000 && r.effect3 < 0x1_0000_0000
    && r.secEffect1 < 0x1_0000_0000 && r.secEffect2 < 0x1_0000_0000 && r.secEffect3 < 0x1_0000_0000
  }

  /** Three little-endian 32-bit words. */
  function Words(a: nat, b: nat, c: nat): (w: seq<byte>)
    ensures |w| == 12
  {
    EncodeLE(a, 4) + EncodeLE(b, 4) + EncodeLE(c, 4)
  }

  /** The bytes of a 72-byte relic record holding the fields of `r` (kind byte 0x80). */
  function EncodeRelic(r: RelicSlot): (rec: seq<byte>)
    ensures |rec| == 72
  {
    (EncodeLE(r.sorting, 2) + [0x80, 0xC0] + EncodeLE(r.itemId, 3) + Zeros(9))
    + Words(r.effect1, r.effect2, r.effect3) + Zeros(28)
    + Words(r.secEffect1, r.secEffect2, r.secEffect3) + Zeros(4)
  }

  lemma WordsAt(data: seq<byte>, p: nat, a: nat, b: nat, c: nat)
    requires a < 0x1_0000_0000 && b < 0x1_0000_0000 && c < 0x1_0000_0000
    requires p + 12 <= |data| && data[p..p + 12] == Words(a, b, c)
    ensures LE32(data, p) == a && LE32(data, p + 4) == b && LE32(data, p + 8) == c
  {
    var w := Words(a, b, c);
    assert w[0..4] == EncodeLE(a, 4) && w[4..8] == EncodeLE(b, 4) && w[8..12] == EncodeLE(c, 4);
    Piece(data, p, w, 0, 4);
    Piece(data, p, w, 4, 8);
    Piece(data, p, w, 8, 12);
    LE32OfEncode(a, data, p);
    LE32OfEncode(b, data, p + 4);
    LE32OfEncode(c, data, p + 8);
  }

  /** Decoding an encoded record at any position gives back its fields, offset `base + p`, size 72. */
  lemma DecodeEncode(r: RelicSlot, data: seq<byte>, p: nat, base: int)
    requires Encodable(r)
    requires p + 72 <= |data| && data[p..p + 72] == EncodeRelic(r)
    ensures DecodeRelic(data, p, base) == r.(offset := base + p, size := 72)
  {
    var rec := EncodeRelic(r);
    var head := EncodeLE(r.sorting, 2) + [0x80, 0xC0] + EncodeLE(r.itemId, 3) + Zeros(9);
    var primary := Words(r.effect1, r.effect2, r.effect3);
    var secondary := Words(r.secEffect1, r.secEffect2, r.secEffect3);
    assert rec == head + primary + Zeros(28) + secondary + Zeros(4);
    assert rec[0..2] == EncodeLE(r.sorting, 2);
    assert rec[4..7] == EncodeLE(r.itemId, 3);
    assert rec[16..28] == primary;
    assert rec[56..68] == secondary;
    Piece(data, p, rec, 0, 2);
    Piece(data, p, rec, 4, 7);
    Piece(data, p, rec, 16, 28);
    Piece(data, p, rec, 56, 68);
    LE16OfEncode(r.sorting, data, p);
    LE24OfEncode(r.itemId, data, p + 4);
    WordsAt(data, p + 16, r.effect1, r.effect2, r.effect3);
    WordsAt(data, p + 56, r.secEffect1, r.secEffect2, r.secEffect3);
  }

  /** The kind and size-class bytes of an encoded record, and its sorting key's high byte. */
  lemma RecordHeader(r: RelicSlot)
    requires r.sorting < 0x8000
    ensures EncodeRelic(r)[1] < 0x80
    ensures EncodeRelic(r)[2] == 0x80 && EncodeRelic(r)[3] == 0xC0
  {
    var rec := EncodeRelic(r);
    assert rec[0..2] == EncodeLE(r.sorting, 2);
    assert rec[1] == EncodeLE(r.sorting, 2)[1] == r.sorting / 0x100 % 0x100;
  }

  /** A region laid out as `k` sentinels, one relic record, then `m` sentinels. */
  predicate LoneRecordLayout(d: seq<byte>, r: RelicSlot, k: nat, m: nat)
  {
    |d| == 8 * k + 72 + 8 * m && d[..8 * k] == Sentinels(k)
    && d[8 * k..8 * k + 72] == EncodeRelic(r) && d[8 * k + 72..] == Sentinels(m)
  }

  /** With a sorting key below 0x8000, no position of the leading sentinels lines up with a record. */
  lemma NoAlignmentBefore(d: seq<byte>, r: RelicSlot, k: nat, m: nat)
    requires LoneRecordLayout(d, r, k, m) && r.sorting < 0x8000
    ensures forall j :: 0 <= j < 8 * k ==> !AlignedAt(d, j)
  {
    var rec := EncodeRelic(r);
    var at := 8 * k;
    RecordHeader(r);
    forall j: nat | j < at
      ensures ValidSlotStart(d, j).None?
    {
      if j + 2 < at {
        assert d[j + 2] == d[..at][j + 2];
      } else if j + 2 == at {
        assert d[j + 3] == d[at..at + 72][1];
      } else {
        assert d[j + 2] == d[at..at + 72][1];
      }
    }
  }

  /** A record preceded by nothing aligned and followed by sentinels is the scan's only relic. */
  lemma ScanOfLoneRecord(d: seq<byte>, at: nat, r: RelicSlot, m: nat, base: int)
    requires Encodable(r) && r.sorting < 0x8000 && 1 <= m
    requires at + 72 + 8 * m == |d| && d[at..at + 72] == EncodeRelic(r) && d[at + 72..] == Sentinels(m)
    requires forall j :: 0 <= j < at ==> !AlignedAt(d, j)
    ensures Scan(d, base) == [r.(offset := base + at, size := 72)]
  {
    var rec := EncodeRelic(r);
    RecordHeader(r);
    assert d[at + 2] == rec[2] && d[at + 3] == rec[3];
    assert ValidSlotStart(d, at) == Some(72);
    assert d[at + 72..at + 80] == Sentinels(m)[..8] == Sentinel;
    assert AlignedAt(d, at);
    FirstAlignedIs(d, at);
    WalkOverSentinels(d, at + 72, m, base);
    DecodeEncode(r, d, at, base);
    assert Walk(d, at, base) == [DecodeRelic(d, at, base)] + Walk(d, at + 72, base);
  }

  lemma Middle<T>(a: seq<T>, b: seq<T>, c: seq<T>)
    ensures (a + b + c)[|a|..|a| + |b|] == b && (a + b + c)[|a| + |b|..] == c
  {
  }

  /** One relic record between runs of sentinels is found exactly, at its own offset.
      The sorting key must stay below 0x8000: its high byte is what a scan
      starting two bytes early reads as the size class. */
  lemma EmbeddedRelicScan(d: seq<byte>, r: RelicSlot, k: nat, m: nat, base: int)
    requires Encodable(r) && r.sorting < 0x8000 && 1 <= m
    requires LoneRecordLayout(d, r, k, m)
    ensures Scan(d, base) == [r.(offset := base + 8 * k, size := 72)]
  {
    NoAlignmentBefore(d, r, k, m);
    ScanOfLoneRecord(d, 8 * k, r, m, base);
  }

  /** Such a region exists for every record and pair of run lengths. */
  lemma LoneRecordLayoutExists(r: RelicSlot, k: nat, m: nat)
    ensures LoneRecordLayout(Sentinels(k) + EncodeRelic(r) + Sentinels(m), r, k, m)
  {
    var a, b, c := Sentinels(k), EncodeRelic(r), Sentinels(m);
    assert (a + b + c)[..|a|] == a;
    assert (a + b + c)[|a|..|a| + |b|] == b;
    assert (a + b + c)[|a| + |b|..] == c;
  }
}

=== FILE: stable_sort.dfy ===
/**
 * The stable sort that `Array.prototype.sort` performs with a numeric comparator
 * (`(a, b) => key(a) - key(b)`): keys end up non-decreasing, the result is a
 * permutation of the input, and elements with equal keys keep their input order.
 */
module StableSort {

  predicate SortedBy<T>(s: seq<T>, key: T -> int)
  {
    forall i, j :: 0 <= i < j < |s| ==> key(s[i]) <= key(s[j])
  }

  /** The elements of `s` whose key is `k`, in their order in `s`. */
  function WithKey<T>(s: seq<T>, key: T -> int, k: int): seq<T>
  {
    if s == [] then []
    else WithKey(s[..|s| - 1], key, k) + (if key(s[|s| - 1]) == k then [s[|s| - 1]] else [])
  }

  /** Places `x` after every element of `t` whose key is not greater than its own. */
  function Insert<T>(x: T, t: seq<T>, key: T -> int): seq<T>
  {
    if t == [] || key(t[|t| - 1]) <= key(x) then t + [x]
    else Insert(x, t[..|t| - 1], key) + [t[|t| - 1]]
  }

  /** Insertion sort: each element, in input order, is inserted into the sorted prefix. */
  function SortBy<T>(s: seq<T>, key: T -> int): seq<T>
  {
    if s == [] then [] else Insert(s[|s| - 1], SortBy(s[..|s| - 1], key), key)
  }

  lemma {:induction false} WithKeyAppend<T>(s: seq<T>, t: seq<T>, key: T -> int, k: int)
    ensures WithKey(s + t, key, k) == WithKey(s, key, k) + WithKey(t, key, k)
    decreases |t|
  {
    if t == [] {
      assert s + t == s;
    } else {
      assert (s + t)[..|s + t| - 1] == s + t[..|t| - 1];
      WithKeyAppend(s, t[..|t| - 1], key, k);
    }
  }

  lemma {:induction false} WithKeyNone<T>(s: seq<T>, key: T -> int, k: int)
    requires forall i :: 0 <= i < |s| ==> key(s[i]) != k
    ensures WithKey(s, key, k) == []
  {
    if s != [] {
      WithKeyNone(s[..|s| - 1], key, k);
    }
  }

  lemma {:induction false} InsertMultiset<T>(x: T, t: seq<T>, key: T -> int)
    ensures multiset(Insert(x, t, key)) == multiset(t) + multiset{x}
    decreases |t|
  {
    if !(t == [] || key(t[|t| - 1]) <= key(x)) {
      var init := t[..|t| - 1];
      assert t == init + [t[|t| - 1]];
      InsertMultiset(x, init, key);
    }
  }

  lemma {:induction false} InsertSorted<T>(x: T, t: seq<T>, key: T -> int)
    requires SortedBy(t, key)
    ensures SortedBy(Insert(x, t, key), key)
    decreases |t|
  {
    if !(t == [] || key(t[|t| - 1]) <= key(x)) {
      var init, last := t[..|t| - 1], t[|t| - 1];
      InsertSorted(x, init, key);
      InsertMultiset(x, init, key);
      var ri := Insert(x, init, key);
      forall i | 0 <= i < |ri| ensures key(ri[i]) <= key(last) {
        assert ri[i] in multiset(ri);
        if ri[i] != x {
          assert ri[i] in multiset(init);
          assert ri[i] in init;
        }
      }
      assert Insert(x, t, key) == ri + [last];
    }
  }

  lemma {:induction false} InsertWithKey<T>(x: T, t: seq<T>, key: T -> int, k: int)
    requires SortedBy(t, key)
    ensures WithKey(Insert(x, t, key), key, k) == WithKey(t, key, k) + (if key(x) == k then [x] else [])
    decreases |t|
  {
    var r := Insert(x, t, key);
    if t == [] || key(t[|t| - 1]) <= key(x) {
      assert r[..|r| - 1] == t;
    } else {
      var init, last := t[..|t| - 1], t[|t| - 1];
      InsertWithKey(x, init, key, k);
      var ri := Insert(x, init, key);
      assert r[..|r| - 1] == ri;
      assert t[..|t| - 1] == init;
      if key(x) == k {
        assert key(last) != k;
      }
    }
  }

  lemma {:induction false} SortFacts<T>(s: seq<T>, key: T -> int)
    ensures multiset(SortBy(s, key)) == multiset(s)
    ensures SortedBy(SortBy(s, key), key)
    ensures forall k :: WithKey(SortBy(s, key), key, k) == WithKey(s, key, k)
  {
    if s != [] {
      var init := s[..|s| - 1];
      assert s == init + [s[|s| - 1]];
      SortFacts(init, key);
      InsertMultiset(s[|s| - 1], SortBy(init, key), key);
      InsertSorted(s[|s| - 1], SortBy(init, key), key);
      forall k ensures WithKey(SortBy(s, key), key, k) == WithKey(s, key, k) {
        InsertWithKey(s[|s| - 1], SortBy(init, key), key, k);
      }
    }
  }

  lemma SortLength<T>(s: seq<T>, key: T -> int)
    ensures |SortBy(s, key)| == |s|
  {
    SortFacts(s, key);
    assert |multiset(SortBy(s, key))| == |multiset(s)|;
  }

  /** A sequence already in key order is left exactly as it is. */
  lemma {:induction false} SortSortedIsIdentity<T>(s: seq<T>, key: T -> int)
    requires SortedBy(s, key)
    ensures SortBy(s, key) == s
  {
    if s != [] {
      var init := s[..|s| - 1];
      assert SortedBy(init, key);
      SortSortedIsIdentity(init, key);
      assert s == init + [s[|s| - 1]];
    }
  }

  /** Two positions holding the same key put at least two elements under that key. */
  lemma {:induction false} WithKeyTwo<T>(s: seq<T>, key: T -> int, i: nat, j: nat)
    requires i < j < |s|
    ensures key(s[i]) == key(s[j]) ==> |WithKey(s, key, key(s[i]))| >= 2
    decreases |s|
  {
    var init := s[..|s| - 1];
    if j < |s| - 1 {
      WithKeyTwo(init, key, i, j);
    } else {
      WithKeyHas(init, key, i);
    }
  }

  lemma {:induction false} WithKeyHas<T>(s: seq<T>, key: T -> int, i: nat)
    requires i < |s|
    ensures |WithKey(s, key, key(s[i]))| >= 1
    decreases |s|
  {
    if i < |s| - 1 {
      WithKeyHas(s[..|s| - 1], key, i);
    }
  }
}

=== FILE: text.dfy ===
/**
 * String primitives the client relies on: case mapping (ASCII letters only),
 * `String.prototype.trim`, prefix tests, and the decimal rendering of an
 * integer that template literals and `toString()` produce.
 */
module Text {
  import opened Wrappers

  /** `toLowerCase` on one character, for ASCII letters. */
  function Lower(c: char): (d: char)
    ensures 'A' <= c <= 'Z' ==> d as int == c as int + 32
    ensures !('A' <= c <= 'Z') ==> d == c
  {
    if 'A' <= c <= 'Z' then (c as int + 32) as char else c
  }

  /** `toUpperCase` on one character, for ASCII letters. */
  function Upper(c: char): (d: char)
    ensures 'a' <= c <= 'z' ==> d as int == c as int - 32
    ensures !('a' <= c <= 'z') ==> d == c
  {
    if 'a' <= c <= 'z' then (c as int - 32) as char else c
  }

  function LowerStr(s: string): (r: string)
    ensures |r| == |s| && forall k :: 0 <= k < |s| ==> r[k] == Lower(s[k])
  {
    seq(|s|, k requires 0 <= k < |s| => Lower(s[k]))
  }

  /** Lower-casing twice is lower-casing once. */
  lemma LowerIdempotent(s: string)
    ensures LowerStr(LowerStr(s)) == LowerStr(s)
  {
    assert forall k :: 0 <= k < |s| ==> Lower(Lower(s[k])) == Lower(s[k]);
  }

  /** Lower-casing distributes over concatenation. */
  lemma LowerConcat(a: string, b: string)
    ensures LowerStr(a + b) == LowerStr(a) + LowerStr(b)
  {
  }

  /** `s.slice(n)` for `n >= 0`: the characters from index `n`, empty past the end. */
  function Drop(s: string, n: nat): (r: string)
    ensures n <= |s| ==> r == s[n..]
    ensures n > |s| ==> r == []
  {
    if n <= |s| then s[n..] else []
  }

  predicate StartsWith(s: string, prefix: string)
  {
    |prefix| <= |s| && s[..|prefix|] == prefix
  }

  /** The characters `trim` removes: the white-space and line-terminator code points. */
  predicate IsJsSpace(c: char)
  {
    var u := c as int;
    (0x09 <= u <= 0x0D) || u == 0x20 || u == 0xA0 || u == 0x1680 || (0x2000 <= u <= 0x200A)
    || u == 0x2028 || u == 0x2029 || u == 0x202F || u == 0x205F || u == 0x3000 || u == 0xFEFF
  }

  /** `trimStart`: the longest suffix that does not start with a space. */
  function TrimStart(s: string): (r: string)
    ensures |r| <= |s| && r == s[|s| - |r|..]
    ensures r == [] || !IsJsSpace(r[0])
    ensures forall k :: 0 <= k < |s| - |r| ==> IsJsSpace(s[k])
  {
    if s != [] && IsJsSpace(s[0]) then TrimStart(s[1..]) else s
  }

  /** `trimEnd`: the longest prefix that does not end with a space. */
  function TrimEnd(s: string): (r: string)
    ensures |r| <= |s| && r == s[..|r|]
    ensures r == [] || !IsJsSpace(r[|r| - 1])
    ensures forall k :: |r| <= k < |s| ==> IsJsSpace(s[k])
  {
    if s != [] && IsJsSpace(s[|s| - 1]) then TrimEnd(s[..|s| - 1]) else s
  }

  /** `trim`. */
  function Trim(s: string): (r: string)
    ensures r == [] || (!IsJsSpace(r[0]) && !IsJsSpace(r[|r| - 1]))
  {
    TrimEnd(TrimStart(s))
  }

  /** Trimming a string without surrounding spaces changes nothing. */
  lemma TrimNoSpaces(s: string)
    requires s == [] || (!IsJsSpace(s[0]) && !IsJsSpace(s[|s| - 1]))
    ensures Trim(s) == s
  {
  }

  /** `trim` is idempotent. */
  lemma TrimIdempotent(s: string)
    ensures Trim(Trim(s)) == Trim(s)
  {
    TrimNoSpaces(Trim(s));
  }

  // ---------------------------------------------------------------------------
  // Decimal rendering

  function Digit(d: nat): (c: char)
    requires d < 10
    ensures '0' <= c <= '9' && c as int - '0' as int == d
  {
    ('0' as int + d) as char
  }

  predicate AllDigits(s: string)
  {
    forall k :: 0 <= k < |s| ==> '0' <= s[k] <= '9'
  }

  /** The decimal digits of `n`, most significant first, without leading zeros. */
  function Digits(n: nat): (s: string)
    ensures |s| >= 1 && AllDigits(s)
    ensures (|s| == 1) == (n < 10)
  {
    if n < 10 then [Digit(n)] else Digits(n / 10) + [Digit(n % 10)]
  }

  /** `${n}` for an integer `n`. */
  function DecimalString(n: int): (s: string)
    ensures s != []
  {
    if n < 0 then "-" + Digits(-n) else Digits(n)
  }

  /** The value of a string of decimal digits. */
  function DigitsValue(s: string): nat
    requires AllDigits(s)
  {
    if s == [] then 0 else 10 * DigitsValue(s[..|s| - 1]) + (s[|s| - 1] as int - '0' as int)
  }

  /** The digits read back as the number they render. */
  lemma {:induction false} DigitsRoundTrip(n: nat)
    ensures DigitsValue(Digits(n)) == n
  {
    if n >= 10 {
      DigitsRoundTrip(n / 10);
      var s := Digits(n);
      assert s[..|s| - 1] == Digits(n / 10);
    }
  }

  /** Reads an optional minus sign followed by at least one decimal digit. */
  function ParseDecimal(s: string): Option<int>
  {
    if s != [] && s[0] == '-' && |s| > 1 && AllDigits(s[1..]) then Some(0 - DigitsValue(s[1..]) as int)
    else if s != [] && AllDigits(s) then Some(DigitsValue(s))
    else None
  }

  /** Rendering an integer and reading it back gives the integer. */
  lemma DecimalRoundTrip(n: int)
    ensures ParseDecimal(DecimalString(n)) == Some(n)
  {
    if n < 0 {
      NegativeRoundTrip(n);
    } else {
      DigitsRoundTrip(n);
      assert Digits(n)[0] != '-';
    }
  }

  lemma NegativeRoundTrip(n: int)
    requires n < 0
    ensures ParseDecimal(DecimalString(n)) == Some(n)
  {
    var ds := Digits(-n);
    var s := "-" + ds;
    assert s[0] == '-' && |s| > 1 && s[1..] == ds;
    DigitsRoundTrip(-n);
  }

  /** Distinct integers render as distinct strings. */
  lemma DecimalStringInjective(a: int, b: int)
    requires DecimalString(a) == DecimalString(b)
    ensures a == b
  {
    DecimalRoundTrip(a);
    DecimalRoundTrip(b);
  }
}

=== FILE: transfer.dfy ===
/**
 * Peer-to-peer transfer of saved data (`peerjs.js`): the choice of signalling
 * server from the pairing code, the sender's chunked transmission, and the
 * receiver's reassembly.  The payload is the UTF-8 encoding of the JSON text;
 * the model starts from those bytes.
 */
module Transfer {
  import opened Wrappers
  import opened Bytes

  // ---------------------------------------------------------------------------
  // Server selection

  const ServerCount: nat := 3
  const ServerHosts: seq<string> := ["0.peerjs.com", "1.peerjs.com", "2.peerjs.com"]

  const Modulus: int := 0x1_0000_0000

  /** ECMAScript `ToInt32`: the 32-bit two's-complement value congruent to `x`. */
  function Wrap32(x: int): (r: int)
    ensures -0x8000_0000 <= r < 0x8000_0000
    ensures r % Modulus == x % Modulus
  {
    ToInt32(x % Modulus)
  }

  /** One step of the loop: `hash = ((hash << 5) - hash) + c; hash = hash & hash`. */
  function HashStep(hash: int, c: char): int
  {
    Wrap32(Wrap32(hash * 32) - hash + c as int)
  }

  /** The hash after the whole code, folded from the left. */
  function HashOf(code: string): (h: int)
    ensures -0x8000_0000 <= h < 0x8000_0000
  {
    if code == [] then 0 else HashStep(HashOf(code[..|code| - 1]), code[|code| - 1])
  }

  /** The unbounded polynomial hash `sum code[i] * 31^(n-1-i)`. */
  function Poly(code: string): int
  {
    if code == [] then 0 else 31 * Poly(code[..|code| - 1]) + code[|code| - 1] as int
  }

  function Abs(x: int): nat { if x < 0 then -x else x }

  /** The server index for a code: `Math.abs(hash) % 3`. */
  function ServerIndex(code: string): (i: nat)
    ensures i < ServerCount
  {
    Abs(HashOf(code)) % ServerCount
  }

  lemma ModShift(a: int, k: int)
    ensures (a + Modulus * k) % Modulus == a % Modulus
  {
    var q := a / Modulus;
    var r := a % Modulus;
    assert a + Modulus * k == Modulus * (q + k) + r;
  }

  /** Values that differ by a multiple of 2^32 wrap to the same word. */
  lemma WrapShift(a: int, k: int)
    ensures Wrap32(a + Modulus * k) == Wrap32(a)
  {
    ModShift(a, k);
  }

  /** `Wrap32(x)` differs from `x` by a multiple of 2^32. */
  lemma WrapQuotient(x: int) returns (q: int)
    ensures Wrap32(x) == x + Modulus * q
  {
    var r := x % Modulus;
    assert x == Modulus * (x / Modulus) + r;
    q := if r < 0x8000_0000 then -(x / Modulus) else -(x / Modulus) - 1;
  }

  /** The loop computes the 32-bit wrap-around of the polynomial hash: every
      intermediate wrap can be deferred to the end. */
  lemma {:induction false} HashIsWrappedPoly(code: string)
    ensures HashOf(code) == Wrap32(Poly(code))
  {
    if code != [] {
      var init := code[..|code| - 1];
      var c := code[|code| - 1] as int;
      HashIsWrappedPoly(init);
      var p := Poly(init);
      var w := Wrap32(p);
      var a := WrapQuotient(p);
      var b := WrapQuotient(w * 32);
      assert Wrap32(w * 32) - w + c == (31 * p + c) + Modulus * (31 * a + b);
      WrapShift(31 * p + c, 31 * a + b);
    }
  }

  /** `getServerForCode`, returning the index into the server table. */
  method GetServerForCode(code: string) returns (index: nat)
    ensures index == ServerIndex(code) && index < |ServerHosts|
  {
    var hash := 0;
    for i := 0 to |code|
      invariant hash == HashOf(code[..i])
    {
      var shifted := Wrap32(hash * 32);
      hash := Wrap32(shifted - hash + code[i] as int);
      assert code[..i + 1][..i] == code[..i];
    }
    assert code[..|code|] == code;
    index := Abs(hash) % ServerCount;
  }

  // ---------------------------------------------------------------------------
  // Sending

  /** `CHUNK_SIZE`, 64 KiB; written out as a literal below so that the offsets stay linear. */
  const ChunkSize: nat := 0x1_0000

  /** `Math.ceil(length / CHUNK_SIZE)`. */
  function ChunkCount(length: nat): (n: nat)
    ensures length <= n * 0x1_0000
    ensures n > 0 ==> (n - 1) * 0x1_0000 < length
  {
    (length + 0xFFFF) / 0x1_0000
  }

  /** Chunk `i`: `data.slice(i * CHUNK_SIZE, min(i * CHUNK_SIZE + CHUNK_SIZE, data.length))`. */
  function ChunkAt(data: seq<byte>, i: nat): (chunk: seq<byte>)
  {
    Slice(data, i * 0x1_0000, Min(i * 0x1_0000 + 0x1_0000, |data|))
  }

  /** The chunks sent: one per `ChunkSize` bytes, and a single empty one for empty data. */
  function Chunks(data: seq<byte>): (cs: seq<seq<byte>>)
    ensures |cs| == Max(1, ChunkCount(|data|))
    ensures forall i :: 0 <= i < |cs| ==> |cs[i]| <= ChunkSize && (|data| > 0 ==> |cs[i]| > 0)
  {
    seq(Max(1, ChunkCount(|data|)), i requires 0 <= i => ChunkAt(data, i))
  }

  lemma {:induction false} ChunksPrefix(data: seq<byte>, k: nat)
    requires k <= |Chunks(data)|
    ensures Flatten(Chunks(data)[..k]) == data[..Min(k * 0x1_0000, |data|)]
  {
    var cs := Chunks(data);
    if k > 0 {
      ChunksPrefix(data, k - 1);
      assert cs[..k][..k - 1] == cs[..k - 1];
      var lo := (k - 1) * 0x1_0000;
      var hi := Min(k * 0x1_0000, |data|);
      assert Min(lo, |data|) <= hi;
      assert cs[k - 1] == data[Min(lo, |data|)..hi];
      assert data[..hi] == data[..Min(lo, |data|)] + data[Min(lo, |data|)..hi];
    }
  }

  /** Concatenating the chunks gives the data back. */
  lemma ChunksCoverData(data: seq<byte>)
    ensures Flatten(Chunks(data)) == data
  {
    var cs := Chunks(data);
    ChunksPrefix(data, |cs|);
    assert cs[..|cs|] == cs;
  }

  /** A message on the data channel.  `Start` is the JSON metadata text,
      `OtherText` any other string, `Binary` an `ArrayBuffer`, `Uint8Array` or `Blob`. */
  datatype Message = Start(totalChunks: nat, totalSize: nat) | OtherText | Binary(bytes: seq<byte>)

  function AsciiBytes(s: string): (b: seq<byte>)
    requires forall k :: 0 <= k < |s| ==> s[k] as int < 128
    ensures |b| == |s| && forall k :: 0 <= k < |s| ==> b[k] == s[k] as int
  {
    seq(|s|, k requires 0 <= k < |s| => s[k] as int)
  }

  /** The UTF-8 encoding of `__TRANSFER_COMPLETE__`. */
  const EndMarker: seq<byte> := AsciiBytes("__TRANSFER_COMPLETE__")

  /** The byte-order mark `TextDecoder` removes before comparing. */
  const Utf8Bom: seq<byte> := [0xEF, 0xBB, 0xBF]

  function Binaries(cs: seq<seq<byte>>): (ms: seq<Message>)
    ensures |ms| == |cs| && forall i :: 0 <= i < |cs| ==> ms[i] == Binary(cs[i])
  {
    seq(|cs|, i requires 0 <= i < |cs| => Binary(cs[i]))
  }

  /** Everything `sendData` puts on the channel: the metadata, the chunks, the end marker. */
  function Transmission(data: seq<byte>): (ms: seq<Message>)
    ensures |ms| == |Chunks(data)| + 2
  {
    [Start(ChunkCount(|data|), |data|)] + Binaries(Chunks(data)) + [Binary(EndMarker)]
  }

  /** `sendData` on an open connection whose sends all succeed.  The first chunk is
      sent unconditionally; each further one is scheduled while fewer than
      `totalChunks` have gone. */
  method SendData(data: seq<byte>) returns (sent: seq<Message>)
    ensures sent == Transmission(data)
  {
    var totalChunks := ChunkCount(|data|);
    var chunks := Chunks(data);
    sent := [Start(totalChunks, |data|)];
    sent := sent + [Binary(ChunkAt(data, 0))];
    var sentChunks := 1;
    while sentChunks < totalChunks
      invariant 1 <= sentChunks <= |chunks|
      invariant sent == [Start(totalChunks, |data|)] + Binaries(chunks[..sentChunks])
    {
      sent := sent + [Binary(ChunkAt(data, sentChunks))];
      sentChunks := sentChunks + 1;
    }
    assert chunks[..sentChunks] == chunks;
    sent := sent + [Binary(EndMarker)];
  }

  // ---------------------------------------------------------------------------
  // Receiving

  /** The promise `receiveData` returns: settled at most once. */
  datatype Outcome = Pending | Resolved(payload: seq<byte>) | Rejected

  /** The receiver's closure state: the chunks so far, `metadata.totalChunks`, `totalSize`. */
  datatype Reception = Reception(chunks: seq<seq<byte>>, metadata: Option<nat>, totalSize: nat, outcome: Outcome)

  const Fresh: Reception := Reception([], None, 0, Pending)

  /** A promise settles only the first time. */
  function Settle(current: Outcome, next: Outcome): (o: Outcome)
    ensures current.Pending? ==> o == next
    ensures !current.Pending? ==> o == current
  {
    if current.Pending? then next else current
  }

  /** Whether a binary message decodes to the end-marker text. */
  predicate IsMarker(b: seq<byte>)
  {
    b == EndMarker || b == Utf8Bom + EndMarker
  }

  /**
   * The buffer the marker produces: the chunks written one after another into
   * `new Uint8Array(totalSize)`.  `None` when a chunk would run past the end,
   * where `set` throws a `RangeError`.
   */
  function Combined(chunks: seq<seq<byte>>, totalSize: nat): (r: Option<seq<byte>>)
    ensures r.None? <==> |Flatten(chunks)| > totalSize
    ensures r.Some? ==> |r.value| == totalSize && r.value[..|Flatten(chunks)|] == Flatten(chunks)
    ensures r.Some? ==> AllZero(r.value[|Flatten(chunks)|..])
  {
    var joined := Flatten(chunks);
    if |joined| <= totalSize then Some(joined + Zeros(totalSize - |joined|)) else None
  }

  /** `processMessage` for one message.  A `RangeError` while combining escapes the
      handler and leaves the promise pending. */
  function Step(st: Reception, m: Message): Reception
  {
    match m
    case Start(totalChunks, totalSize) => st.(metadata := Some(totalChunks), totalSize := totalSize)
    case OtherText => st
    case Binary(b) =>
      if !IsMarker(b) then st.(chunks := st.chunks + [b])
      else match Combined(st.chunks, st.totalSize)
        case None => st
        case Some(buffer) => st.(outcome := Settle(st.outcome, Resolved(buffer)))
  }

  /** The `close` handler: rejects while some but not all announced chunks have
      arrived; a missing or zero `totalChunks` counts as unbounded. */
  function Closed(st: Reception): (r: Reception)
    ensures r.chunks == st.chunks && r.metadata == st.metadata && r.totalSize == st.totalSize
    ensures r.outcome != st.outcome <==>
      st.outcome.Pending? && |st.chunks| > 0 &&
      (st.metadata.None? || st.metadata.value == 0 || |st.chunks| < st.metadata.value)
  {
    var unbounded := st.metadata.None? || st.metadata.value == 0;
    if |st.chunks| > 0 && (unbounded || |st.chunks| < st.metadata.value) then
      st.(outcome := Settle(st.outcome, Rejected))
    else st
  }

  /** Messages processed in order of arrival. */
  function Run(st: Reception, ms: seq<Message>): Reception
    decreases |ms|
  {
    if ms == [] then st else Run(Step(st, ms[0]), ms[1..])
  }

  /** `target.set(source, offset)` where it fits: the bytes at `offset` are overwritten. */
  method SetAt(target: array<byte>, source: seq<byte>, offset: nat)
    requires offset + |source| <= target.Length
    modifies target
    ensures target[..] == old(target[..offset]) + source + old(target[offset + |source|..])
  {
    for j := 0 to |source|
      invariant target[..] == old(target[..offset]) + source[..j] + old(target[offset + j..])
    {
      target[offset + j] := source[j];
      assert source[..j + 1] == source[..j] + [source[j]];
    }
    assert source[..|source|] == source;
  }

  /** The writes of `combined.set(chunk, offset)` for each chunk in turn. */
  method Combine(chunks: seq<seq<byte>>, totalSize: nat) returns (r: Option<seq<byte>>)
    ensures r == Combined(chunks, totalSize)
  {
    FlattenLength(chunks);
    var combined := new byte[totalSize](_ => 0);
    var offset := 0;
    for k := 0 to |chunks|
      invariant offset == Offset(chunks, k) <= totalSize
      invariant combined[..] == Flatten(chunks[..k]) + Zeros(totalSize - offset)
    {
      var chunk := chunks[k];
      FlattenPlacement(chunks, k);
      if offset + |chunk| > totalSize {
        OffsetMonotone(chunks, k + 1, |chunks|);
        return None;
      }
      ghost var before := Flatten(chunks[..k]);
      assert combined[..offset] == before;
      assert combined[offset + |chunk|..] == Zeros(totalSize - offset - |chunk|);
      SetAt(combined, chunk, offset);
      assert chunks[..k + 1][..k] == chunks[..k];
      offset := offset + |chunk|;
    }
    assert chunks[..|chunks|] == chunks;
    r := Some(combined[..]);
  }

  /** The receiving side of one connection, as `receiveData` sets it up. */
  class Receiver {
    var chunks: seq<seq<byte>>
    var metadata: Option<nat>
    var totalSize: nat
    var outcome: Outcome

    function State(): Reception
      reads this
    {
      Reception(chunks, metadata, totalSize, outcome)
    }

    constructor()
      ensures State() == Fresh
    {
      chunks := [];
      metadata := None;
      totalSize := 0;
      outcome := Pending;
    }

    /** The `data` handler. */
    method ProcessMessage(m: Message)
      modifies this
      ensures State() == Step(old(State()), m)
    {
      match m {
        case Start(announced, size) =>
          metadata := Some(announced);
          totalSize := size;
        case OtherText =>
        case Binary(b) =>
          if !IsMarker(b) {
            chunks := chunks + [b];
          } else {
            var buffer := Combine(chunks, totalSize);
            if buffer.Some? {
              outcome := Settle(outcome, Resolved(buffer.value));
            }
          }
      }
    }

    /** The `close` handler. */
    method ConnectionClosed()
      modifies this
      ensures State() == Closed(old(State()))
    {
      var unbounded := metadata.None? || metadata.value == 0;
      if |chunks| > 0 && (unbounded || |chunks| < metadata.value) {
        outcome := Settle(outcome, Rejected);
      }
    }
  }

  // ---------------------------------------------------------------------------
  // Properties of the exchange

  lemma {:induction false} RunAppend(st: Reception, a: seq<Message>, b: seq<Message>)
    ensures Run(st, a + b) == Run(Run(st, a), b)
    decreases |a|
  {
    if a == [] {
      assert a + b == b;
    } else {
      assert (a + b)[1..] == a[1..] + b;
      RunAppend(Step(st, a[0]), a[1..], b);
    }
  }

  /** Chunks that are not the marker are appended in order and nothing else changes. */
  lemma {:induction false} RunChunks(st: Reception, cs: seq<seq<byte>>)
    requires forall i :: 0 <= i < |cs| ==> !IsMarker(cs[i])
    ensures Run(st, Binaries(cs)) == st.(chunks := st.chunks + cs)
    decreases |cs|
  {
    if cs != [] {
      assert Binaries(cs)[1..] == Binaries(cs[1..]);
      RunChunks(st.(chunks := st.chunks + [cs[0]]), cs[1..]);
      assert st.chunks + [cs[0]] + cs[1..] == st.chunks + cs;
    }
  }

  /** No chunk of the payload reads as the end marker. */
  predicate NoMarkerChunk(data: seq<byte>)
  {
    forall i :: 0 <= i < |Chunks(data)| ==> !IsMarker(Chunks(data)[i])
  }

  /** The state after the metadata and the chunks, before the marker. */
  lemma AllChunksArrived(data: seq<byte>)
    requires NoMarkerChunk(data)
    ensures Run(Fresh, Transmission(data)[..|Chunks(data)| + 1]) ==
      Reception(Chunks(data), Some(ChunkCount(|data|)), |data|, Pending)
  {
    var ms := Transmission(data);
    var start := [Start(ChunkCount(|data|), |data|)];
    assert ms[..|Chunks(data)| + 1] == start + Binaries(Chunks(data));
    RunAppend(Fresh, start, Binaries(Chunks(data)));
    RunChunks(Run(Fresh, start), Chunks(data));
  }

  /** Sending data to a fresh receiver resolves its promise with exactly that data,
      and a later `close` leaves it so. */
  lemma TransferRoundTrip(data: seq<byte>)
    requires NoMarkerChunk(data)
    ensures Run(Fresh, Transmission(data)).outcome == Resolved(data)
    ensures Closed(Run(Fresh, Transmission(data))).outcome == Resolved(data)
  {
    var ms := Transmission(data);
    var n := |Chunks(data)| + 1;
    AllChunksArrived(data);
    assert ms == ms[..n] + [Binary(EndMarker)];
    RunAppend(Fresh, ms[..n], [Binary(EndMarker)]);
    ChunksCoverData(data);
    assert data + Zeros(0) == data;
  }

  /** A connection that closes after the metadata and only some of the announced
      chunks rejects the promise. */
  lemma EarlyCloseRejects(data: seq<byte>, k: nat)
    requires NoMarkerChunk(data)
    requires 0 < k < ChunkCount(|data|)
    ensures Closed(Run(Fresh, Transmission(data)[..k + 1])).outcome == Rejected
  {
    var ms := Transmission(data);
    var cs := Chunks(data)[..k];
    var start := [Start(ChunkCount(|data|), |data|)];
    assert ms[..k + 1] == start + Binaries(cs);
    RunAppend(Fresh, start, Binaries(cs));
    RunChunks(Run(Fresh, start), cs);
  }

  /** Once settled, the promise keeps its value whatever arrives next. */
  lemma {:induction false} SettledStays(st: Reception, ms: seq<Message>)
    requires !st.outcome.Pending?
    ensures Run(st, ms).outcome == st.outcome
    decreases |ms|
  {
    if ms != [] {
      SettledStays(Step(st, ms[0]), ms[1..]);
    }
  }
}

=== FILE: wrappers.dfy ===
/** Failure-carrying result types shared by every module of the model. */
module Wrappers {

  /** A value that may be absent: JavaScript `null`/`undefined`, Python `None`. */
  datatype Option<+T> = None | Some(value: T)

  /** An outcome that is either a value or the error the source raises or throws. */
  datatype Result<+T, +E> = Ok(value: T) | Err(error: E)
}
